=== FILE: README.md ===
# ShotGrid to Resilio Connect state sync, in Dafny

A ShotGrid webhook comes in, and the system makes the hybrid-work jobs of a Resilio Connect Management Console match what ShotGrid says.

**The sync.** For every active shot and every assigned artist the configuration knows, the artist's agent gets a shot job. That job is named `HybridWork_{artist}_{project}_{shot}` and points at the shot folder. The job is created or re-pathed, started if no run is active, and the shot folder is hydrated. Then every artist gets one assets job per project (`HybridWork_{artist}_{project}_Assets`). Nothing is ever deleted.

**This model covers**
- the REST client: headers, URL, error classification, and the `/api/v2` endpoints as a command set;
- the Resilio helper calls;
- the ShotGrid snapshot;
- the path templates and job names;
- the sync loop with its summary counters;
- the webhook front end: signature, entity id, route key, refusal order, and the gates of the two handlers.

**Modules**
- `Outcomes`: Option and Result.
- `Strings`: `str.lower` (ASCII), `str.replace`, `split`/`join`, `rstrip` and integer formatting, with their laws.
- `Seqs`: first match, filter, count and distinct.
- `Api` (`functions/api.py`):
  - `Classify` models the `authorized_api_request` wrapper.
  - Every helper from `_get_agents` to `_restart_agent_in_active_job_run` is a `Command`. `CallOf` gives each command its verb, endpoint, query parameters and body.
- `Paths` and `Names`: `get_base_paths`, `build_shot_path`, `build_assets_path` and `generate_job_names`, plus what a lookup pattern matches.
- `Resilio`: the `ResilioStateAPI` methods.
  - The Management Console is a `Server` value (jobs, agents, runs, next id).
  - A `World` pairs the server with the log of commands sent to it.
  - Which calls fail is an `Oracle`: a map from a call's position in the log to the error it raises. `Reliable(o)` means no call fails.
- `ShotGrid`: `get_active_shots_with_assignments` over the records a ShotGrid query returns.
- `Sync`: `sync_resilio_to_shotgrid_state` as written.
- `SyncResults`: the summary and its bookkeeping.
- `SyncRerun`: what a run leaves on the server and what a second run does.
- `Webhook` (`functions/main.py`).

**Nothing is deleted.** `sync_resilio_to_shotgrid_state` only creates or updates jobs. It never calls `delete_job_if_exists` (functions/resilio_state_sync.py:127-140), so a job whose shot is no longer active stays on the console. The model does the same.

## Model

| member | source | states |
|---|---|---|
| Api.Headers | functions/api.py:15-18 | Every request carries exactly two headers: `Authorization` is `Token ` followed by the client's token, and `Content-Type` is `application/json`. |
| Api.Prepare | functions/api.py:14-21 | A request goes to the console address, then `/api/v2`, then the endpoint path. The headers and the client's verify flag are attached. Verb, query parameters and body pass through unchanged. |
| Api.UrlDeterminesPath | functions/api.py:21 | Two requests of one client with the same URL name the same endpoint path. |
| Api.Classify | functions/api.py:23-37 | A transport exception, and nothing else, becomes a connection error. A response passes through exactly when its status is below 400. Only status 401 is Unauthorized. An error's message is the body's `message` field (or empty), or the raw text when the body is not JSON. A JSON error body that is not an object escapes as a non-API error. |
| Api.GetJson | functions/api.py:75-80 | It succeeds exactly when the wrapper passes the response and the body is JSON, and it returns that body. A non-JSON body is a generic API error. A wrapper error is passed on unchanged. |
| Api.Create | functions/api.py:68-73 | It succeeds exactly when the response passes and its JSON object has an `id`, and it returns that id. A non-JSON body is a generic API error. A wrapper error is passed on unchanged. |
| Api.CreatedIdReadsServerId | functions/api.py:121-122 | `int(...)` of a created object's id returns the server's id, whether the server sent it as a number or as a decimal string. |
| Api.ParsePathRoundTrip | functions/api.py:83-159 | Every endpoint path the helpers format can be parsed back to the endpoint and its ids. |
| Api.PathInjective | functions/api.py:83-159 | Different endpoints never share a path: `/agents/config`, `/runs/{id}/agents/stop` and `/runs/{id}/agents/restart` cannot be confused with an id-bearing path. |
| Api.CommandRoundTrip | functions/api.py:83-159 | The verb, endpoint, query parameters and body that a helper sends identify the helper and all its arguments. |
| Api.CreateJobDefaults | functions/api.py:121-122 | `_create_job` with its default sends `POST /jobs`, with `ignore_errors=false` as the only query parameter and the attributes as the body. |
| Api.RequestsDistinguishCommands | functions/api.py:83-159 | Two helper calls that produce the same prepared request are the same call. |
| Paths.DefaultShotPath | functions/resilio_state_sync.py:265-278 | Without a configured template, a shot's folder is `/Volumes/Company/{project}/2_WORK/1_SEQUENCES/{sequence}/{shot}`, provided the project and sequence contain no later placeholder. |
| Paths.SequentialExpansion | functions/resilio_state_sync.py:273-278 | The three replacements run in sequence, so a project named `${SHOT}` is expanded again into the shot code. |
| Paths.DefaultAssetsPath | functions/resilio_state_sync.py:265-283 | Without a configured template, a project's assets folder is `/Volumes/Company/{project}/2_WORK/2_ASSETS`, whatever the project name. |
| Paths.ConfiguredTemplateVerbatim | functions/resilio_state_sync.py:265-283 | A configured template without placeholders is used as the path whatever the shot, sequence or project. |
| Paths.Variants | functions/resilio_state_sync.py:75-79 | The Linux and macOS paths equal the given path. The Windows path is the same path with each `/` turned into `\`. |
| Paths.WinVariantRoundTrip | functions/resilio_state_sync.py:75-79 | The Windows path contains no `/`. For a path without `\`, turning `\` back into `/` recovers the original. |
| Names.JobName | functions/resilio_state_sync.py:285-290 | A job name starts with `HybridWork_`, and its length is the length of its fields plus the separators. |
| Names.ParseJobNameRoundTrip | functions/resilio_state_sync.py:285-290 | When the artist and project contain no `_`, splitting a job name on `_` gives back the artist, the project, and the shot code (or `Assets`), even when the shot code contains `_`. |
| Names.JobNameInjective | functions/resilio_state_sync.py:285-290 | For `_`-free artists and projects, equal job names mean equal artist, project and last field. |
| Names.UnderscoreAmbiguity | functions/resilio_state_sync.py:285-290 | With `_` in names, different (artist, project) pairs produce the same job name. |
| Names.ShotNamedLikeAssetsJob | functions/resilio_state_sync.py:285-290 | A shot coded `Assets` and a shot with an empty code both get the name of the artist's assets job for that project. |
| Names.MatchShape | functions/resilio_state_sync.py:28-35 | A name that `^pattern$` matches case-insensitively equals the pattern up to ASCII case, except that it may carry one trailing newline. |
| ShotGrid.SequenceOfFields | functions/resilio_state_sync.py:198-200 | The sequence of a code `a_b…` is its first two `_`-separated fields joined by `_`. |
| ShotGrid.SequenceOfPlain | functions/resilio_state_sync.py:198-200 | A code without `_` is its own sequence. |
| ShotGrid.SequenceExample | functions/resilio_state_sync.py:198-200 | `TST_010_0010` lies in sequence `TST_010`. |
| ShotGrid.NamedAssignees | functions/resilio_state_sync.py:209-215 | A shot's artists are exactly the non-empty assignee names of its tasks. |
| ShotGrid.AddProjectsSpec | functions/resilio_state_sync.py:217-220 | Recording a shot's project for its artists adds exactly that (artist, project) pair for each artist. Every other artist's projects stay as they were, and no artist appears twice. |
| ShotGrid.BuildSpec | functions/resilio_state_sync.py:186-235 | The loop over shots fails exactly when some shot makes it raise. Otherwise the snapshot summarises the shots: one entry per shot with a tank name, in order, and the artist/project pairs of those entries. |
| ShotGrid.SnapshotContents | functions/resilio_state_sync.py:186-240 | When no shot raises, the snapshot has one entry per shot with a tank name, in order. An artist lists a project exactly when some entry assigns that artist to that project. |
| ShotGrid.SnapshotFailure | functions/resilio_state_sync.py:242-244 | Any shot that raises empties the whole snapshot. A non-empty snapshot means no shot raised. |
| ShotGrid.NoTankSkipped | functions/resilio_state_sync.py:194-196 | A shot whose project has no tank name leaves the snapshot unchanged. |
| ShotGrid.GetActiveShots | functions/resilio_state_sync.py:178-244 | A failed query for active shots gives the empty snapshot. |
| Resilio.MatchingJobs | functions/resilio_state_sync.py:32-37 | It keeps exactly the jobs whose name matches the pattern. The first one kept is the first matching job in server order. |
| Resilio.FindJobsByPattern | functions/resilio_state_sync.py:22-39 | It sends one `GET /jobs`. A failed call gives no jobs. Otherwise it gives exactly the server's jobs that match, in server order (`MatchingJobs`). |
| Resilio.FindAgentByName | functions/resilio_state_sync.py:41-50 | It sends one `GET /agents`. It returns the first agent whose name equals the given name up to ASCII case. It returns none exactly when the call fails or no agent matches. |
| Resilio.GetActiveRunForJob | functions/resilio_state_sync.py:52-62 | It sends one `GET /runs` filtered by job. A run it returns belongs to the job and is running, active or in progress (in any case). It is the first such run of the job in server order: no earlier run of the job is active. It returns none exactly when the call fails or the job has no such run. |
| Seqs.FirstWhereOfFilter | functions/resilio_state_sync.py:56-59 | Searching the job's runs for the first active one finds the first run of the whole list that both belongs to the job and is active, and it finds one exactly when such a run exists. |
| Resilio.NewGroup | functions/resilio_state_sync.py:72-81 | A new job's group holds just the given agent with read-write permission, at the given path and its Windows variant. |
| Resilio.CreateHybridWorkJob | functions/resilio_state_sync.py:64-88 | It sends one `POST /jobs` with the default `ignore_errors`. It fails exactly when that call fails. Then the server is unchanged, and the error is re-raised as a plain `ApiError` whatever its original kind. On success the server gains exactly one job, with the next id, the name, the description and the new group. |
| Resilio.Repath | functions/resilio_state_sync.py:98-104 | Re-pathing keeps every group's agents and permission. Groups without a path are untouched. Every group with a path becomes that same group with its path replaced by the new path in all three variants. |
| Resilio.RepathLastWins | functions/resilio_state_sync.py:98-104 | Re-pathing twice equals re-pathing once to the last path; in particular re-pathing is idempotent. |
| Resilio.UpdateJobPath | functions/resilio_state_sync.py:90-109 | It reads the job first. It succeeds exactly when the read succeeds, the job exists and the write succeeds. Then only that job's groups change, re-pathed. On failure the server is unchanged, and the error is re-raised as a plain `ApiError`. |
| Resilio.HydratePayload | functions/resilio_state_sync.py:117-119 | The payload lists the files. It has an `agents` key exactly when a non-empty agent list was given. |
| Resilio.HydrateFiles | functions/resilio_state_sync.py:111-125 | More than 1000 files fails before any request is sent. Otherwise exactly one `PUT /runs/{id}/files/hydrate` is sent, and it fails exactly when that call fails. Such a failure is re-raised as a plain `ApiError`. |
| Resilio.StartJob | functions/resilio_state_sync.py:142-149 | It sends one `POST /runs` for the job. It fails exactly when that call fails. Then the server is unchanged, and the error is re-raised as a plain `ApiError`. On success the server gains exactly one running run, whose id is the one returned. |
| Resilio.Reraised | functions/resilio_state_sync.py:87-88 | An error caught and raised again is a plain `ApiError`: an `Unauthorized` or connection error loses its subclass. |
| Resilio.DeleteJobIfExists | functions/resilio_state_sync.py:127-140 | It reports a deletion exactly when both calls succeed and a job has the name. Only the first job of that name is removed. Every failure leaves the server unchanged. |
| Resilio.DeleteRemovesFirstNamed | functions/resilio_state_sync.py:130-136 | A deletion removes exactly one job, and exactly one job of that name. |
| Sync.Upsert | functions/resilio_state_sync.py:344-364 | The server never loses a job. On success a job of that name exists. When the lookup succeeds and finds the name, the job is updated and never created. A creation happens only when the lookup failed or found nothing. With no failing call, the upsert succeeds. A created job is appended with the name, the description and one read-write group for the agent at the given path. An updated job keeps its place, and only its groups change, re-pathed to the given path. |
| Sync.UpsertUpdatesFirstMatch | functions/resilio_state_sync.py:345-351 | When an upsert updates, the job it updates is the first job in server order whose name the lookup matches. |
| Sync.FailedLookupDuplicates | functions/resilio_state_sync.py:344-364 | A lookup that fails is read as "no such job", so the sync creates a second job with a name that already exists. |
| Sync.ShotPair | functions/resilio_state_sync.py:325-337 | An artist the configuration does not know is skipped without any call. For a known artist whose agent the lookup does not find (the call fails or no agent name matches up to case), exactly one `AgentNotFound` error is added after one `GET /agents`, and nothing else changes. No step removes a job from the server. |
| Sync.AssetsArtist | functions/resilio_state_sync.py:403-411 | An artist the configuration does not know is skipped without any call. A known artist whose agent is not found is skipped after one `GET /agents`, with no error recorded. No assets step removes a job. |
| Sync.RunSync | functions/resilio_state_sync.py:292-457 | A run never deletes or renames a job and never touches the agents. The server's job names after the run extend the names before it, in the same order. |
| SyncResults.ShotPhaseLedger | functions/resilio_state_sync.py:320-400 | The shot loop adds exactly one detail or one error for each (shot, artist) pair the configuration knows. The created, updated and hydrated counters agree with those entries. |
| SyncResults.AssetsPhaseLedger | functions/resilio_state_sync.py:403-452 | The assets loop adds only assets entries. It leaves the shot counters, the shot entries and the processed artists as they were. |
| SyncResults.SyncToShotGrid | functions/resilio_state_sync.py:292-457 | In the returned summary: shot jobs created plus updated equals the shot details plus the shot errors raised after the upsert. The hydrated count equals the hydrated shot details, and the assets counters equal the assets details. `artists_processed` is the number of distinct artists with a shot detail. Shot details plus shot errors equal the known (shot, artist) pairs. All shot entries precede all assets entries. |
| SyncRerun.SyncCovers | functions/resilio_state_sync.py:320-452 | After a run in which no call fails, the server holds a job that the lookup matches (its name equals the job name up to ASCII case, with at most one trailing newline) for every known (artist, shot) pair whose agent exists. It also holds one for every project of such an artist. |
| SyncRerun.RerunCreatesNothing | functions/resilio_state_sync.py:344-364 | A run with no failing call over a server that already holds all those jobs creates no job. |
| SyncRerun.SecondRunCreatesNothing | functions/resilio_state_sync.py:292-457 | Running the sync twice with no failing call, the second run creates no job. |
| SyncRerun.UnknownArtistsIgnored | functions/resilio_state_sync.py:325-328 | With no artist of the snapshot in the configuration, the sync sends no request and returns an all-zero summary with no details or errors. |
| Webhook.VerifySig | functions/main.py:111-123 | A signature is accepted exactly when it is the expected digest, with or without one `sha1=` prefix. |
| Webhook.DoublePrefixRejected | functions/main.py:113-118 | Only one `sha1=` is stripped. A missing or empty signature is refused. |
| Webhook.EntityId | functions/main.py:125-140 | A present `entity_id` wins, whatever its value. Otherwise the id comes from an `entity` object, and is null when that object is absent or has no id. |
| Webhook.NullEntityIdHidesNested | functions/main.py:128-129 | A null `entity_id` hides an `entity.id` that is present. |
| Webhook.RouteKey | functions/main.py:302 | A non-empty route, lower-cased, is the key. Otherwise the key is the lower-cased last segment of the path: a stretch with no `/` that starts the path or follows a `/`, that does not end in `/`, and after which only `/` follows. |
| Webhook.LastSegment | functions/main.py:302 | `rstrip('/').split('/')[-1]` is the path's last segment in that sense, taken from its exact position in the path. |
| Webhook.RouteKeyOfPath | functions/main.py:302 | Without a route, the key is the path's last non-empty segment, lower-cased, whatever trailing slashes follow. |
| Webhook.ShotStatusGate | functions/main.py:232-252 | A payload without a `data` object crashes the handler. Only a change of `sg_status_list` is handled, and everything else is ignored. The sync runs exactly for a non-null entity id when the console is configured, with that id. |
| Webhook.AssignmentGate | functions/main.py:144-225 | The sync runs exactly when the console is configured, the id is truthy, the task exists, and it links to a shot that exists and is active. A "not active" answer carries a status other than active. The caught-exception answer (`Failed`, HTTP 200 with an error body) comes only from a missing or non-object `data` or a task entity that is not an object. |
| Webhook.ZeroIdAsymmetry | functions/main.py:239-240 | The shot-status handler's `is None` test accepts entity id 0, while the assignment handler's `if not task_id` (functions/main.py:153) rejects it as missing. |
| Webhook.Dispatch | functions/main.py:300-328 | A bad signature answers 401 whatever the body. A well-signed request that is not a JSON object answers 400. A signed JSON request answers 404 exactly when its key is neither `assignment` nor a shot-status key. Otherwise it goes to the matching handler, and an unreadable shot-status payload is a server error. |
| Webhook.RefusalOrder | functions/main.py:308-328 | The signature is checked before the body is parsed, and the body before the route, so a 404 implies a valid signature and a JSON-object body. |
| Webhook.EntryPointsNeverNotFound | functions/main.py:352-361 | The two deployed entry points pass their route, so neither ever answers 404, whatever the path. |

## Left out

- HTTP, Flask and the Cloud Functions runtime. A request is a `Delivery` record, and a response is its status class.
- HMAC-SHA1 itself. The digest the server computes for the body is an input that is assumed to be a 40-digit lower-case hex string. `hmac.compare_digest` raising on a non-ASCII signature is not modelled.
- The timestamp lag added to a handled response (functions/main.py:330-338), because it reads the clock.
- YAML configuration loading, environment variables and logging. The configuration is a `Config` value, and "credentials configured" is a boolean.
- Regular expressions. Lookup patterns are assumed free of regex metacharacters (`RegexSafe`). The `*` → `.*` rewrite therefore never fires and is not modelled.
- Webhook.RouteKey: `str.lower` is modelled as ASCII lower-casing only, so for a path with non-ASCII letters the stated key differs from Python's. Routing is the same, because every route key the handlers test is ASCII and contains no `k`, the only ASCII letter that a non-ASCII character (U+212A) lower-cases to.
- Names.MatchShape: `re.IGNORECASE` is modelled as ASCII case folding only. Full Unicode case folding is left out.
- ShotGrid.GetActiveShots: the ShotGrid queries are an input. The Python sets of assignees and of projects per artist are kept in first-seen order, since Python's set order is unspecified.
- Error texts are not modelled. Errors carry their kind and a message, not the formatted strings.
- Resilio.Reraised: the new error keeps the message of the error it replaces. The `Failed to …: {e}` prefix the source adds is not modelled.
- Resilio.HydrateFiles: the console's reply to a hydrate request (the per-agent statuses) comes from the oracle rather than the server state.
- Resilio.GetActiveRunForJob: the console's `job_id` filter is taken to return exactly that job's runs.
- Resilio.StartJob: a new run is assumed to be in status `running`.
- Resilio.CreateHybridWorkJob: the group id the console assigns is not modelled. A failed call is assumed to change nothing on the server.
- `int(...)` (`Strings.ParseInt`) accepts an optional sign and decimal digits only. The whitespace around the digits and the `_` between them that Python also accepts are not modelled.
- JSON numbers are integers (`Api.Json`). Floating-point numbers are not modelled, because the ids and counters this client reads are integral.
- A created id that `int(...)` cannot read raises a `ValueError` or `TypeError` in `_create_group`, `_create_job` and `_create_job_run` (functions/api.py:106, 122, 141). That exception escapes `create_hybrid_work_job` and `start_job`, and it is not modelled.
- ShotGrid error replies that arrive with HTTP status 200 are not modelled.
- A non-API exception raised inside `find_agent_by_name` or `find_jobs_by_pattern` (a malformed console reply) is not modelled. In the source it would escape these helpers.
- The exception handlers around the sync inside the two webhook handlers (functions/main.py:223-225 and 294-296) are not modelled. In the model the sync itself never raises: its failures are recorded in the summary.
- The other `ApiBaseCommands` helpers are modelled only as commands (endpoint, verb and payload), because the sync never calls them.
- `find_task` and `find_shot` (functions/main.py:75-107) are record lookups. A failed lookup behaves like a missing record.

=== FILE: api.dfy ===
/** The Resilio Connect REST client (functions/api.py) and its exception
    hierarchy (functions/errors.py): how a request is addressed, how the
    outcome of a request is classified, how created ids are read back, and
    which endpoint each helper command talks to. */
module Api {
  import opened Outcomes
  import opened Strings

  // ---------------------------------------------------------------------
  // JSON values

  /** A JSON document as `response.json()` returns it. Numbers are
      integers; the ids and counters this client handles are integral. */
  datatype Json =
    | JNull
    | JBool(b: bool)
    | JNum(n: int)
    | JStr(s: string)
    | JArr(items: seq<Json>)
    | JObj(fields: map<string, Json>)

  /** Python truthiness of a JSON value. */
  predicate Truthy(j: Json)
  {
    match j
    case JNull => false
    case JBool(b) => b
    case JNum(n) => n != 0
    case JStr(s) => |s| > 0
    case JArr(items) => |items| > 0
    case JObj(fields) => |fields| > 0
  }

  /** `d.get(key, default)` on a JSON object. */
  function GetOr(fields: map<string, Json>, key: string, default: Json): Json
  {
    if key in fields then fields[key] else default
  }

  // ---------------------------------------------------------------------
  // Errors

  /** The three classes of errors.py: `ApiConnectionError` and
      `ApiUnauthorizedError` both derive from `ApiError`, so every value of
      this type is an `ApiError`. */
  datatype ErrorKind = Connection | Unauthorized | Generic

  datatype ApiError = ApiError(kind: ErrorKind, message: Json)

  /** What a client call can raise: an `ApiError`, or one of Python's own
      exceptions (`AttributeError`, `KeyError`, `TypeError`, `ValueError`),
      which `except ApiError` does not catch. */
  datatype Raised = Api(error: ApiError) | NotApi(exception: string)

  const ConnectionFailedMessage := "Connection to Management Console failed"
  const NotJsonPrefix := "Response is not a json: "

  // ---------------------------------------------------------------------
  // Addressing

  const BaseApiUrl := "/api/v2"

  /** `ApiBaseCommands(address, token, verify)` */
  datatype Client = Client(address: string, token: string, verify: bool)

  function BaseUrl(c: Client): string
  {
    c.address + BaseApiUrl
  }

  datatype Verb = Get | Post | Put | Delete

  /** The arguments handed to `requests`: method, full URL, headers, TLS
      verification flag, query parameters and JSON body. */
  datatype Request = Request(
    verb: Verb,
    url: string,
    headers: map<string, string>,
    verify: bool,
    params: Option<Json>,
    body: Option<Json>)

  /** The headers every request carries: exactly the token header and the
      JSON content type. */
  function Headers(c: Client): (h: map<string, string>)
    ensures h.Keys == {"Authorization", "Content-Type"}
    ensures StartsWith(h["Authorization"], "Token ")
    ensures h["Authorization"][|"Token "|..] == c.token
    ensures h["Content-Type"] == "application/json"
  {
    var auth := "Token " + c.token;
    assert auth[..|"Token "|] == "Token ";
    map["Authorization" := auth, "Content-Type" := "application/json"]
  }

  /** The request the decorator issues for a relative path: the URL is
      the address, then `/api/v2`, then the path. */
  function Prepare(c: Client, verb: Verb, path: string, params: Option<Json>, body: Option<Json>): (r: Request)
    ensures StartsWith(r.url, c.address)
    ensures r.url[|c.address|..] == BaseApiUrl + path
    ensures r.headers == Headers(c) && r.verify == c.verify
    ensures r.verb == verb && r.params == params && r.body == body
  {
    var url := BaseUrl(c) + path;
    assert url[..|c.address|] == c.address;
    assert url[|c.address|..] == BaseApiUrl + path;
    Request(verb, url, Headers(c), c.verify, params, body)
  }

  /** Two requests of one client go to the same URL only when they name the
      same path. */
  lemma UrlDeterminesPath(c: Client, v: Verb, p1: string, p2: string)
    ensures Prepare(c, v, p1, None, None).url == Prepare(c, v, p2, None, None).url ==> p1 == p2
  {
    var u1 := Prepare(c, v, p1, None, None).url;
    var u2 := Prepare(c, v, p2, None, None).url;
    if u1 == u2 {
      assert BaseApiUrl + p1 == BaseApiUrl + p2;
      assert p1 == (BaseApiUrl + p1)[|BaseApiUrl|..];
      assert p2 == (BaseApiUrl + p2)[|BaseApiUrl|..];
    }
  }

  // ---------------------------------------------------------------------
  // Classification of a request's outcome

  /** The body of a response: JSON, or text that `json()` cannot decode
      (with the decoder's complaint). */
  datatype Body = JsonBody(value: Json) | TextBody(decodeError: string)

  datatype Response = Response(status: int, text: string, body: Body)

  /** What `requests` produced: a response, or a `RequestException`. */
  datatype Transport = Delivered(response: Response) | TransportFailed

  /** `response.json().get('message', '')`, falling back to the raw text
      when the body is not JSON. A JSON body that is not an object has no
      `get`, which raises `AttributeError`. */
  function ErrorMessage(r: Response): Result<Json, Raised>
  {
    match r.body
    case TextBody(_) => Success(JStr(r.text))
    case JsonBody(JObj(fields)) => Success(GetOr(fields, "message", JStr("")))
    case JsonBody(_) => Failure(NotApi("AttributeError"))
  }

  /** The `authorized_api_request` decorator. */
  function Classify(t: Transport): (r: Result<Response, Raised>)
    // a transport exception becomes ApiConnectionError, and nothing else does
    ensures t.TransportFailed? ==> r == Failure(Api(ApiError(Connection, JStr(ConnectionFailedMessage))))
    ensures r.Failure? && r.error.Api? && r.error.error.kind == Connection ==> t.TransportFailed?
    // a status below 400 passes the response through unchanged
    ensures r.Success? <==> t.Delivered? && t.response.status < 400
    ensures r.Success? ==> r.value == t.response
    // 401 and only 401 is Unauthorized
    ensures r.Failure? && r.error.Api? ==>
              (r.error.error.kind == Unauthorized <==> t.Delivered? && t.response.status == 401)
    // the message of an error response
    ensures t.Delivered? && t.response.status >= 400 && t.response.body.TextBody? ==>
              r.Failure? && r.error.Api? && r.error.error.message == JStr(t.response.text)
    ensures t.Delivered? && t.response.status >= 400 && t.response.body.JsonBody? && t.response.body.value.JObj? ==>
              r.Failure? && r.error.Api? &&
              r.error.error.message == GetOr(t.response.body.value.fields, "message", JStr(""))
    // an error body that is JSON but not an object escapes as a non-API error
    ensures r.Failure? && r.error.NotApi? <==>
              t.Delivered? && t.response.status >= 400 &&
              t.response.body.JsonBody? && !t.response.body.value.JObj?
  {
    match t
    case TransportFailed => Failure(Api(ApiError(Connection, JStr(ConnectionFailedMessage))))
    case Delivered(resp) =>
      if resp.status < 400 then Success(resp)
      else
        match ErrorMessage(resp)
        case Failure(e) => Failure(e)
        case Success(m) =>
          Failure(Api(ApiError(if resp.status == 401 then Unauthorized else Generic, m)))
  }

  /** `_get_json`: the decoded body of a successful call. */
  function GetJson(t: Transport): (r: Result<Json, Raised>)
    ensures r.Success? <==> Classify(t).Success? && t.response.body.JsonBody?
    ensures r.Success? ==> r.value == t.response.body.value
    ensures Classify(t).Success? && t.response.body.TextBody? ==>
              r.Failure? && r.error.Api? && r.error.error.kind == Generic
    ensures Classify(t).Failure? ==> r == Failure(Classify(t).error)
  {
    match Classify(t)
    case Failure(e) => Failure(e)
    case Success(resp) =>
      match resp.body
      case JsonBody(v) => Success(v)
      case TextBody(why) => Failure(Api(ApiError(Generic, JStr(NotJsonPrefix + resp.text + ". " + why))))
  }

  /** `_create`: `r.json()['id']` of a successful POST. A missing key raises
      `KeyError`; indexing a non-object JSON value by a string raises
      `TypeError`; only an undecodable body becomes an `ApiError`. */
  function Create(t: Transport): (r: Result<Json, Raised>)
    ensures r.Success? <==>
              Classify(t).Success? && t.response.body.JsonBody? && t.response.body.value.JObj? &&
              "id" in t.response.body.value.fields
    ensures r.Success? ==> r.value == t.response.body.value.fields["id"]
    ensures Classify(t).Success? && t.response.body.TextBody? ==>
              r.Failure? && r.error.Api? && r.error.error.kind == Generic
    ensures Classify(t).Failure? ==> r == Failure(Classify(t).error)
  {
    match GetJson(t)
    case Failure(e) => Failure(e)
    case Success(JObj(fields)) =>
      if "id" in fields then Success(fields["id"]) else Failure(NotApi("KeyError"))
    case Success(_) => Failure(NotApi("TypeError"))
  }

  /** Python's `int(x)` for a JSON value. Strings are read as an optional
      sign and decimal digits. */
  function ToInt(j: Json): (r: Result<int, Raised>)
    ensures r.Failure? ==> r.error.NotApi?
  {
    match j
    case JNum(n) => Success(n)
    case JBool(b) => Success(if b then 1 else 0)
    case JStr(s) => if ParseInt(s).Some? then Success(ParseInt(s).value) else Failure(NotApi("ValueError"))
    case _ => Failure(NotApi("TypeError"))
  }

  /** `int(self._create(...))`: the id of a created object. */
  function CreatedId(t: Transport): (r: Result<int, Raised>)
    ensures Classify(t).Failure? ==> r == Failure(Classify(t).error)
  {
    match Create(t)
    case Failure(e) => Failure(e)
    case Success(id) => ToInt(id)
  }

  /** A server that answers a POST with `{"id": n}`, as a number or as its
      decimal string, yields the id `n`. */
  lemma CreatedIdReadsServerId(status: int, text: string, n: int, asString: bool)
    requires status < 400
    ensures var id := if asString then JStr(IntToString(n)) else JNum(n);
            var t := Delivered(Response(status, text, JsonBody(JObj(map["id" := id]))));
            CreatedId(t) == Success(n)
  {
    ParseIntToString(n);
  }

  // ---------------------------------------------------------------------
  // Endpoints

  datatype Endpoint =
    | Agents | Agent(agentId: int) | AgentConfig
    | Groups | Group(groupId: int)
    | Jobs | Job(jobId: int) | JobGroups(jobId: int)
    | Runs | Run(runId: int) | RunStop(runId: int)
    | RunAgents(runId: int) | RunAgent(runId: int, agentId: int)
    | RunAgentsStop(runId: int) | RunAgentsRestart(runId: int)
    | RunFilesHydrate(runId: int)

  /** The relative path of an endpoint, as the helpers format it. */
  function Path(e: Endpoint): string
  {
    match e
    case Agents => "/agents"
    case Agent(a) => "/agents/" + IntToString(a)
    case AgentConfig => "/agents/config"
    case Groups => "/groups"
    case Group(g) => "/groups/" + IntToString(g)
    case Jobs => "/jobs"
    case Job(j) => "/jobs/" + IntToString(j)
    case JobGroups(j) => "/jobs/" + IntToString(j) + "/groups"
    case Runs => "/runs"
    case Run(r) => "/runs/" + IntToString(r)
    case RunStop(r) => "/runs/" + IntToString(r) + "/stop"
    case RunAgents(r) => "/runs/" + IntToString(r) + "/agents"
    case RunAgent(r, a) => "/runs/" + IntToString(r) + "/agents/" + IntToString(a)
    case RunAgentsStop(r) => "/runs/" + IntToString(r) + "/agents/stop"
    case RunAgentsRestart(r) => "/runs/" + IntToString(r) + "/agents/restart"
    case RunFilesHydrate(r) => "/runs/" + IntToString(r) + "/files/hydrate"
  }

  /** The `/`-separated segments of an endpoint's path. */
  function Segments(e: Endpoint): seq<string>
  {
    match e
    case Agents => ["agents"]
    case Agent(a) => ["agents", IntToString(a)]
    case AgentConfig => ["agents", "config"]
    case Groups => ["groups"]
    case Group(g) => ["groups", IntToString(g)]
    case Jobs => ["jobs"]
    case Job(j) => ["jobs", IntToString(j)]
    case JobGroups(j) => ["jobs", IntToString(j), "groups"]
    case Runs => ["runs"]
    case Run(r) => ["runs", IntToString(r)]
    case RunStop(r) => ["runs", IntToString(r), "stop"]
    case RunAgents(r) => ["runs", IntToString(r), "agents"]
    case RunAgent(r, a) => ["runs", IntToString(r), "agents", IntToString(a)]
    case RunAgentsStop(r) => ["runs", IntToString(r), "agents", "stop"]
    case RunAgentsRestart(r) => ["runs", IntToString(r), "agents", "restart"]
    case RunFilesHydrate(r) => ["runs", IntToString(r), "files", "hydrate"]
  }

  /** Reads an endpoint back from its segments. */
  function FromSegments(s: seq<string>): Option<Endpoint>
  {
    if |s| == 0 then None
    else if s[0] == "agents" then AgentsFrom(s[1..])
    else if s[0] == "groups" then GroupsFrom(s[1..])
    else if s[0] == "jobs" then JobsFrom(s[1..])
    else if s[0] == "runs" then RunsFrom(s[1..])
    else None
  }

  function AgentsFrom(t: seq<string>): Option<Endpoint>
  {
    if |t| == 0 then Some(Agents)
    else if |t| == 1 && t[0] == "config" then Some(AgentConfig)
    else if |t| == 1 && ParseInt(t[0]).Some? then Some(Agent(ParseInt(t[0]).value))
    else None
  }

  function GroupsFrom(t: seq<string>): Option<Endpoint>
  {
    if |t| == 0 then Some(Groups)
    else if |t| == 1 && ParseInt(t[0]).Some? then Some(Group(ParseInt(t[0]).value))
    else None
  }

  function JobsFrom(t: seq<string>): Option<Endpoint>
  {
    if |t| == 0 then Some(Jobs)
    else if ParseInt(t[0]).None? then None
    else if |t| == 1 then Some(Job(ParseInt(t[0]).value))
    else if |t| == 2 && t[1] == "groups" then Some(JobGroups(ParseInt(t[0]).value))
    else None
  }

  function RunsFrom(t: seq<string>): Option<Endpoint>
  {
    if |t| == 0 then Some(Runs)
    else if ParseInt(t[0]).None? then None
    else
      var r := ParseInt(t[0]).value;
      if |t| == 1 then Some(Run(r))
      else if |t| == 2 && t[1] == "stop" then Some(RunStop(r))
      else if |t| == 2 && t[1] == "agents" then Some(RunAgents(r))
      else if |t| != 3 then None
      else if t[1] == "agents" && t[2] == "stop" then Some(RunAgentsStop(r))
      else if t[1] == "agents" && t[2] == "restart" then Some(RunAgentsRestart(r))
      else if t[1] == "files" && t[2] == "hydrate" then Some(RunFilesHydrate(r))
      else if t[1] == "agents" && ParseInt(t[2]).Some? then Some(RunAgent(r, ParseInt(t[2]).value))
      else None
  }

  /** Reads an endpoint back from a relative path. */
  function ParsePath(p: string): Option<Endpoint>
  {
    var parts := SplitOn(p, '/');
    if parts[0] == "" then FromSegments(parts[1..]) else None
  }

  /** A rendered id never contains `/` and is never one of the fixed
      words of a path. */
  lemma IdIsNotWord(n: int, w: string)
    requires |w| > 0 && !IsDigit(w[0]) && w[0] != '-'
    ensures IntToString(n) != w
    ensures '/' !in IntToString(n)
  {
    var r := IntToString(n);
    if n >= 0 {
      assert IsDigit(r[0]);
      assert forall i :: 0 <= i < |r| ==> r[i] != '/';
    } else {
      assert r[0] == '-';
      assert forall i :: 1 <= i < |r| ==> r[i] == r[1..][i - 1];
    }
  }

  /** The format strings agree with the segment view. */
  lemma PathIsJoinOfSegments(e: Endpoint)
    ensures Path(e) == Join([""] + Segments(e), "/")
  {
    if e.Agents? || e.Agent? || e.AgentConfig? || e.Groups? || e.Group? {
      AgentAndGroupPaths(e);
    } else if e.Jobs? || e.Job? || e.JobGroups? || e.Runs? || e.Run? {
      JobPaths(e);
    } else {
      RunPaths(e);
    }
  }

  lemma AgentAndGroupPaths(e: Endpoint)
    requires e.Agents? || e.Agent? || e.AgentConfig? || e.Groups? || e.Group?
    ensures Path(e) == Join([""] + Segments(e), "/")
  {
    match e
    case Agents => Join1("agents");
    case Agent(a) => UnderDir("/agents/", "agents", IntToString(a));
    case AgentConfig => UnderDir("/agents/", "agents", "config");
    case Groups => Join1("groups");
    case Group(g) => UnderDir("/groups/", "groups", IntToString(g));
  }

  lemma JobPaths(e: Endpoint)
    requires e.Jobs? || e.Job? || e.JobGroups? || e.Runs? || e.Run?
    ensures Path(e) == Join([""] + Segments(e), "/")
  {
    match e
    case Jobs => Join1("jobs");
    case Job(j) => UnderDir("/jobs/", "jobs", IntToString(j));
    case JobGroups(j) => UnderDirTail("/jobs/", "jobs", IntToString(j), "/groups", "groups");
    case Runs => Join1("runs");
    case Run(r) => UnderDir("/runs/", "runs", IntToString(r));
  }

  lemma RunPaths(e: Endpoint)
    requires !(e.Agents? || e.Agent? || e.AgentConfig? || e.Groups? || e.Group?)
    requires !(e.Jobs? || e.Job? || e.JobGroups? || e.Runs? || e.Run?)
    ensures Path(e) == Join([""] + Segments(e), "/")
  {
    match e
    case RunStop(r) => UnderDirTail("/runs/", "runs", IntToString(r), "/stop", "stop");
    case RunAgents(r) => UnderDirTail("/runs/", "runs", IntToString(r), "/agents", "agents");
    case RunAgent(r, a) => RunAgentPath(r, a);
    case RunAgentsStop(r) => RunAgentsStopPath(r);
    case RunAgentsRestart(r) => RunAgentsRestartPath(r);
    case RunFilesHydrate(r) => HydratePath(r);
  }

  /** `/{dir}/{id}` */
  lemma UnderDir(dirPath: string, dir: string, id: string)
    requires dirPath == "/" + dir + "/"
    ensures dirPath + id == Join([""] + [dir, id], "/")
  {
    Join2(dir, id);
  }

  /** `/{dir}/{id}/{tail}` */
  lemma UnderDirTail(dirPath: string, dir: string, id: string, tailPath: string, tail: string)
    requires dirPath == "/" + dir + "/" && tailPath == "/" + tail
    ensures dirPath + id + tailPath == Join([""] + [dir, id, tail], "/")
  {
    Join3(dir, id, tail);
  }

  lemma RunAgentPath(r: int, a: int)
    ensures Path(RunAgent(r, a)) == Join([""] + Segments(RunAgent(r, a)), "/")
  {
    var id := IntToString(r);
    var agent := IntToString(a);
    calc {
      Path(RunAgent(r, a));
      "/runs/" + id + "/agents/" + agent;
      { assert "/agents/" == "/" + "agents" + "/"; }
      "/runs/" + id + ("/" + "agents" + "/") + agent;
      { JoinRunTail(id, "agents", agent); }
      Join([""] + Segments(RunAgent(r, a)), "/");
    }
  }

  lemma RunAgentsStopPath(r: int)
    ensures Path(RunAgentsStop(r)) == Join([""] + Segments(RunAgentsStop(r)), "/")
  {
    var id := IntToString(r);
    calc {
      Path(RunAgentsStop(r));
      "/runs/" + id + "/agents/stop";
      { assert "/agents/stop" == "/" + "agents" + "/" + "stop"; }
      "/runs/" + id + ("/" + "agents" + "/" + "stop");
      { JoinRunTail(id, "agents", "stop"); }
      Join([""] + Segments(RunAgentsStop(r)), "/");
    }
  }

  lemma RunAgentsRestartPath(r: int)
    ensures Path(RunAgentsRestart(r)) == Join([""] + Segments(RunAgentsRestart(r)), "/")
  {
    var id := IntToString(r);
    calc {
      Path(RunAgentsRestart(r));
      "/runs/" + id + "/agents/restart";
      { assert "/agents/restart" == "/" + "agents" + "/" + "restart"; }
      "/runs/" + id + ("/" + "agents" + "/" + "restart");
      { JoinRunTail(id, "agents", "restart"); }
      Join([""] + Segments(RunAgentsRestart(r)), "/");
    }
  }

  lemma HydratePath(r: int)
    ensures Path(RunFilesHydrate(r)) == Join([""] + Segments(RunFilesHydrate(r)), "/")
  {
    var id := IntToString(r);
    calc {
      Path(RunFilesHydrate(r));
      "/runs/" + id + "/files/hydrate";
      { assert "/files/hydrate" == "/" + "files" + "/" + "hydrate"; }
      "/runs/" + id + ("/" + "files" + "/" + "hydrate");
      { JoinRunTail(id, "files", "hydrate"); }
      Join([""] + Segments(RunFilesHydrate(r)), "/");
    }
  }

  /** A four-segment path under `/runs/{id}`. */
  lemma JoinRunTail(id: string, c: string, d: string)
    ensures Join([""] + ["runs", id, c, d], "/") == "/runs/" + id + ("/" + c + "/" + d)
  {
    Join4("runs", id, c, d);
  }

  lemma Join1(a: string)
    ensures Join([""] + [a], "/") == "/" + a
  {
    JoinCons("", [a], "/");
  }

  lemma Join2(a: string, b: string)
    ensures Join([""] + [a, b], "/") == "/" + a + "/" + b
  {
    JoinCons(a, [b], "/");
    assert [a, b] == [a] + [b];
    JoinCons("", [a, b], "/");
  }

  lemma Join3(a: string, b: string, c: string)
    ensures Join([""] + [a, b, c], "/") == "/" + a + "/" + b + "/" + c
  {
    JoinCons(b, [c], "/");
    assert [b, c] == [b] + [c];
    JoinCons(a, [b, c], "/");
    assert [a, b, c] == [a] + [b, c];
    JoinCons("", [a, b, c], "/");
  }

  lemma Join4(a: string, b: string, c: string, d: string)
    ensures Join([""] + [a, b, c, d], "/") == "/" + a + "/" + b + "/" + c + "/" + d
  {
    JoinCons(c, [d], "/");
    assert [c, d] == [c] + [d];
    JoinCons(b, [c, d], "/");
    assert [b, c, d] == [b] + [c, d];
    JoinCons(a, [b, c, d], "/");
    assert [a, b, c, d] == [a] + [b, c, d];
    JoinCons("", [a, b, c, d], "/");
  }

  /** Parsing a rendered path gives back the endpoint, so distinct
      endpoints never share a path. */
  lemma ParsePathRoundTrip(e: Endpoint)
    ensures ParsePath(Path(e)).Some? && ParsePath(Path(e)).value == e
  {
    var segs := [""] + Segments(e);
    PathIsJoinOfSegments(e);
    SegmentsAreClean(e);
    SplitJoin(segs, '/');
    assert SplitOn(Path(e), '/') == segs;
    assert segs[1..] == Segments(e);
    SegmentsRoundTrip(e);
  }

  lemma SegmentsAreClean(e: Endpoint)
    ensures forall k :: 0 <= k < |[""] + Segments(e)| ==> '/' !in ([""] + Segments(e))[k]
  {
    match e
    case Agent(a) => IdIsNotWord(a, "x");
    case Group(g) => IdIsNotWord(g, "x");
    case Job(j) => IdIsNotWord(j, "x");
    case JobGroups(j) => IdIsNotWord(j, "x");
    case Run(r) => IdIsNotWord(r, "x");
    case RunStop(r) => IdIsNotWord(r, "x");
    case RunAgents(r) => IdIsNotWord(r, "x");
    case RunAgent(r, a) => IdIsNotWord(r, "x"); IdIsNotWord(a, "x");
    case RunAgentsStop(r) => IdIsNotWord(r, "x");
    case RunAgentsRestart(r) => IdIsNotWord(r, "x");
    case RunFilesHydrate(r) => IdIsNotWord(r, "x");
    case _ =>
  }

  lemma SegmentsRoundTrip(e: Endpoint)
    ensures FromSegments(Segments(e)).Some? && FromSegments(Segments(e)).value == e
  {
    var s := Segments(e);
    match e
    case Agent(a) =>
      ReadId(a, "config");
      assert s[1..] == [IntToString(a)];
    case AgentConfig => assert s[1..] == ["config"];
    case Group(g) =>
      ReadId(g, "x");
      assert s[1..] == [IntToString(g)];
    case Job(j) =>
      ReadId(j, "x");
      assert s[1..] == [IntToString(j)];
    case JobGroups(j) =>
      ReadId(j, "x");
      assert s[1..] == [IntToString(j), "groups"];
    case Run(r) => RunSegments(e, r);
    case RunStop(r) => RunSegments(e, r);
    case RunAgents(r) => RunSegments(e, r);
    case RunAgent(r, _) => RunSegments(e, r);
    case RunAgentsStop(r) => RunSegments(e, r);
    case RunAgentsRestart(r) => RunSegments(e, r);
    case RunFilesHydrate(r) => RunSegments(e, r);
    case _ => assert s[1..] == [];
  }

  lemma RunSegments(e: Endpoint, r: int)
    requires e.Run? || e.RunStop? || e.RunAgents? || e.RunAgent? || e.RunAgentsStop? ||
             e.RunAgentsRestart? || e.RunFilesHydrate?
    requires e.runId == r
    ensures RunsFrom(Segments(e)[1..]).Some? && RunsFrom(Segments(e)[1..]).value == e
  {
    ReadId(r, "x");
    var id := IntToString(r);
    var t := Segments(e)[1..];
    match e
    case Run(_) => assert t == [id];
    case RunStop(_) => assert t == [id, "stop"];
    case RunAgents(_) => assert t == [id, "agents"];
    case RunAgent(_, a) =>
      ReadId(a, "stop");
      ReadId(a, "restart");
      assert t == [id, "agents", IntToString(a)];
    case RunAgentsStop(_) => assert t == [id, "agents", "stop"];
    case RunAgentsRestart(_) => assert t == [id, "agents", "restart"];
    case RunFilesHydrate(_) => assert t == [id, "files", "hydrate"];
  }

  lemma ReadId(n: int, w: string)
    requires |w| > 0 && !IsDigit(w[0]) && w[0] != '-'
    ensures ParseInt(IntToString(n)).Some? && ParseInt(IntToString(n)).value == n
    ensures IntToString(n) != w
  {
    ParseIntToString(n);
    IdIsNotWord(n, w);
  }

  lemma PathInjective(e1: Endpoint, e2: Endpoint)
    ensures Path(e1) == Path(e2) ==> e1 == e2
  {
    ParsePathRoundTrip(e1);
    ParsePathRoundTrip(e2);
  }

  // ---------------------------------------------------------------------
  // Helper commands

  /** One value per helper method of `ApiBaseCommands`, plus the hydrate
      request `ResilioStateAPI.hydrate_files` sends. */
  datatype Command =
    | GetAgents | GetAgent(agentId: int) | UpdateAgent(agentId: int, attrs: Json)
    | GetAgentConfig | DeleteAgent(agentId: int)
    | GetGroups | GetGroup(groupId: int) | CreateGroup(attrs: Json)
    | UpdateGroup(groupId: int, attrs: Json) | DeleteGroup(groupId: int)
    | GetJobs | GetJob(jobId: int) | CreateJob(attrs: Json, ignoreErrors: bool)
    | UpdateJob(jobId: int, attrs: Json) | DeleteJob(jobId: int) | GetJobGroups(jobId: int)
    | GetJobRun(runId: int) | GetJobRuns(query: Option<Json>) | CreateJobRun(attrs: Json)
    | StopJobRun(runId: int) | GetJobRunAgent(runId: int, agentId: int)
    | GetJobRunAgents(runId: int, query: Option<Json>) | AddAgentToJobRun(runId: int, attrs: Json)
    | StopRunOnAgents(runId: int, attrs: Json) | RestartAgentInActiveJobRun(runId: int, attrs: Json)
    | HydrateFiles(runId: int, payload: Json)

  /** `_create_job(attrs, ignore_errors=False)` */
  function CreateJobCommand(attrs: Json, ignoreErrors: bool := false): Command
  {
    CreateJob(attrs, ignoreErrors)
  }

  /** The method, endpoint, query parameters and JSON body of a command. */
  datatype Call = Call(verb: Verb, endpoint: Endpoint, params: Option<Json>, body: Option<Json>)

  function IgnoreErrorsParams(ignoreErrors: bool): Json
  {
    JObj(map["ignore_errors" := JBool(ignoreErrors)])
  }

  function CallOf(cmd: Command): Call
  {
    match cmd
    case GetAgents => Call(Get, Agents, None, None)
    case GetAgent(a) => Call(Get, Agent(a), None, None)
    case UpdateAgent(a, attrs) => Call(Put, Agent(a), None, Some(attrs))
    case GetAgentConfig => Call(Get, AgentConfig, None, None)
    case DeleteAgent(a) => Call(Delete, Agent(a), None, None)
    case GetGroups => Call(Get, Groups, None, None)
    case GetGroup(g) => Call(Get, Group(g), None, None)
    case CreateGroup(attrs) => Call(Post, Groups, None, Some(attrs))
    case UpdateGroup(g, attrs) => Call(Put, Group(g), None, Some(attrs))
    case DeleteGroup(g) => Call(Delete, Group(g), None, None)
    case GetJobs => Call(Get, Jobs, None, None)
    case GetJob(j) => Call(Get, Job(j), None, None)
    case CreateJob(attrs, ig) => Call(Post, Jobs, Some(IgnoreErrorsParams(ig)), Some(attrs))
    case UpdateJob(j, attrs) => Call(Put, Job(j), None, Some(attrs))
    case DeleteJob(j) => Call(Delete, Job(j), None, None)
    case GetJobGroups(j) => Call(Get, JobGroups(j), None, None)
    case GetJobRun(r) => Call(Get, Run(r), None, None)
    case GetJobRuns(q) => Call(Get, Runs, q, None)
    case CreateJobRun(attrs) => Call(Post, Runs, None, Some(attrs))
    case StopJobRun(r) => Call(Put, RunStop(r), None, None)
    case GetJobRunAgent(r, a) => Call(Get, RunAgent(r, a), None, None)
    case GetJobRunAgents(r, q) => Call(Get, RunAgents(r), q, None)
    case AddAgentToJobRun(r, attrs) => Call(Post, RunAgents(r), None, Some(attrs))
    case StopRunOnAgents(r, attrs) => Call(Put, RunAgentsStop(r), None, Some(attrs))
    case RestartAgentInActiveJobRun(r, attrs) => Call(Put, RunAgentsRestart(r), None, Some(attrs))
    case HydrateFiles(r, payload) => Call(Put, RunFilesHydrate(r), None, Some(payload))
  }

  /** Reads the command back from its call. */
  function CommandOf(c: Call): Option<Command>
  {
    var bare := c.params.None? && c.body.None?;
    var sends := c.params.None? && c.body.Some?;
    match c.endpoint
    case Agents => if c.verb == Get && bare then Some(GetAgents) else None
    case Agent(a) =>
      if c.verb == Get && bare then Some(GetAgent(a))
      else if c.verb == Put && sends then Some(UpdateAgent(a, c.body.value))
      else if c.verb == Delete && bare then Some(DeleteAgent(a))
      else None
    case AgentConfig => if c.verb == Get && bare then Some(GetAgentConfig) else None
    case Groups =>
      if c.verb == Get && bare then Some(GetGroups)
      else if c.verb == Post && sends then Some(CreateGroup(c.body.value))
      else None
    case Group(g) =>
      if c.verb == Get && bare then Some(GetGroup(g))
      else if c.verb == Put && sends then Some(UpdateGroup(g, c.body.value))
      else if c.verb == Delete && bare then Some(DeleteGroup(g))
      else None
    case Jobs =>
      if c.verb == Get && bare then Some(GetJobs)
      else if c.verb != Post || c.body.None? then None
      else if c.params == Some(IgnoreErrorsParams(true)) then Some(CreateJob(c.body.value, true))
      else if c.params == Some(IgnoreErrorsParams(false)) then Some(CreateJob(c.body.value, false))
      else None
    case Job(j) =>
      if c.verb == Get && bare then Some(GetJob(j))
      else if c.verb == Put && sends then Some(UpdateJob(j, c.body.value))
      else if c.verb == Delete && bare then Some(DeleteJob(j))
      else None
    case JobGroups(j) => if c.verb == Get && bare then Some(GetJobGroups(j)) else None
    case Runs =>
      if c.verb == Get && c.body.None? then Some(GetJobRuns(c.params))
      else if c.verb == Post && sends then Some(CreateJobRun(c.body.value))
      else None
    case Run(r) => if c.verb == Get && bare then Some(GetJobRun(r)) else None
    case RunStop(r) => if c.verb == Put && bare then Some(StopJobRun(r)) else None
    case RunAgents(r) =>
      if c.verb == Get && c.body.None? then Some(GetJobRunAgents(r, c.params))
      else if c.verb == Post && sends then Some(AddAgentToJobRun(r, c.body.value))
      else None
    case RunAgent(r, a) => if c.verb == Get && bare then Some(GetJobRunAgent(r, a)) else None
    case RunAgentsStop(r) => if c.verb == Put && sends then Some(StopRunOnAgents(r, c.body.value)) else None
    case RunAgentsRestart(r) =>
      if c.verb == Put && sends then Some(RestartAgentInActiveJobRun(r, c.body.value)) else None
    case RunFilesHydrate(r) => if c.verb == Put && sends then Some(HydrateFiles(r, c.body.value)) else None
  }

  /** Every helper sends a distinct request: its command can be read back
      from the method, endpoint, parameters and body. */
  lemma CommandRoundTrip(cmd: Command)
    ensures CommandOf(CallOf(cmd)).Some? && CommandOf(CallOf(cmd)).value == cmd
  {
    if AgentOrGroupCommand(cmd) {
      AgentOrGroupRoundTrip(cmd);
    } else if JobCommand(cmd) {
      JobRoundTrip(cmd);
    } else {
      RunRoundTrip(cmd);
    }
  }

  predicate AgentOrGroupCommand(cmd: Command)
  {
    cmd.GetAgents? || cmd.GetAgent? || cmd.UpdateAgent? || cmd.GetAgentConfig? || cmd.DeleteAgent? ||
    cmd.GetGroups? || cmd.GetGroup? || cmd.CreateGroup? || cmd.UpdateGroup? || cmd.DeleteGroup?
  }

  predicate JobCommand(cmd: Command)
  {
    cmd.GetJobs? || cmd.GetJob? || cmd.CreateJob? || cmd.UpdateJob? || cmd.DeleteJob? || cmd.GetJobGroups?
  }

  lemma AgentOrGroupRoundTrip(cmd: Command)
    requires AgentOrGroupCommand(cmd)
    ensures CommandOf(CallOf(cmd)) == Some(cmd)
  {
  }

  lemma JobRoundTrip(cmd: Command)
    requires JobCommand(cmd)
    ensures CommandOf(CallOf(cmd)) == Some(cmd)
  {
    if cmd.CreateJob? {
      IgnoreErrorsParamsDiffer();
    }
  }

  lemma RunRoundTrip(cmd: Command)
    requires !AgentOrGroupCommand(cmd) && !JobCommand(cmd)
    ensures CommandOf(CallOf(cmd)) == Some(cmd)
  {
  }

  lemma IgnoreErrorsParamsDiffer()
    ensures IgnoreErrorsParams(true) != IgnoreErrorsParams(false)
  {
    assert IgnoreErrorsParams(true).fields["ignore_errors"] == JBool(true);
  }

  /** `_create_job` without `ignore_errors` posts to `/jobs` asking the
      server not to ignore errors. */
  lemma CreateJobDefaults(attrs: Json)
    ensures CallOf(CreateJobCommand(attrs)).verb == Post
    ensures Path(CallOf(CreateJobCommand(attrs)).endpoint) == "/jobs"
    ensures CallOf(CreateJobCommand(attrs)).params == Some(JObj(map["ignore_errors" := JBool(false)]))
    ensures CallOf(CreateJobCommand(attrs)).body == Some(attrs)
  {
  }

  /** The full request a command produces. */
  function RequestOf(c: Client, cmd: Command): Request
  {
    var call := CallOf(cmd);
    Prepare(c, call.verb, Path(call.endpoint), call.params, call.body)
  }

  /** Distinct commands of one client are distinct requests. */
  lemma RequestsDistinguishCommands(c: Client, cmd1: Command, cmd2: Command)
    ensures RequestOf(c, cmd1) == RequestOf(c, cmd2) ==> cmd1 == cmd2
  {
    var r1 := RequestOf(c, cmd1);
    var r2 := RequestOf(c, cmd2);
    if r1 == r2 {
      var e1 := CallOf(cmd1).endpoint;
      var e2 := CallOf(cmd2).endpoint;
      assert r1.url[|c.address|..] == BaseApiUrl + Path(e1);
      assert r2.url[|c.address|..] == BaseApiUrl + Path(e2);
      assert Path(e1) == (BaseApiUrl + Path(e1))[|BaseApiUrl|..];
      assert Path(e2) == (BaseApiUrl + Path(e2))[|BaseApiUrl|..];
      PathInjective(e1, e2);
      assert CallOf(cmd1) == CallOf(cmd2);
      CommandRoundTrip(cmd1);
      CommandRoundTrip(cmd2);
    }
  }
}

=== FILE: names.dfy ===
/** Hybrid-work job names (functions/resilio_state_sync.py,
    `generate_job_names`) and what a job-name lookup pattern matches
    (`find_jobs_by_pattern`). */
module Names {
  import opened Outcomes
  import opened Strings

  const Product := "HybridWork"
  const AssetsSuffix := "Assets"

  /** Python truthiness of the optional `shot` argument: `None` and `""`
      are both false. */
  predicate HasShot(shot: Option<string>)
  {
    shot.Some? && |shot.value| > 0
  }

  /** The last field of a job name: the shot, or `Assets` when there is
      none. */
  function Tail(shot: Option<string>): string
  {
    if HasShot(shot) then shot.value else AssetsSuffix
  }

  /** `generate_job_names(artist, project, shot=None)`:
      `HybridWork_{artist}_{project}_{shot}`, or
      `HybridWork_{artist}_{project}_Assets` without a shot. */
  function JobName(artist: string, project: string, shot: Option<string> := None): (r: string)
    ensures |r| == |Product| + |artist| + |project| + |Tail(shot)| + 3
    ensures StartsWith(r, Product + "_")
  {
    var r := Product + "_" + artist + "_" + project + "_" + Tail(shot);
    assert r[..|Product + "_"|] == Product + "_";
    r
  }

  // ---------------------------------------------------------------------
  // Reading a name back

  /** The name's fields: product, artist, project and everything after the
      third `_`. */
  datatype NameFields = NameFields(artist: string, project: string, tail: string)

  function ParseJobName(n: string): Option<NameFields>
  {
    var parts := SplitOn(n, '_');
    if |parts| >= 4 && parts[0] == Product then
      Some(NameFields(parts[1], parts[2], Join(parts[3..], "_")))
    else
      None
  }

  lemma ProductHasNoUnderscore()
    ensures '_' !in Product
  {
  }

  /** The artist and the project can be read back from a job name when
      neither contains `_`; the shot code may contain any number of them. */
  lemma ParseJobNameRoundTrip(artist: string, project: string, shot: Option<string>)
    requires '_' !in artist && '_' !in project
    ensures ParseJobName(JobName(artist, project, shot)) ==
            Some(NameFields(artist, project, Tail(shot)))
  {
    var t := Tail(shot);
    ProductHasNoUnderscore();
    SplitFourFields(Product, artist, project, t);
    var parts := SplitOn(JobName(artist, project, shot), '_');
    assert parts[3..] == SplitOn(t, '_');
    JoinSplit(t, '_');
  }

  /** Splitting `a_b_c_t` on `_` when `a`, `b` and `c` have no `_`. */
  lemma SplitFourFields(a: string, b: string, c: string, t: string)
    requires '_' !in a && '_' !in b && '_' !in c
    ensures SplitOn(a + "_" + b + "_" + c + "_" + t, '_') == [a, b, c] + SplitOn(t, '_')
  {
    var rest2 := c + ['_'] + t;
    var rest1 := b + ['_'] + rest2;
    assert a + "_" + b + "_" + c + "_" + t == a + ['_'] + rest1;
    SplitAtFirst(a, rest1, '_');
    SplitAtFirst(b, rest2, '_');
    SplitAtFirst(c, t, '_');
  }

  /** Hence two jobs for `_`-free artists and projects share a name only
      when they share artist, project and last field. */
  lemma JobNameInjective(a1: string, p1: string, s1: Option<string>, a2: string, p2: string, s2: Option<string>)
    requires '_' !in a1 && '_' !in p1 && '_' !in a2 && '_' !in p2
    requires JobName(a1, p1, s1) == JobName(a2, p2, s2)
    ensures a1 == a2 && p1 == p2 && Tail(s1) == Tail(s2)
  {
    ParseJobNameRoundTrip(a1, p1, s1);
    ParseJobNameRoundTrip(a2, p2, s2);
  }

  /** With `_` in an artist or project name the fields run together:
      different artists and projects produce the same name. */
  lemma UnderscoreAmbiguity()
    ensures JobName("a_b", "c", Some("d")) == JobName("a", "b_c", Some("d"))
  {
  }

  /** A shot coded `Assets`, and a shot with an empty code, get the name of
      the artist's assets job for that project. */
  lemma ShotNamedLikeAssetsJob(artist: string, project: string)
    ensures JobName(artist, project, Some(AssetsSuffix)) == JobName(artist, project)
    ensures JobName(artist, project, Some("")) == JobName(artist, project)
  {
  }

  // ---------------------------------------------------------------------
  // Lookup patterns

  /** The characters with a meaning in a Python regular expression. */
  const RegexMeta := ".^$*+?{}[]\\|()"

  /** A pattern with no regex metacharacter stands for itself. */
  predicate RegexSafe(s: string)
  {
    forall i :: 0 <= i < |s| ==> s[i] !in RegexMeta
  }

  lemma RegexSafeConcat(a: string, b: string)
    requires RegexSafe(a) && RegexSafe(b)
    ensures RegexSafe(a + b)
  {
    assert forall i :: 0 <= i < |a + b| ==> (a + b)[i] == (if i < |a| then a[i] else b[i - |a|]);
  }

  /** Names built from metacharacter-free parts are metacharacter-free. */
  lemma JobNameRegexSafe(artist: string, project: string, shot: Option<string>)
    requires RegexSafe(artist) && RegexSafe(project)
    requires shot.Some? ==> RegexSafe(shot.value)
    ensures RegexSafe(JobName(artist, project, shot))
  {
    assert RegexSafe(Product + "_");
    assert RegexSafe("_");
    assert RegexSafe(AssetsSuffix);
    RegexSafeConcat(Product + "_", artist);
    RegexSafeConcat(Product + "_" + artist, "_");
    RegexSafeConcat(Product + "_" + artist + "_", project);
    RegexSafeConcat(Product + "_" + artist + "_" + project, "_");
    RegexSafeConcat(Product + "_" + artist + "_" + project + "_", Tail(shot));
  }

  /** `re.match("^" + pattern + "$", name, re.IGNORECASE)` for a pattern
      without metacharacters: the name is the pattern up to ASCII case,
      and `$` also matches just before a final newline. */
  predicate MatchesPattern(pattern: string, name: string)
    requires RegexSafe(pattern)
  {
    EqualsIgnoreCase(name, pattern) || EqualsIgnoreCase(name, pattern + "\n")
  }

  /** Every name matches itself as a pattern, whatever its case. */
  lemma MatchesItself(pattern: string, name: string)
    requires RegexSafe(pattern) && name == pattern
    ensures MatchesPattern(pattern, name)
  {
  }

  /** A match differs from the pattern at most in ASCII case and a final
      newline. */
  lemma MatchShape(pattern: string, name: string)
    requires RegexSafe(pattern) && MatchesPattern(pattern, name)
    ensures |name| == |pattern| || (|name| == |pattern| + 1 && name[|pattern|] == '\n')
    ensures forall i :: 0 <= i < |pattern| ==> LowerChar(name[i]) == LowerChar(pattern[i])
  {
    if !EqualsIgnoreCase(name, pattern) {
      var q := pattern + "\n";
      assert Lower(name) == Lower(q);
      assert Lower(name)[|pattern|] == LowerChar(name[|pattern|]);
      assert Lower(q)[|pattern|] == '\n';
      assert forall i :: 0 <= i < |pattern| ==> Lower(q)[i] == LowerChar(pattern[i]);
    }
  }
}

=== FILE: outcomes.dfy ===
/** Failure-carrying values shared by every module of the model. Python
    returns None or raises; the model returns one of these instead. */
module Outcomes {

  /** A value that may be missing (Python's `Optional`). */
  datatype Option<+T> = None | Some(value: T)

  /** A computation that produced a value or failed with an error. */
  datatype Result<+T, +E> = Success(value: T) | Failure(error: E)
}

=== FILE: paths.dfy ===
/** Where a hybrid-work job points (functions/resilio_state_sync.py):
    the shot and assets path templates, their placeholder expansion, and the
    per-OS path triple a job group carries. */
module Paths {
  import opened Outcomes
  import opened Strings

  const ProjectKey := "${PROJECT}"
  const SequenceKey := "${SEQUENCE}"
  const ShotKey := "${SHOT}"

  const Volumes := "/Volumes/Company/"
  const SequencesDir := "/2_WORK/1_SEQUENCES/"
  const AssetsDir := "/2_WORK/2_ASSETS"

  /** "/Volumes/Company/${PROJECT}/2_WORK/1_SEQUENCES/${SEQUENCE}/${SHOT}" */
  const DefaultShotsTemplate := Volumes + ProjectKey + SequencesDir + SequenceKey + "/" + ShotKey

  /** "/Volumes/Company/${PROJECT}/2_WORK/2_ASSETS" */
  const DefaultAssetsTemplate := Volumes + ProjectKey + AssetsDir

  /** The `paths` section of the configuration; either template may be
      missing. */
  datatype PathsConfig = PathsConfig(shotsTemplate: Option<string>, assetsTemplate: Option<string>)

  datatype BasePaths = BasePaths(shots: string, assets: string)

  function OrDefault(o: Option<string>, default: string): string
  {
    if o.Some? then o.value else default
  }

  /** `get_base_paths` */
  function GetBasePaths(cfg: PathsConfig): BasePaths
  {
    BasePaths(OrDefault(cfg.shotsTemplate, DefaultShotsTemplate),
              OrDefault(cfg.assetsTemplate, DefaultAssetsTemplate))
  }

  /** `build_shot_path`: `${PROJECT}`, then `${SEQUENCE}`, then `${SHOT}`
      are replaced, each over the result of the previous step. */
  function BuildShotPath(cfg: PathsConfig, project: string, sequence: string, shot: string): string
  {
    var t := GetBasePaths(cfg).shots;
    ReplaceAll(ReplaceAll(ReplaceAll(t, ProjectKey, project), SequenceKey, sequence), ShotKey, shot)
  }

  /** `build_assets_path`: only `${PROJECT}` is replaced. */
  function BuildAssetsPath(cfg: PathsConfig, project: string): string
  {
    ReplaceAll(GetBasePaths(cfg).assets, ProjectKey, project)
  }

  // ---------------------------------------------------------------------
  // What the default templates render to

  /** The three placeholders: each starts with `$` and holds no `/`. */
  predicate IsKey(k: string)
  {
    k == ProjectKey || k == SequenceKey || k == ShotKey
  }

  lemma KeyFacts(k: string)
    requires IsKey(k)
    ensures |k| > 0 && '$' in k && '/' !in k
  {
  }

  /** A prefix without the placeholder, followed by a `/`, passes through
      the replacement unchanged. */
  lemma KeptPrefix(a: string, b: string, key: string, repl: string)
    requires IsKey(key) && !Occurs(a, key)
    requires |b| > 0 && b[0] == '/'
    ensures ReplaceAll(a + b, key, repl) == a + ReplaceAll(b, key, repl)
  {
    KeyFacts(key);
    ReplaceConcat(a, b, key, repl);
    ReplaceAbsent(a, key, repl);
  }

  /** The fixed folders of the templates hold no `$`, end in `/`, and so
      pass through every replacement unchanged. */
  lemma FolderPrefix(a: string, b: string, key: string, repl: string)
    requires IsKey(key) && (a == Volumes || a == SequencesDir)
    ensures ReplaceAll(a + b, key, repl) == a + ReplaceAll(b, key, repl)
  {
    KeyFacts(key);
    MissingCharMeansAbsent(a, key, '$');
    ReplaceAbsent(a, key, repl);
    assert a[|a| - 1] == '/';
    ReplaceConcat(a, b, key, repl);
  }

  /** The placeholder at the head of a string becomes the value. */
  lemma LeadingKey(key: string, b: string, repl: string)
    requires IsKey(key)
    ensures ReplaceAll(key + b, key, repl) == repl + ReplaceAll(b, key, repl)
  {
    KeyFacts(key);
    ReplaceLeading(key, b, repl);
  }

  /** A string lacking one character of the placeholder keeps its text. */
  lemma Untouched(s: string, key: string, repl: string, c: char)
    requires IsKey(key) && c in key && c !in s
    ensures ReplaceAll(s, key, repl) == s
  {
    KeyFacts(key);
    MissingCharMeansAbsent(s, key, c);
    ReplaceAbsent(s, key, repl);
  }

  /** A configured template wins over the default, and one without `$`
      (no placeholder) is used verbatim for every shot and project. */
  lemma ConfiguredTemplateVerbatim(shots: string, assets: string, project: string, sequence: string, shot: string)
    requires '$' !in shots && '$' !in assets
    ensures BuildShotPath(PathsConfig(Some(shots), Some(assets)), project, sequence, shot) == shots
    ensures BuildAssetsPath(PathsConfig(Some(shots), Some(assets)), project) == assets
  {
    Untouched(shots, ProjectKey, project, '$');
    Untouched(shots, SequenceKey, sequence, '$');
    Untouched(shots, ShotKey, shot, '$');
    Untouched(assets, ProjectKey, project, '$');
  }

  /** What follows `${PROJECT}` in the default shot template. */
  const AfterProject := SequencesDir + SequenceKey + "/" + ShotKey

  lemma ShotTemplateParts()
    ensures DefaultShotsTemplate == Volumes + (ProjectKey + AfterProject)
  {
  }

  lemma ProjectStep(project: string)
    ensures ReplaceAll(DefaultShotsTemplate, ProjectKey, project) == Volumes + (project + AfterProject)
  {
    ShotTemplateParts();
    FolderPrefix(Volumes, ProjectKey + AfterProject, ProjectKey, project);
    LeadingKey(ProjectKey, AfterProject, project);
    AfterProjectKept(project);
  }

  lemma AfterProjectKept(project: string)
    ensures ReplaceAll(AfterProject, ProjectKey, project) == AfterProject
  {
    Untouched(AfterProject, ProjectKey, project, 'P');
  }

  lemma AfterProjectParts()
    ensures AfterProject == SequencesDir + (SequenceKey + ("/" + ShotKey))
  {
  }

  lemma SequenceInTail(sequence: string)
    ensures ReplaceAll(AfterProject, SequenceKey, sequence) == SequencesDir + (sequence + ("/" + ShotKey))
  {
    AfterProjectParts();
    FolderPrefix(SequencesDir, SequenceKey + ("/" + ShotKey), SequenceKey, sequence);
    LeadingKey(SequenceKey, "/" + ShotKey, sequence);
    Untouched("/" + ShotKey, SequenceKey, sequence, 'E');
  }

  lemma SequenceStep(project: string, sequence: string)
    requires !Occurs(project, SequenceKey)
    ensures ReplaceAll(Volumes + (project + AfterProject), SequenceKey, sequence) ==
            Volumes + (project + (SequencesDir + (sequence + ("/" + ShotKey))))
  {
    FolderPrefix(Volumes, project + AfterProject, SequenceKey, sequence);
    KeptPrefix(project, AfterProject, SequenceKey, sequence);
    SequenceInTail(sequence);
  }

  lemma ShotInTail(shot: string)
    ensures ReplaceAll("/" + ShotKey, ShotKey, shot) == "/" + shot
  {
    assert ("/" + ShotKey)[1..] == ShotKey;
    ReplaceConcat("/", ShotKey, ShotKey, shot);
    Untouched("/", ShotKey, shot, '$');
    LeadingKey(ShotKey, "", shot);
    assert ShotKey + "" == ShotKey;
  }

  lemma ShotStep(project: string, sequence: string, shot: string)
    requires !Occurs(project, ShotKey) && !Occurs(sequence, ShotKey)
    ensures ReplaceAll(Volumes + (project + (SequencesDir + (sequence + ("/" + ShotKey)))), ShotKey, shot) ==
            Volumes + (project + (SequencesDir + (sequence + ("/" + shot))))
  {
    var tail := "/" + ShotKey;
    FolderPrefix(Volumes, project + (SequencesDir + (sequence + tail)), ShotKey, shot);
    KeptPrefix(project, SequencesDir + (sequence + tail), ShotKey, shot);
    FolderPrefix(SequencesDir, sequence + tail, ShotKey, shot);
    KeptPrefix(sequence, tail, ShotKey, shot);
    ShotInTail(shot);
  }

  /** With the default template, the shot path is the company volume, the
      project, the sequences folder, the sequence and the shot, provided no
      substituted value brings in a placeholder a later step would
      expand. */
  lemma DefaultShotPath(project: string, sequence: string, shot: string)
    requires !Occurs(project, SequenceKey) && !Occurs(project, ShotKey)
    requires !Occurs(sequence, ShotKey)
    ensures BuildShotPath(PathsConfig(None, None), project, sequence, shot) ==
            Volumes + project + SequencesDir + sequence + "/" + shot
  {
    DefaultShotsUsed(project, sequence, shot);
    ProjectStep(project);
    SequenceStep(project, sequence);
    ShotStep(project, sequence, shot);
    Regroup(Volumes, project, SequencesDir, sequence, "/" + shot);
  }

  lemma DefaultShotsUsed(project: string, sequence: string, shot: string)
    ensures BuildShotPath(PathsConfig(None, None), project, sequence, shot) ==
            ReplaceAll(ReplaceAll(ReplaceAll(DefaultShotsTemplate, ProjectKey, project),
                                  SequenceKey, sequence), ShotKey, shot)
  {
  }

  lemma Regroup(a: string, b: string, c: string, d: string, e: string)
    ensures a + (b + (c + (d + e))) == a + b + c + d + e
  {
  }

  /** The replacements run one after another: a project value that itself
      holds `${SHOT}` is expanded by the later step. */
  lemma SequentialExpansion(sequence: string, shot: string)
    requires !Occurs(sequence, ShotKey)
    ensures BuildShotPath(PathsConfig(None, None), ShotKey, sequence, shot) ==
            Volumes + shot + SequencesDir + sequence + "/" + shot
  {
    DefaultShotsUsed(ShotKey, sequence, shot);
    ProjectStep(ShotKey);
    ShotKeyHasNoSequenceKey(sequence);
    SequenceStep(ShotKey, sequence);
    ShotOverExpandedProject(sequence, shot);
    Regroup(Volumes, shot, SequencesDir, sequence, "/" + shot);
  }

  lemma ShotKeyHasNoSequenceKey(sequence: string)
    ensures !Occurs(ShotKey, SequenceKey)
  {
    KeyFacts(SequenceKey);
    MissingCharMeansAbsent(ShotKey, SequenceKey, 'E');
  }

  lemma ShotOverExpandedProject(sequence: string, shot: string)
    requires !Occurs(sequence, ShotKey)
    ensures ReplaceAll(Volumes + (ShotKey + (SequencesDir + (sequence + ("/" + ShotKey)))), ShotKey, shot) ==
            Volumes + (shot + (SequencesDir + (sequence + ("/" + shot))))
  {
    var tail := "/" + ShotKey;
    FolderPrefix(Volumes, ShotKey + (SequencesDir + (sequence + tail)), ShotKey, shot);
    LeadingKey(ShotKey, SequencesDir + (sequence + tail), shot);
    FolderPrefix(SequencesDir, sequence + tail, ShotKey, shot);
    KeptPrefix(sequence, tail, ShotKey, shot);
    ShotInTail(shot);
  }

  lemma AssetsTemplateParts()
    ensures DefaultAssetsTemplate == Volumes + (ProjectKey + AssetsDir)
  {
  }

  /** With the default template, the assets path is the company volume,
      the project and the assets folder, whatever the project is. */
  lemma DefaultAssetsPath(project: string)
    ensures BuildAssetsPath(PathsConfig(None, None), project) == Volumes + project + AssetsDir
  {
    calc {
      BuildAssetsPath(PathsConfig(None, None), project);
      { DefaultAssetsUsed(project); AssetsTemplateParts(); }
      ReplaceAll(Volumes + (ProjectKey + AssetsDir), ProjectKey, project);
      { FolderPrefix(Volumes, ProjectKey + AssetsDir, ProjectKey, project); }
      Volumes + ReplaceAll(ProjectKey + AssetsDir, ProjectKey, project);
      { LeadingKey(ProjectKey, AssetsDir, project); AssetsDirKept(project); }
      Volumes + (project + AssetsDir);
      { Regroup3(Volumes, project, AssetsDir); }
      Volumes + project + AssetsDir;
    }
  }

  lemma AssetsDirKept(project: string)
    ensures ReplaceAll(AssetsDir, ProjectKey, project) == AssetsDir
  {
    Untouched(AssetsDir, ProjectKey, project, '$');
  }

  lemma DefaultAssetsUsed(project: string)
    ensures BuildAssetsPath(PathsConfig(None, None), project) == ReplaceAll(DefaultAssetsTemplate, ProjectKey, project)
  {
  }

  lemma Regroup3(a: string, b: string, c: string)
    ensures a + (b + c) == a + b + c
  {
  }

  // ---------------------------------------------------------------------
  // Per-OS variants

  /** The `path` object of a job group. */
  datatype PathTriple = PathTriple(linux: string, win: string, osx: string)

  /** The `{'linux': p, 'win': p.replace('/', '\\'), 'osx': p}` object. */
  function Variants(p: string): (v: PathTriple)
    ensures v.linux == p && v.osx == p
    ensures |v.win| == |p|
    ensures forall i :: 0 <= i < |p| ==> v.win[i] == (if p[i] == '/' then '\\' else p[i])
  {
    ReplaceCharPointwise(p, '/', '\\');
    PathTriple(p, ReplaceAll(p, "/", "\\"), p)
  }

  /** The Windows variant holds no `/`, and turning its backslashes back
      into slashes recovers the path when the path had no backslash. */
  lemma WinVariantRoundTrip(p: string)
    ensures '/' !in Variants(p).win
    ensures '\\' !in p ==> ReplaceAll(Variants(p).win, "\\", "/") == p
  {
    if '\\' !in p {
      ReplaceCharRoundTrip(p, '/', '\\');
    }
  }
}

=== FILE: rerun.dfy ===
/** Running the sync again. The sync never deletes and looks a job up by
    name before creating it (functions/resilio_state_sync.py:345-364,
    397-411), so once a run in which no call failed has put every job in
    place, a second run over the same snapshot finds them all and creates
    nothing: it only updates. */
module SyncRerun {
  import opened Outcomes
  import opened Strings
  import opened Paths
  import opened Names
  import opened Resilio
  import opened ShotGrid
  import opened Sync
  import opened SyncResults

  /** The server has an agent with this name, up to case. */
  predicate HasAgent(s: Server, agentName: string)
  {
    exists i :: 0 <= i < |s.agents| && EqualsIgnoreCase(s.agents[i].name, agentName)
  }

  /** The sync reaches this artist's jobs: the configuration knows the
      artist and the server has the artist's agent. */
  predicate Reaches(c: Config, s: Server, artist: string)
  {
    artist in c.artists && HasAgent(s, c.artists[artist])
  }

  /** A job the name pattern matches is on the server. */
  predicate Present(s: Server, name: string)
  {
    RegexSafe(name) && Matched(s, name)
  }

  predicate ShotCovered(c: Config, s: Server, shot: ShotInfo, artists: seq<string>)
  {
    forall j :: 0 <= j < |artists| && Reaches(c, s, artists[j]) ==> Present(s, ShotJobName(artists[j], shot))
  }

  predicate ShotsCovered(c: Config, s: Server, shots: seq<ShotInfo>)
  {
    forall i :: 0 <= i < |shots| ==> ShotCovered(c, s, shots[i], shots[i].artists)
  }

  predicate ProjectsCovered(c: Config, s: Server, artist: string, projects: seq<string>)
  {
    Reaches(c, s, artist) ==> forall k :: 0 <= k < |projects| ==> Present(s, AssetsJobName(artist, projects[k]))
  }

  predicate AssetsCovered(c: Config, s: Server, aps: seq<ArtistProjects>)
  {
    forall i :: 0 <= i < |aps| ==> ProjectsCovered(c, s, aps[i].artist, aps[i].projects)
  }

  /** Every job the sync would create or update for the snapshot is on the
      server. */
  predicate Covered(c: Config, s: Server, snap: Snapshot)
  {
    ShotsCovered(c, s, snap.shots) && AssetsCovered(c, s, snap.artistProjects)
  }

  // ---------------------------------------------------------------------
  // Coverage survives every change the sync makes

  lemma PresentPersists(s: Server, s2: Server, name: string)
    requires Grows(s, s2) && Present(s, name)
    ensures Present(s2, name)
  {
    MatchedPersists(s, s2, name);
  }

  lemma ShotCoveredPersists(c: Config, s: Server, s2: Server, shot: ShotInfo, artists: seq<string>)
    requires Grows(s, s2) && ShotCovered(c, s, shot, artists)
    ensures ShotCovered(c, s2, shot, artists)
  {
    forall j | 0 <= j < |artists| && Reaches(c, s2, artists[j])
      ensures Present(s2, ShotJobName(artists[j], shot))
    {
      PresentPersists(s, s2, ShotJobName(artists[j], shot));
    }
  }

  lemma ShotsCoveredPersists(c: Config, s: Server, s2: Server, shots: seq<ShotInfo>)
    requires Grows(s, s2) && ShotsCovered(c, s, shots)
    ensures ShotsCovered(c, s2, shots)
  {
    forall i | 0 <= i < |shots|
      ensures ShotCovered(c, s2, shots[i], shots[i].artists)
    {
      ShotCoveredPersists(c, s, s2, shots[i], shots[i].artists);
    }
  }

  lemma ProjectsCoveredPersists(c: Config, s: Server, s2: Server, artist: string, projects: seq<string>)
    requires Grows(s, s2) && ProjectsCovered(c, s, artist, projects)
    ensures ProjectsCovered(c, s2, artist, projects)
  {
    if Reaches(c, s2, artist) {
      forall k | 0 <= k < |projects|
        ensures Present(s2, AssetsJobName(artist, projects[k]))
      {
        PresentPersists(s, s2, AssetsJobName(artist, projects[k]));
      }
    }
  }

  lemma AssetsCoveredPersists(c: Config, s: Server, s2: Server, aps: seq<ArtistProjects>)
    requires Grows(s, s2) && AssetsCovered(c, s, aps)
    ensures AssetsCovered(c, s2, aps)
  {
    forall i | 0 <= i < |aps|
      ensures ProjectsCovered(c, s2, aps[i].artist, aps[i].projects)
    {
      ProjectsCoveredPersists(c, s, s2, aps[i].artist, aps[i].projects);
    }
  }

  // ---------------------------------------------------------------------
  // A run in which no call fails puts every job in place

  /** The artist's agent is found when no call fails and the server has
      it. */
  lemma AgentFound(w: World, o: Oracle, agentName: string)
    requires Reliable(o) && HasAgent(w.server, agentName)
    ensures FindAgentByName(w, o, agentName).1.Some?
  {
  }

  lemma ShotJobStepPlaces(c: Config, o: Oracle, st: State, shot: ShotInfo, artist: string, agent: Agent)
    requires Reliable(o) && SafeShot(shot) && RegexSafe(artist)
    ensures Present(ShotJobStep(c, o, st, shot, artist, agent).w.server, ShotJobName(artist, shot))
  {
    var path := BuildShotPath(c.paths, shot.tank, shot.sequence, shot.code);
    var name := ShotJobName(artist, shot);
    JobNameRegexSafe(artist, shot.tank, Some(shot.code));
    var (w1, up) := Upsert(st.w, o, name, path, agent.id, "Shot " + shot.code + " for " + artist);
    var r := AfterShotUpsert(o, State(w1, st.t), shot, artist, agent, name, path, up);
    PresentPersists(w1.server, r.w.server, name);
  }

  lemma ShotPairPlaces(c: Config, o: Oracle, st: State, shot: ShotInfo, artist: string)
    requires Reliable(o) && SafeShot(shot) && RegexSafe(artist) && Reaches(c, st.w.server, artist)
    ensures Present(ShotPair(c, o, st, shot, artist).w.server, ShotJobName(artist, shot))
  {
    AgentFound(st.w, o, c.artists[artist]);
    var (w1, agent) := FindAgentByName(st.w, o, c.artists[artist]);
    ShotJobStepPlaces(c, o, State(w1, st.t), shot, artist, agent.value);
  }

  lemma {:induction false} ShotArtistsCover(c: Config, o: Oracle, st: State, shot: ShotInfo, artists: seq<string>)
    requires Reliable(o) && SafeShot(shot)
    requires forall i :: 0 <= i < |artists| ==> RegexSafe(artists[i])
    ensures ShotCovered(c, ShotArtists(c, o, st, shot, artists).w.server, shot, artists)
    decreases |artists|
  {
    if |artists| > 0 {
      var a := artists[0];
      var st1 := ShotPair(c, o, st, shot, a);
      var r := ShotArtists(c, o, st1, shot, artists[1..]);
      ShotArtistsCover(c, o, st1, shot, artists[1..]);
      if Reaches(c, r.w.server, a) {
        ShotPairPlaces(c, o, st, shot, a);
        PresentPersists(st1.w.server, r.w.server, ShotJobName(a, shot));
      }
      ShotCoveredCons(c, r.w.server, shot, a, artists[1..]);
      assert artists == [a] + artists[1..];
    }
  }

  lemma ShotCoveredCons(c: Config, s: Server, shot: ShotInfo, a: string, rest: seq<string>)
    requires Reaches(c, s, a) ==> Present(s, ShotJobName(a, shot))
    requires ShotCovered(c, s, shot, rest)
    ensures ShotCovered(c, s, shot, [a] + rest)
  {
    var artists := [a] + rest;
    forall j | 0 <= j < |artists| && Reaches(c, s, artists[j])
      ensures Present(s, ShotJobName(artists[j], shot))
    {
      if j > 0 {
        assert artists[j] == rest[j - 1];
      }
    }
  }

  lemma {:induction false} ShotPhaseCovers(c: Config, o: Oracle, st: State, shots: seq<ShotInfo>)
    requires Reliable(o)
    requires forall i :: 0 <= i < |shots| ==> SafeShot(shots[i])
    ensures ShotsCovered(c, ShotPhase(c, o, st, shots).w.server, shots)
    decreases |shots|
  {
    if |shots| > 0 {
      var st1 := ShotArtists(c, o, st, shots[0], shots[0].artists);
      var r := ShotPhase(c, o, st1, shots[1..]);
      ShotArtistsCover(c, o, st, shots[0], shots[0].artists);
      ShotCoveredPersists(c, st1.w.server, r.w.server, shots[0], shots[0].artists);
      ShotPhaseCovers(c, o, st1, shots[1..]);
      assert forall i :: 1 <= i < |shots| ==> shots[i] == shots[1..][i - 1];
    }
  }

  lemma AssetsStepPlaces(c: Config, o: Oracle, st: State, artist: string, agent: Agent, project: string)
    requires Reliable(o) && RegexSafe(artist) && RegexSafe(project)
    ensures Present(AssetsStep(c, o, st, artist, agent, project).w.server, AssetsJobName(artist, project))
  {
    JobNameRegexSafe(artist, project, None);
  }

  lemma {:induction false} AssetsProjectsCover(c: Config, o: Oracle, st: State, artist: string, agent: Agent,
                                               projects: seq<string>)
    requires Reliable(o) && RegexSafe(artist)
    requires forall i :: 0 <= i < |projects| ==> RegexSafe(projects[i])
    ensures forall k :: 0 <= k < |projects| ==>
              Present(AssetsProjects(c, o, st, artist, agent, projects).w.server, AssetsJobName(artist, projects[k]))
    decreases |projects|
  {
    if |projects| > 0 {
      var st1 := AssetsStep(c, o, st, artist, agent, projects[0]);
      var r := AssetsProjects(c, o, st1, artist, agent, projects[1..]);
      AssetsStepPlaces(c, o, st, artist, agent, projects[0]);
      PresentPersists(st1.w.server, r.w.server, AssetsJobName(artist, projects[0]));
      AssetsProjectsCover(c, o, st1, artist, agent, projects[1..]);
      AssetsPresentCons(r.w.server, artist, projects);
    }
  }

  lemma AssetsPresentCons(s: Server, artist: string, projects: seq<string>)
    requires |projects| > 0 && Present(s, AssetsJobName(artist, projects[0]))
    requires forall k :: 0 <= k < |projects[1..]| ==> Present(s, AssetsJobName(artist, projects[1..][k]))
    ensures forall k :: 0 <= k < |projects| ==> Present(s, AssetsJobName(artist, projects[k]))
  {
    forall k | 0 <= k < |projects|
      ensures Present(s, AssetsJobName(artist, projects[k]))
    {
      if k > 0 {
        assert projects[k] == projects[1..][k - 1];
      }
    }
  }

  lemma AssetsArtistCovers(c: Config, o: Oracle, st: State, ap: ArtistProjects)
    requires Reliable(o) && SafeEntry(ap)
    ensures ProjectsCovered(c, AssetsArtist(c, o, st, ap).w.server, ap.artist, ap.projects)
  {
    var r := AssetsArtist(c, o, st, ap);
    if Reaches(c, r.w.server, ap.artist) {
      AgentFound(st.w, o, c.artists[ap.artist]);
      var (w1, agent) := FindAgentByName(st.w, o, c.artists[ap.artist]);
      AssetsProjectsCover(c, o, State(w1, st.t), ap.artist, agent.value, ap.projects);
    }
  }

  lemma {:induction false} AssetsPhaseCovers(c: Config, o: Oracle, st: State, aps: seq<ArtistProjects>)
    requires Reliable(o)
    requires forall i :: 0 <= i < |aps| ==> SafeEntry(aps[i])
    ensures AssetsCovered(c, AssetsPhase(c, o, st, aps).w.server, aps)
    decreases |aps|
  {
    if |aps| > 0 {
      var st1 := AssetsArtist(c, o, st, aps[0]);
      var r := AssetsPhase(c, o, st1, aps[1..]);
      AssetsArtistCovers(c, o, st, aps[0]);
      ProjectsCoveredPersists(c, st1.w.server, r.w.server, aps[0].artist, aps[0].projects);
      AssetsPhaseCovers(c, o, st1, aps[1..]);
      assert forall i :: 1 <= i < |aps| ==> aps[i] == aps[1..][i - 1];
    }
  }

  /** After a run in which no call fails, every shot job of a known artist
      with an agent, and every assets job of such an artist, is on the
      server. */
  lemma SyncCovers(c: Config, o: Oracle, snap: Snapshot, server: Server)
    requires Reliable(o) && SafeSnapshot(snap)
    ensures Covered(c, RunSync(c, o, snap, server).w.server, snap)
  {
    var st0 := State(World(server, []), EmptyTally);
    var st1 := ShotPhase(c, o, st0, snap.shots);
    var r := RunSync(c, o, snap, server);
    ShotPhaseCovers(c, o, st0, snap.shots);
    ShotsCoveredPersists(c, st1.w.server, r.w.server, snap.shots);
    AssetsPhaseCovers(c, o, st1, snap.artistProjects);
  }

  // ---------------------------------------------------------------------
  // Over a covered server nothing is created

  lemma StartAndHydrateKeepsCounts(o: Oracle, st: State, shot: ShotInfo, artist: string, agent: Agent,
                                   name: string, path: string, up: Upserted)
    ensures StartAndHydrate(o, st, shot, artist, agent, name, path, up).t.shotCreated == st.t.shotCreated
  {
  }

  lemma ShotPairCreatesNothing(c: Config, o: Oracle, st: State, shot: ShotInfo, artist: string)
    requires Reliable(o) && SafeShot(shot) && RegexSafe(artist)
    requires Reaches(c, st.w.server, artist) ==> Present(st.w.server, ShotJobName(artist, shot))
    ensures ShotPair(c, o, st, shot, artist).t.shotCreated == st.t.shotCreated
  {
    if artist in c.artists {
      var (w1, agent) := FindAgentByName(st.w, o, c.artists[artist]);
      if agent.Some? {
        var path := BuildShotPath(c.paths, shot.tank, shot.sequence, shot.code);
        var name := ShotJobName(artist, shot);
        JobNameRegexSafe(artist, shot.tank, Some(shot.code));
        var (w2, up) := Upsert(w1, o, name, path, agent.value.id, "Shot " + shot.code + " for " + artist);
        assert up.value.action == Updated;
        StartAndHydrateKeepsCounts(o, State(w2, CountShot(st.t, Updated)), shot, artist, agent.value, name, path, up.value);
      }
    }
  }

  lemma {:induction false} ShotArtistsCreateNothing(c: Config, o: Oracle, st: State, shot: ShotInfo, artists: seq<string>)
    requires Reliable(o) && SafeShot(shot)
    requires forall i :: 0 <= i < |artists| ==> RegexSafe(artists[i])
    requires ShotCovered(c, st.w.server, shot, artists)
    ensures ShotArtists(c, o, st, shot, artists).t.shotCreated == st.t.shotCreated
    ensures ShotCovered(c, ShotArtists(c, o, st, shot, artists).w.server, shot, artists)
    decreases |artists|
  {
    if |artists| > 0 {
      var st1 := ShotPair(c, o, st, shot, artists[0]);
      ShotPairCreatesNothing(c, o, st, shot, artists[0]);
      ShotCoveredPersists(c, st.w.server, st1.w.server, shot, artists);
      assert forall j :: 1 <= j < |artists| ==> artists[j] == artists[1..][j - 1];
      ShotArtistsCreateNothing(c, o, st1, shot, artists[1..]);
      ShotCoveredPersists(c, st1.w.server, ShotArtists(c, o, st1, shot, artists[1..]).w.server, shot, artists);
    }
  }

  lemma {:induction false} ShotPhaseCreatesNothing(c: Config, o: Oracle, st: State, shots: seq<ShotInfo>)
    requires Reliable(o)
    requires forall i :: 0 <= i < |shots| ==> SafeShot(shots[i])
    requires ShotsCovered(c, st.w.server, shots)
    ensures ShotPhase(c, o, st, shots).t.shotCreated == st.t.shotCreated
    decreases |shots|
  {
    if |shots| > 0 {
      var st1 := ShotArtists(c, o, st, shots[0], shots[0].artists);
      ShotArtistsCreateNothing(c, o, st, shots[0], shots[0].artists);
      ShotsCoveredPersists(c, st.w.server, st1.w.server, shots);
      assert forall i :: 1 <= i < |shots| ==> shots[i] == shots[1..][i - 1];
      ShotPhaseCreatesNothing(c, o, st1, shots[1..]);
    }
  }

  lemma AssetsStepCreatesNothing(c: Config, o: Oracle, st: State, artist: string, agent: Agent, project: string)
    requires Reliable(o) && RegexSafe(artist) && RegexSafe(project)
    requires Present(st.w.server, AssetsJobName(artist, project))
    ensures AssetsStep(c, o, st, artist, agent, project).t.assetsCreated == st.t.assetsCreated
  {
  }

  lemma {:induction false} AssetsProjectsCreateNothing(c: Config, o: Oracle, st: State, artist: string, agent: Agent,
                                                       projects: seq<string>)
    requires Reliable(o) && RegexSafe(artist)
    requires forall i :: 0 <= i < |projects| ==> RegexSafe(projects[i])
    requires forall k :: 0 <= k < |projects| ==> Present(st.w.server, AssetsJobName(artist, projects[k]))
    ensures AssetsProjects(c, o, st, artist, agent, projects).t.assetsCreated == st.t.assetsCreated
    decreases |projects|
  {
    if |projects| > 0 {
      var st1 := AssetsStep(c, o, st, artist, agent, projects[0]);
      AssetsStepCreatesNothing(c, o, st, artist, agent, projects[0]);
      forall k | 0 <= k < |projects[1..]|
        ensures Present(st1.w.server, AssetsJobName(artist, projects[1..][k]))
      {
        PresentPersists(st.w.server, st1.w.server, AssetsJobName(artist, projects[k + 1]));
      }
      AssetsProjectsCreateNothing(c, o, st1, artist, agent, projects[1..]);
    }
  }

  lemma AssetsArtistCreatesNothing(c: Config, o: Oracle, st: State, ap: ArtistProjects)
    requires Reliable(o) && SafeEntry(ap)
    requires ProjectsCovered(c, st.w.server, ap.artist, ap.projects)
    ensures AssetsArtist(c, o, st, ap).t.assetsCreated == st.t.assetsCreated
  {
    if ap.artist in c.artists {
      var (w1, agent) := FindAgentByName(st.w, o, c.artists[ap.artist]);
      if agent.Some? {
        assert Reaches(c, st.w.server, ap.artist);
        AssetsProjectsCreateNothing(c, o, State(w1, st.t), ap.artist, agent.value, ap.projects);
      }
    }
  }

  lemma {:induction false} AssetsPhaseCreatesNothing(c: Config, o: Oracle, st: State, aps: seq<ArtistProjects>)
    requires Reliable(o)
    requires forall i :: 0 <= i < |aps| ==> SafeEntry(aps[i])
    requires AssetsCovered(c, st.w.server, aps)
    ensures AssetsPhase(c, o, st, aps).t.assetsCreated == st.t.assetsCreated
    decreases |aps|
  {
    if |aps| > 0 {
      var st1 := AssetsArtist(c, o, st, aps[0]);
      AssetsArtistCreatesNothing(c, o, st, aps[0]);
      AssetsCoveredPersists(c, st.w.server, st1.w.server, aps);
      assert forall i :: 1 <= i < |aps| ==> aps[i] == aps[1..][i - 1];
      AssetsPhaseCreatesNothing(c, o, st1, aps[1..]);
    }
  }

  /** A run over a server that already holds every job creates none. */
  lemma RerunCreatesNothing(c: Config, o: Oracle, snap: Snapshot, server: Server)
    requires Reliable(o) && SafeSnapshot(snap) && Covered(c, server, snap)
    ensures RunSync(c, o, snap, server).t.shotCreated == 0
    ensures RunSync(c, o, snap, server).t.assetsCreated == 0
  {
    var st0 := State(World(server, []), EmptyTally);
    var st1 := ShotPhase(c, o, st0, snap.shots);
    ShotPhaseCreatesNothing(c, o, st0, snap.shots);
    ShotPhaseLedger(c, o, st0, snap.shots);
    AssetsCoveredPersists(c, server, st1.w.server, snap.artistProjects);
    AssetsPhaseCreatesNothing(c, o, st1, snap.artistProjects);
    AssetsPhaseLedger(c, o, st1, snap.artistProjects);
  }

  /** Running the sync twice, with no call failing, the second run
      creates no job. */
  lemma SecondRunCreatesNothing(c: Config, o: Oracle, snap: Snapshot, server: Server)
    requires Reliable(o) && SafeSnapshot(snap)
    ensures var s1 := RunSync(c, o, snap, server).w.server;
            RunSync(c, o, snap, s1).t.shotCreated == 0 && RunSync(c, o, snap, s1).t.assetsCreated == 0
  {
    SyncCovers(c, o, snap, server);
    RerunCreatesNothing(c, o, snap, RunSync(c, o, snap, server).w.server);
  }

  // ---------------------------------------------------------------------
  // Artists the configuration does not know

  /** No artist of the snapshot is in the configuration. */
  predicate NoneKnown(c: Config, snap: Snapshot)
  {
    (forall i, j :: 0 <= i < |snap.shots| && 0 <= j < |snap.shots[i].artists| ==> snap.shots[i].artists[j] !in c.artists) &&
    (forall i :: 0 <= i < |snap.artistProjects| ==> snap.artistProjects[i].artist !in c.artists)
  }

  lemma {:induction false} ShotArtistsUnknown(c: Config, o: Oracle, st: State, shot: ShotInfo, artists: seq<string>)
    requires SafeShot(shot)
    requires forall i :: 0 <= i < |artists| ==> RegexSafe(artists[i]) && artists[i] !in c.artists
    ensures ShotArtists(c, o, st, shot, artists) == st
    decreases |artists|
  {
    if |artists| > 0 {
      ShotArtistsUnknown(c, o, st, shot, artists[1..]);
    }
  }

  lemma {:induction false} ShotPhaseUnknown(c: Config, o: Oracle, st: State, shots: seq<ShotInfo>)
    requires forall i :: 0 <= i < |shots| ==> SafeShot(shots[i])
    requires forall i, j :: 0 <= i < |shots| && 0 <= j < |shots[i].artists| ==> shots[i].artists[j] !in c.artists
    ensures ShotPhase(c, o, st, shots) == st
    decreases |shots|
  {
    if |shots| > 0 {
      ShotArtistsUnknown(c, o, st, shots[0], shots[0].artists);
      assert forall i :: 1 <= i < |shots| ==> shots[i] == shots[1..][i - 1];
      ShotPhaseUnknown(c, o, st, shots[1..]);
    }
  }

  lemma {:induction false} AssetsPhaseUnknown(c: Config, o: Oracle, st: State, aps: seq<ArtistProjects>)
    requires forall i :: 0 <= i < |aps| ==> SafeEntry(aps[i]) && aps[i].artist !in c.artists
    ensures AssetsPhase(c, o, st, aps) == st
    decreases |aps|
  {
    if |aps| > 0 {
      AssetsPhaseUnknown(c, o, st, aps[1..]);
    }
  }

  /** Artists missing from the configuration are skipped without a call,
      an error or a count: with none known, the sync issues no request and
      returns an empty summary. */
  lemma UnknownArtistsIgnored(c: Config, o: Oracle, snap: Snapshot, server: Server)
    requires SafeSnapshot(snap) && NoneKnown(c, snap)
    ensures RunSync(c, o, snap, server) == State(World(server, []), EmptyTally)
    ensures SyncToShotGrid(c, o, snap, server) == Results(0, 0, 0, 0, 0, 0, [], [])
  {
    var st0 := State(World(server, []), EmptyTally);
    ShotPhaseUnknown(c, o, st0, snap.shots);
    AssetsPhaseUnknown(c, o, st0, snap.artistProjects);
  }
}

=== FILE: resilio.dfy ===
/** The operations of `ResilioStateAPI` (functions/resilio_state_sync.py:
    16-149) over an explicit model of the Management Console's state.

    Each remote call a method makes is appended to a log as an
    `Api.Command`. Whether the call fails is decided by an oracle keyed by
    the call's position in the log; a call that fails has no effect on the
    server. The server's answers are read from the server state. */
module Resilio {
  import opened Outcomes
  import opened Strings
  import opened Seqs
  import Api
  import opened Paths
  import opened Names

  /** A job group: its agents, its path object (`None` for a missing,
      null or empty one, all of which are falsy) and its permission. */
  datatype Group = Group(agents: seq<int>, path: Option<PathTriple>, permission: string)

  datatype Job = Job(id: int, name: string, kind: string, description: string, groups: seq<Group>)

  datatype Agent = Agent(id: int, name: string)

  datatype Run = Run(id: int, jobId: int, status: string)

  /** The Management Console: its jobs, agents and job runs, and the id it
      hands out next. */
  datatype Server = Server(jobs: seq<Job>, agents: seq<Agent>, runs: seq<Run>, nextId: int)

  /** Which calls fail (by their position in the log, with the error they
      raise), and what a successful hydrate request reports: the `status`
      of each agent in the reply (no reply entry means no `agents`). */
  datatype Oracle = Oracle(failing: map<nat, Api.ApiError>, hydrateReplies: map<nat, seq<string>>)

  datatype World = World(server: Server, log: seq<Api.Command>)

  /** An oracle under which no call fails. */
  predicate Reliable(o: Oracle)
  {
    o.failing == map[]
  }

  const HybridWorkKind := "hybrid_work"
  const ReadWrite := "rw"
  const RunningStatus := "running"
  const MaxHydrateFiles := 1000

  /** What the server answers for an id it does not know. */
  const NotFound := Api.ApiError(Api.Generic, Api.JStr(""))

  /** What the wrappers of `ResilioStateAPI` re-raise for a caught error:
      a plain `ApiError`, whatever subclass was caught. The message gains a
      prefix naming the operation, which the model does not spell out. */
  function Reraised(e: Api.ApiError): (r: Api.ApiError)
    ensures r.kind == Api.Generic && r.message == e.message
  {
    Api.ApiError(Api.Generic, e.message)
  }

  /** What `hydrate_files` raises for too many files. */
  const TooManyFiles := Api.ApiError(Api.Generic, Api.JStr("Maximum 1000 files per request"))

  /** Issues one call: it is logged, and fails when the oracle says the
      call at this position fails. */
  function Attempt(w: World, o: Oracle, cmd: Api.Command): (r: (World, Option<Api.ApiError>))
    ensures r.0 == World(w.server, w.log + [cmd])
    ensures r.1.Some? <==> |w.log| in o.failing
  {
    (World(w.server, w.log + [cmd]), if |w.log| in o.failing then Some(o.failing[|w.log|]) else None)
  }

  /** The names of the jobs, in order. Creating a job appends a name;
      nothing the sync does renames or removes one. */
  function JobNames(jobs: seq<Job>): (r: seq<string>)
    ensures |r| == |jobs|
    ensures forall i :: 0 <= i < |jobs| ==> r[i] == jobs[i].name
  {
    seq(|jobs|, i requires 0 <= i < |jobs| => jobs[i].name)
  }

  /** The server changes the sync makes: jobs may be added or regrouped,
      runs added; job names and agents stay. */
  predicate Grows(s: Server, s2: Server)
  {
    JobNames(s.jobs) <= JobNames(s2.jobs) && s2.agents == s.agents
  }

  lemma GrowsTransitive(s1: Server, s2: Server, s3: Server)
    requires Grows(s1, s2) && Grows(s2, s3)
    ensures Grows(s1, s3)
  {
  }

  // ---------------------------------------------------------------------
  // JSON payloads

  function PathJson(t: PathTriple): Api.Json
  {
    Api.JObj(map["linux" := Api.JStr(t.linux), "win" := Api.JStr(t.win), "osx" := Api.JStr(t.osx)])
  }

  function AgentRefs(ids: seq<int>): seq<Api.Json>
  {
    seq(|ids|, i requires 0 <= i < |ids| => Api.JObj(map["id" := Api.JNum(ids[i])]))
  }

  function GroupJson(g: Group): Api.Json
  {
    Api.JObj(map[
      "agents" := Api.JArr(AgentRefs(g.agents)),
      "path" := if g.path.Some? then PathJson(g.path.value) else Api.JNull,
      "permission" := Api.JStr(g.permission)])
  }

  function GroupsJson(groups: seq<Group>): Api.Json
  {
    Api.JArr(seq(|groups|, i requires 0 <= i < |groups| => GroupJson(groups[i])))
  }

  /** The single group of a new hybrid-work job: the agent, the path in
      its three OS variants, read-write. */
  function NewGroup(agentId: int, path: string): (g: Group)
    ensures g.agents == [agentId] && g.permission == ReadWrite
    ensures g.path.Some? && g.path.value.linux == path && g.path.value.osx == path
    ensures |g.path.value.win| == |path|
    ensures forall i :: 0 <= i < |path| ==> g.path.value.win[i] == (if path[i] == '/' then '\\' else path[i])
  {
    Group([agentId], Some(Variants(path)), ReadWrite)
  }

  function JobAttrs(name: string, description: string, g: Group): Api.Json
  {
    var groupJson := Api.JObj(GroupJson(g).fields["id" := Api.JNull]);
    Api.JObj(map[
      "name" := Api.JStr(name),
      "type" := Api.JStr(HybridWorkKind),
      "description" := Api.JStr(description),
      "groups" := Api.JArr([groupJson])])
  }

  // ---------------------------------------------------------------------
  // Lookups

  /** The jobs whose name matches a pattern, in server order. */
  function MatchingJobs(jobs: seq<Job>, pattern: string): (r: seq<Job>)
    requires RegexSafe(pattern)
    ensures forall j :: j in r <==> j in jobs && MatchesPattern(pattern, j.name)
    ensures |r| > 0 ==> FirstWhere(jobs, (j: Job) => MatchesPattern(pattern, j.name)) < |jobs| &&
                        r[0] == jobs[FirstWhere(jobs, (j: Job) => MatchesPattern(pattern, j.name))]
    ensures |r| > 0 <==> exists i :: 0 <= i < |jobs| && MatchesPattern(pattern, jobs[i].name)
  {
    var p := (j: Job) => MatchesPattern(pattern, j.name);
    FilterHead(jobs, p);
    Filter(jobs, p)
  }

  /** `find_jobs_by_pattern(pattern)`: one GET of `/jobs`; the matching
      jobs, or none when the call fails. */
  function FindJobsByPattern(w: World, o: Oracle, pattern: string): (r: (World, seq<Job>))
    requires RegexSafe(pattern)
    ensures r.0 == World(w.server, w.log + [Api.GetJobs])
    ensures |w.log| in o.failing ==> r.1 == []
    ensures |w.log| !in o.failing ==> forall j :: j in r.1 <==> j in w.server.jobs && MatchesPattern(pattern, j.name)
    ensures |w.log| !in o.failing ==> r.1 == MatchingJobs(w.server.jobs, pattern)
  {
    var (w1, e) := Attempt(w, o, Api.GetJobs);
    if e.Some? then (w1, []) else (w1, MatchingJobs(w.server.jobs, pattern))
  }

  /** `find_agent_by_name(name)`: one GET of `/agents`; the first agent
      whose name equals `name` up to case, or `None` when there is none or
      the call fails. */
  function FindAgentByName(w: World, o: Oracle, name: string): (r: (World, Option<Agent>))
    ensures r.0 == World(w.server, w.log + [Api.GetAgents])
    ensures r.1.Some? ==> |w.log| !in o.failing
    ensures r.1.Some? ==>
              exists k ::
                0 <= k < |w.server.agents| && w.server.agents[k] == r.1.value &&
                EqualsIgnoreCase(r.1.value.name, name) &&
                forall i :: 0 <= i < k ==> !EqualsIgnoreCase(w.server.agents[i].name, name)
    ensures r.1.None? <==> |w.log| in o.failing ||
                           forall i :: 0 <= i < |w.server.agents| ==> !EqualsIgnoreCase(w.server.agents[i].name, name)
  {
    var (w1, e) := Attempt(w, o, Api.GetAgents);
    var agents := w.server.agents;
    var k := FirstWhere(agents, (a: Agent) => EqualsIgnoreCase(a.name, name));
    if e.Some? || k == |agents| then (w1, None) else (w1, Some(agents[k]))
  }

  /** The statuses `get_active_run_for_job` treats as active, after
      lower-casing. */
  predicate IsActiveStatus(status: string)
  {
    var s := Lower(status);
    s == "running" || s == "active" || s == "in_progress"
  }

  /** `get_active_run_for_job(job_id)`: the first of the job's runs whose
      status is active in any case, or `None` when there is none or the
      call fails. */
  function GetActiveRunForJob(w: World, o: Oracle, jobId: int): (r: (World, Option<Run>))
    ensures r.0 == World(w.server, w.log + [Api.GetJobRuns(Some(Api.JObj(map["job_id" := Api.JNum(jobId)])))])
    ensures r.1.Some? ==> |w.log| !in o.failing && r.1.value in w.server.runs &&
                          r.1.value.jobId == jobId && IsActiveStatus(r.1.value.status)
    ensures r.1.None? <==> |w.log| in o.failing ||
                           forall x :: x in w.server.runs && x.jobId == jobId ==> !IsActiveStatus(x.status)
    // the first of the job's runs that is active, in server order
    ensures r.1.Some? ==>
              exists k ::
                0 <= k < |w.server.runs| && w.server.runs[k] == r.1.value &&
                forall i :: 0 <= i < k && w.server.runs[i].jobId == jobId ==> !IsActiveStatus(w.server.runs[i].status)
  {
    var query := Api.JObj(map["job_id" := Api.JNum(jobId)]);
    var (w1, e) := Attempt(w, o, Api.GetJobRuns(Some(query)));
    var ofJob := (x: Run) => x.jobId == jobId;
    var active := (x: Run) => IsActiveStatus(x.status);
    var runs := Filter(w.server.runs, ofJob);
    var k := FirstWhere(runs, active);
    FirstWhereOfFilter(w.server.runs, ofJob, active);
    var first := FirstWhere(w.server.runs, Both(ofJob, active));
    assert k < |runs| ==> runs[k] == w.server.runs[first];
    if e.Some? || k == |runs| then (w1, None) else (w1, Some(runs[k]))
  }

  // ---------------------------------------------------------------------
  // Changes

  /** `create_hybrid_work_job(name, agent_id, path, description)`: one
      POST of `/jobs` with `ignore_errors` false. The server stores the job
      under a fresh id and returns it. */
  function CreateHybridWorkJob(w: World, o: Oracle, name: string, agentId: int, path: string, description: string)
    : (r: (World, Result<int, Api.ApiError>))
    ensures r.0.log == w.log + [Api.CreateJobCommand(JobAttrs(name, description, NewGroup(agentId, path)))]
    ensures r.1.Failure? <==> |w.log| in o.failing
    ensures r.1.Failure? ==> r.0.server == w.server && r.1.error.kind == Api.Generic
    ensures r.1.Success? ==>
              r.1.value == w.server.nextId &&
              r.0.server == w.server.(jobs := w.server.jobs + [Job(r.1.value, name, HybridWorkKind, description, [NewGroup(agentId, path)])],
                                      nextId := w.server.nextId + 1)
    ensures Grows(w.server, r.0.server)
  {
    var g := NewGroup(agentId, path);
    var (w1, e) := Attempt(w, o, Api.CreateJobCommand(JobAttrs(name, description, g)));
    if e.Some? then (w1, Failure(Reraised(e.value)))
    else
      var s := w1.server;
      var id := s.nextId;
      assert JobNames(s.jobs + [Job(id, name, HybridWorkKind, description, [g])]) == JobNames(s.jobs) + [name];
      (World(s.(jobs := s.jobs + [Job(id, name, HybridWorkKind, description, [g])], nextId := id + 1), w1.log),
       Success(id))
  }

  /** The groups of `update_job_path`: each group with a path gets the new
      path in its three OS variants; every other group, and every agent
      list and permission, is left as it was. */
  function Repath(groups: seq<Group>, newPath: string): (r: seq<Group>)
    ensures |r| == |groups|
    ensures forall i :: 0 <= i < |groups| ==>
              r[i].agents == groups[i].agents && r[i].permission == groups[i].permission
    ensures forall i :: 0 <= i < |groups| && groups[i].path.None? ==> r[i] == groups[i]
    ensures forall i :: 0 <= i < |groups| && groups[i].path.Some? ==>
              r[i].path.Some? && r[i].path.value.linux == newPath && r[i].path.value.osx == newPath
    ensures forall i :: 0 <= i < |groups| && groups[i].path.Some? ==> r[i] == groups[i].(path := Some(Variants(newPath)))
  {
    seq(|groups|, i requires 0 <= i < |groups| =>
      if groups[i].path.Some? then
        WinVariantRoundTrip(newPath);
        groups[i].(path := Some(Variants(newPath)))
      else groups[i])
  }

  /** Repathing twice keeps only the second path; repathing to the same
      path again changes nothing. */
  lemma RepathLastWins(groups: seq<Group>, p: string, q: string)
    ensures Repath(Repath(groups, p), q) == Repath(groups, q)
    ensures Repath(Repath(groups, p), p) == Repath(groups, p)
  {
  }

  /** The position of the job with a given id. */
  function JobIndex(jobs: seq<Job>, jobId: int): (k: nat)
    ensures k <= |jobs|
    ensures k < |jobs| ==> jobs[k].id == jobId
    ensures k == |jobs| <==> forall i :: 0 <= i < |jobs| ==> jobs[i].id != jobId
  {
    FirstWhere(jobs, (j: Job) => j.id == jobId)
  }

  /** `update_job_path(job_id, new_path)`: a GET of the job, then a PUT of
      its repathed groups. A job the server does not know fails the GET. */
  function UpdateJobPath(w: World, o: Oracle, jobId: int, newPath: string): (r: (World, Option<Api.ApiError>))
    ensures Grows(w.server, r.0.server)
    ensures r.1.Some? ==> r.0.server == w.server && r.1.value.kind == Api.Generic
    ensures r.1.None? ==>
              var k := JobIndex(w.server.jobs, jobId);
              k < |w.server.jobs| &&
              r.0.server == w.server.(jobs := w.server.jobs[k := w.server.jobs[k].(groups := Repath(w.server.jobs[k].groups, newPath))])
    ensures |r.0.log| == |w.log| + 1 || |r.0.log| == |w.log| + 2
    ensures r.0.log[..|w.log| + 1] == w.log + [Api.GetJob(jobId)]
    ensures r.1.None? <==>
              |w.log| !in o.failing && JobIndex(w.server.jobs, jobId) < |w.server.jobs| && |w.log| + 1 !in o.failing
  {
    var (w1, e1) := Attempt(w, o, Api.GetJob(jobId));
    var k := JobIndex(w.server.jobs, jobId);
    if e1.Some? then (w1, Some(Reraised(e1.value)))
    else if k == |w.server.jobs| then (w1, Some(NotFound))
    else
      var job := w.server.jobs[k];
      var groups := Repath(job.groups, newPath);
      var (w2, e2) := Attempt(w1, o, Api.UpdateJob(jobId, Api.JObj(map["groups" := GroupsJson(groups)])));
      assert w2.log[..|w.log| + 1] == w.log + [Api.GetJob(jobId)];
      if e2.Some? then (w2, Some(Reraised(e2.value)))
      else
        var s := w.server.(jobs := w.server.jobs[k := job.(groups := groups)]);
        assert JobNames(s.jobs) == JobNames(w.server.jobs);
        (World(s, w2.log), None)
  }

  /** The body of a hydrate request: the files, and the agents only when
      there are some. */
  function HydratePayload(files: seq<string>, agents: Option<seq<int>>): (p: Api.Json)
    ensures p.JObj? && "files" in p.fields
    ensures p.fields["files"] == Api.JArr(seq(|files|, i requires 0 <= i < |files| => Api.JStr(files[i])))
    ensures "agents" in p.fields <==> agents.Some? && |agents.value| > 0
    ensures p.fields.Keys <= {"files", "agents"}
  {
    var fs := Api.JArr(seq(|files|, i requires 0 <= i < |files| => Api.JStr(files[i])));
    if agents.Some? && |agents.value| > 0 then
      Api.JObj(map["files" := fs, "agents" := Api.JArr(seq(|agents.value|, i requires 0 <= i < |agents.value| => Api.JNum(agents.value[i])))])
    else
      Api.JObj(map["files" := fs])
  }

  /** `hydrate_files(run_id, files, agents)`: more than 1000 files fail
      before any request; otherwise one PUT, answered with the status of
      each agent. */
  function HydrateFiles(w: World, o: Oracle, runId: int, files: seq<string>, agents: Option<seq<int>>)
    : (r: (World, Result<seq<string>, Api.ApiError>))
    ensures |files| > MaxHydrateFiles ==> r == (w, Failure(TooManyFiles))
    ensures |files| <= MaxHydrateFiles ==>
              r.0 == World(w.server, w.log + [Api.HydrateFiles(runId, HydratePayload(files, agents))]) &&
              (r.1.Failure? <==> |w.log| in o.failing)
    ensures r.1.Failure? ==> r.1.error.kind == Api.Generic
  {
    if |files| > MaxHydrateFiles then (w, Failure(TooManyFiles))
    else
      var (w1, e) := Attempt(w, o, Api.HydrateFiles(runId, HydratePayload(files, agents)));
      if e.Some? then (w1, Failure(Reraised(e.value)))
      else (w1, Success(if |w.log| in o.hydrateReplies then o.hydrateReplies[|w.log|] else []))
  }

  /** How many agents report `sent`. */
  function SentCount(statuses: seq<string>): nat
  {
    Count(statuses, (st: string) => st == "sent")
  }

  /** `start_job(job_id)`: one POST of `/runs`; the server starts a
      running run under a fresh id and returns it. */
  function StartJob(w: World, o: Oracle, jobId: int): (r: (World, Result<int, Api.ApiError>))
    ensures r.0.log == w.log + [Api.CreateJobRun(Api.JObj(map["job_id" := Api.JNum(jobId)]))]
    ensures r.1.Failure? <==> |w.log| in o.failing
    ensures r.1.Failure? ==> r.0.server == w.server && r.1.error.kind == Api.Generic
    ensures r.1.Success? ==>
              r.1.value == w.server.nextId &&
              r.0.server == w.server.(runs := w.server.runs + [Run(r.1.value, jobId, RunningStatus)],
                                      nextId := w.server.nextId + 1)
    ensures Grows(w.server, r.0.server)
  {
    var (w1, e) := Attempt(w, o, Api.CreateJobRun(Api.JObj(map["job_id" := Api.JNum(jobId)])));
    if e.Some? then (w1, Failure(Reraised(e.value)))
    else
      var s := w1.server;
      (World(s.(runs := s.runs + [Run(s.nextId, jobId, RunningStatus)], nextId := s.nextId + 1), w1.log),
       Success(s.nextId))
  }

  /** `delete_job_if_exists(name)`: a GET of `/jobs`, then a DELETE of the
      first job named exactly `name`. True only when both succeed. */
  function DeleteJobIfExists(w: World, o: Oracle, name: string): (r: (World, bool))
    ensures r.1 <==>
              |w.log| !in o.failing && |w.log| + 1 !in o.failing &&
              exists i :: 0 <= i < |w.server.jobs| && w.server.jobs[i].name == name
    ensures r.1 ==>
              var k := FirstWhere(w.server.jobs, (j: Job) => j.name == name);
              r.0.server == w.server.(jobs := w.server.jobs[..k] + w.server.jobs[k + 1..]) &&
              r.0.log == w.log + [Api.GetJobs, Api.DeleteJob(w.server.jobs[k].id)]
    ensures !r.1 ==> r.0.server == w.server
  {
    var (w1, e1) := Attempt(w, o, Api.GetJobs);
    var jobs := w.server.jobs;
    var k := FirstWhere(jobs, (j: Job) => j.name == name);
    if e1.Some? || k == |jobs| then (w1, false)
    else
      var (w2, e2) := Attempt(w1, o, Api.DeleteJob(jobs[k].id));
      if e2.Some? then (w2, false)
      else (World(w.server.(jobs := jobs[..k] + jobs[k + 1..]), w2.log), true)
  }

  lemma JobNamesRemove(jobs: seq<Job>, k: nat)
    requires k < |jobs|
    ensures JobNames(jobs[..k] + jobs[k + 1..]) == JobNames(jobs)[..k] + JobNames(jobs)[k + 1..]
  {
  }

  /** Deleting removes exactly one job named `name`, the first, and keeps
      the others in order. */
  lemma DeleteRemovesFirstNamed(w: World, o: Oracle, name: string)
    requires DeleteJobIfExists(w, o, name).1
    ensures var s2 := DeleteJobIfExists(w, o, name).0.server;
            |s2.jobs| == |w.server.jobs| - 1 &&
            Count(JobNames(s2.jobs), (n: string) => n == name) ==
              Count(JobNames(w.server.jobs), (n: string) => n == name) - 1
  {
    var jobs := w.server.jobs;
    var k := FirstWhere(jobs, (j: Job) => j.name == name);
    JobNamesRemove(jobs, k);
    CountRemove(JobNames(jobs), k, (n: string) => n == name);
  }
}

=== FILE: results.dfy ===
/** What the summary returned by `sync_resilio_to_shotgrid_state`
    (functions/resilio_state_sync.py:308-317, 345-455) adds up to: how the
    counters relate to `details` and `errors`, which entries each phase
    contributes, and what a rerun does. */
module SyncResults {
  import opened Outcomes
  import opened Strings
  import opened Seqs
  import Api
  import opened Paths
  import opened Names
  import opened Resilio
  import opened ShotGrid
  import opened Sync

  predicate IsShotDetail(d: Detail)
  {
    d.kind == ShotJob
  }

  predicate IsHydratedShotDetail(d: Detail)
  {
    d.kind == ShotJob && d.hydrated
  }

  predicate IsAssetsDetail(d: Detail)
  {
    d.kind == AssetsJob
  }

  predicate IsShotError(e: SyncError)
  {
    e.AgentNotFound? || e.ShotJobFailed?
  }

  predicate IsAssetsError(e: SyncError)
  {
    e.AssetsJobFailed?
  }

  /** A shot job that failed after it was created or updated, and so was
      already counted. */
  predicate IsLateShotError(e: SyncError)
  {
    e.ShotJobFailed? && (e.cause.StartFailed? || e.cause.HydrateFailed?)
  }

  /** The artists with a shot detail. */
  function ShotArtistsOf(ds: seq<Detail>): (r: set<string>)
    ensures forall a :: a in r <==> exists i :: 0 <= i < |ds| && ds[i].kind == ShotJob && ds[i].artist == a
  {
    if |ds| == 0 then {}
    else
      var init := ds[..|ds| - 1];
      var d := ds[|ds| - 1];
      assert forall i :: 0 <= i < |init| ==> init[i] == ds[i];
      ShotArtistsOf(init) + (if d.kind == ShotJob then {d.artist} else {})
  }

  lemma ShotArtistsSnoc(ds: seq<Detail>, d: Detail)
    ensures ShotArtistsOf(ds + [d]) == ShotArtistsOf(ds) + (if d.kind == ShotJob then {d.artist} else {})
  {
    assert (ds + [d])[..|ds|] == ds;
  }

  /** The bookkeeping the tally keeps throughout: created plus updated
      shot jobs are the shot details plus the shot jobs that failed only
      at start or hydrate; hydrated shot jobs are the hydrated details;
      created plus updated assets jobs are the assets details; the
      processed artists are those with a shot detail. */
  predicate Ledger(t: Tally)
  {
    t.shotCreated + t.shotUpdated == Count(t.details, IsShotDetail) + Count(t.errors, IsLateShotError) &&
    t.shotHydrated == Count(t.details, IsHydratedShotDetail) &&
    t.assetsCreated + t.assetsUpdated == Count(t.details, IsAssetsDetail) &&
    t.processed == ShotArtistsOf(t.details)
  }

  /** `t2` extends `t`: nothing is removed, and every new detail and error
      passes the given tests. */
  predicate Extends(t: Tally, t2: Tally, isDetail: Detail -> bool, isError: SyncError -> bool)
  {
    t.details <= t2.details && t.errors <= t2.errors &&
    (forall i :: |t.details| <= i < |t2.details| ==> isDetail(t2.details[i])) &&
    (forall i :: |t.errors| <= i < |t2.errors| ==> isError(t2.errors[i]))
  }

  /** What a stretch of the shot phase does to the tally: it adds `added`
      shot entries and leaves the assets counters alone. */
  predicate ShotExtends(t: Tally, t2: Tally, added: nat)
  {
    Extends(t, t2, IsShotDetail, IsShotError) &&
    |t2.details| + |t2.errors| == |t.details| + |t.errors| + added &&
    t2.assetsCreated == t.assetsCreated && t2.assetsUpdated == t.assetsUpdated
  }

  /** What a stretch of the assets phase does to the tally: it adds only
      assets entries and leaves the shot counters and the processed
      artists alone. */
  predicate AssetsExtends(t: Tally, t2: Tally)
  {
    Extends(t, t2, IsAssetsDetail, IsAssetsError) &&
    t2.shotCreated == t.shotCreated && t2.shotUpdated == t.shotUpdated &&
    t2.shotHydrated == t.shotHydrated && t2.processed == t.processed
  }

  lemma ShotExtendsTransitive(t1: Tally, t2: Tally, t3: Tally, n: nat, m: nat)
    requires ShotExtends(t1, t2, n) && ShotExtends(t2, t3, m)
    ensures ShotExtends(t1, t3, n + m)
  {
  }

  lemma AssetsExtendsTransitive(t1: Tally, t2: Tally, t3: Tally)
    requires AssetsExtends(t1, t2) && AssetsExtends(t2, t3)
    ensures AssetsExtends(t1, t3)
  {
  }

  // ---------------------------------------------------------------------
  // Shot phase

  /** The tally after a shot job was counted and before it ended: one more
      job counted than the ledger accounts for. */
  predicate Counted(t: Tally)
  {
    t.shotCreated + t.shotUpdated == Count(t.details, IsShotDetail) + Count(t.errors, IsLateShotError) + 1 &&
    t.shotHydrated == Count(t.details, IsHydratedShotDetail) &&
    t.assetsCreated + t.assetsUpdated == Count(t.details, IsAssetsDetail) &&
    t.processed == ShotArtistsOf(t.details)
  }

  lemma BumpCounted(t: Tally, action: Action)
    requires Ledger(t)
    ensures Counted(CountShot(t, action))
  {
  }

  /** A shot error that is not a late failure: nothing was counted. */
  lemma EarlyShotError(t: Tally, e: SyncError)
    requires Ledger(t) && IsShotError(e) && !IsLateShotError(e)
    ensures Ledger(t.(errors := t.errors + [e]))
    ensures ShotExtends(t, t.(errors := t.errors + [e]), 1)
  {
    CountSnoc(t.errors, e, IsLateShotError);
  }

  /** A start or hydrate failure settles the counted job. */
  lemma LateShotError(t: Tally, e: SyncError)
    requires Counted(t) && IsLateShotError(e)
    ensures Ledger(t.(errors := t.errors + [e]))
    ensures ShotExtends(t, t.(errors := t.errors + [e]), 1)
  {
    CountSnoc(t.errors, e, IsLateShotError);
  }

  /** The detail of a hydrated-or-not shot job settles the counted job. */
  lemma ShotDetailRecorded(t: Tally, d: Detail)
    requires Counted(t) && d.kind == ShotJob
    ensures Ledger(t.(shotHydrated := t.shotHydrated + (if d.hydrated then 1 else 0),
                      processed := t.processed + {d.artist},
                      details := t.details + [d]))
    ensures ShotExtends(t, t.(shotHydrated := t.shotHydrated + (if d.hydrated then 1 else 0),
                              processed := t.processed + {d.artist},
                              details := t.details + [d]), 1)
  {
    CountSnoc(t.details, d, IsShotDetail);
    CountSnoc(t.details, d, IsHydratedShotDetail);
    CountSnoc(t.details, d, IsAssetsDetail);
    ShotArtistsSnoc(t.details, d);
  }

  /** The ends of a counted shot job: a start failure, a hydrate failure or
      a detail. */
  lemma StartAndHydrateLedger(o: Oracle, st: State, shot: ShotInfo, artist: string, agent: Agent,
                              name: string, path: string, up: Upserted)
    requires Counted(st.t)
    ensures Ledger(StartAndHydrate(o, st, shot, artist, agent, name, path, up).t)
    ensures ShotExtends(st.t, StartAndHydrate(o, st, shot, artist, agent, name, path, up).t, 1)
  {
    var t := st.t;
    var (w1, active) := GetActiveRunForJob(st.w, o, up.jobId);
    var (w2, runId) := if active.Some? then (w1, Success(active.value.id)) else StartJob(w1, o, up.jobId);
    if runId.Failure? {
      LateShotError(t, ShotJobFailed(artist, shot.code, StartFailed(runId.error)));
    } else {
      var (w3, statuses) := HydrateFiles(w2, o, runId.value, [path], Some([agent.id]));
      if statuses.Failure? {
        LateShotError(t, ShotJobFailed(artist, shot.code, HydrateFailed(statuses.error)));
      } else {
        var hydrated := SentCount(statuses.value) > 0;
        ShotDetailRecorded(t, Detail(ShotJob, artist, shot.tank, Some(shot.code), name, path, up.action, hydrated));
      }
    }
  }

  /** A shot job created or updated is counted and then settled. */
  lemma CountedShotSettles(o: Oracle, st: State, shot: ShotInfo, artist: string, agent: Agent,
                           name: string, path: string, up: Upserted)
    requires Ledger(st.t)
    ensures Ledger(StartAndHydrate(o, State(st.w, CountShot(st.t, up.action)), shot, artist, agent, name, path, up).t)
    ensures ShotExtends(st.t, StartAndHydrate(o, State(st.w, CountShot(st.t, up.action)), shot, artist, agent, name, path, up).t, 1)
  {
    var t1 := CountShot(st.t, up.action);
    BumpCounted(st.t, up.action);
    StartAndHydrateLedger(o, State(st.w, t1), shot, artist, agent, name, path, up);
  }

  lemma AfterShotUpsertLedger(o: Oracle, st: State, shot: ShotInfo, artist: string, agent: Agent,
                              name: string, path: string, up: Result<Upserted, Cause>)
    requires Ledger(st.t)
    requires up.Failure? ==> up.error.CreateFailed? || up.error.UpdateFailed?
    ensures Ledger(AfterShotUpsert(o, st, shot, artist, agent, name, path, up).t)
    ensures ShotExtends(st.t, AfterShotUpsert(o, st, shot, artist, agent, name, path, up).t, 1)
  {
    if up.Failure? {
      EarlyShotError(st.t, ShotJobFailed(artist, shot.code, up.error));
    } else {
      CountedShotSettles(o, st, shot, artist, agent, name, path, up.value);
    }
  }

  lemma ShotJobStepLedger(c: Config, o: Oracle, st: State, shot: ShotInfo, artist: string, agent: Agent)
    requires SafeShot(shot) && RegexSafe(artist) && Ledger(st.t)
    ensures Ledger(ShotJobStep(c, o, st, shot, artist, agent).t)
    ensures ShotExtends(st.t, ShotJobStep(c, o, st, shot, artist, agent).t, 1)
  {
    var path := BuildShotPath(c.paths, shot.tank, shot.sequence, shot.code);
    var name := ShotJobName(artist, shot);
    JobNameRegexSafe(artist, shot.tank, Some(shot.code));
    var (w1, up) := Upsert(st.w, o, name, path, agent.id, "Shot " + shot.code + " for " + artist);
    AfterShotUpsertLedger(o, State(w1, st.t), shot, artist, agent, name, path, up);
  }

  lemma ShotPairLedger(c: Config, o: Oracle, st: State, shot: ShotInfo, artist: string)
    requires SafeShot(shot) && RegexSafe(artist) && Ledger(st.t)
    ensures Ledger(ShotPair(c, o, st, shot, artist).t)
    ensures ShotExtends(st.t, ShotPair(c, o, st, shot, artist).t, if artist in c.artists then 1 else 0)
  {
    if artist in c.artists {
      var (w1, agent) := FindAgentByName(st.w, o, c.artists[artist]);
      if agent.None? {
        EarlyShotError(st.t, AgentNotFound(artist, c.artists[artist]));
      } else {
        ShotJobStepLedger(c, o, State(w1, st.t), shot, artist, agent.value);
      }
    }
  }

  /** How many of the artists the configuration knows. */
  function KnownArtists(c: Config, artists: seq<string>): (n: nat)
    ensures n <= |artists|
    ensures n == 0 <==> forall i :: 0 <= i < |artists| ==> artists[i] !in c.artists
  {
    if |artists| == 0 then 0
    else (if artists[0] in c.artists then 1 else 0) + KnownArtists(c, artists[1..])
  }

  /** How many (shot, artist) pairs with an artist the configuration
      knows. */
  function KnownPairs(c: Config, shots: seq<ShotInfo>): (n: nat)
    ensures n == 0 <==> forall i, j :: 0 <= i < |shots| && 0 <= j < |shots[i].artists| ==> shots[i].artists[j] !in c.artists
  {
    if |shots| == 0 then 0
    else
      var rest := KnownPairs(c, shots[1..]);
      assert forall i :: 1 <= i < |shots| ==> shots[i] == shots[1..][i - 1];
      KnownArtists(c, shots[0].artists) + rest
  }

  lemma {:induction false} ShotArtistsLedger(c: Config, o: Oracle, st: State, shot: ShotInfo, artists: seq<string>)
    requires SafeShot(shot) && Ledger(st.t)
    requires forall i :: 0 <= i < |artists| ==> RegexSafe(artists[i])
    ensures Ledger(ShotArtists(c, o, st, shot, artists).t)
    ensures ShotExtends(st.t, ShotArtists(c, o, st, shot, artists).t, KnownArtists(c, artists))
    decreases |artists|
  {
    if |artists| > 0 {
      var st1 := ShotPair(c, o, st, shot, artists[0]);
      ShotPairLedger(c, o, st, shot, artists[0]);
      ShotArtistsLedger(c, o, st1, shot, artists[1..]);
      ShotExtendsTransitive(st.t, st1.t, ShotArtists(c, o, st1, shot, artists[1..]).t,
                            if artists[0] in c.artists then 1 else 0, KnownArtists(c, artists[1..]));
    }
  }

  /** The shot phase keeps the ledger and records exactly one entry,
      detail or error, per (shot, artist) pair the configuration knows. */
  lemma {:induction false} ShotPhaseLedger(c: Config, o: Oracle, st: State, shots: seq<ShotInfo>)
    requires forall i :: 0 <= i < |shots| ==> SafeShot(shots[i])
    requires Ledger(st.t)
    ensures Ledger(ShotPhase(c, o, st, shots).t)
    ensures ShotExtends(st.t, ShotPhase(c, o, st, shots).t, KnownPairs(c, shots))
    decreases |shots|
  {
    if |shots| > 0 {
      var st1 := ShotArtists(c, o, st, shots[0], shots[0].artists);
      ShotArtistsLedger(c, o, st, shots[0], shots[0].artists);
      ShotPhaseLedger(c, o, st1, shots[1..]);
      ShotExtendsTransitive(st.t, st1.t, ShotPhase(c, o, st1, shots[1..]).t,
                            KnownArtists(c, shots[0].artists), KnownPairs(c, shots[1..]));
    }
  }

  // ---------------------------------------------------------------------
  // Assets phase

  lemma AssetsErrorRecorded(t: Tally, e: SyncError)
    requires Ledger(t) && IsAssetsError(e)
    ensures Ledger(t.(errors := t.errors + [e]))
    ensures AssetsExtends(t, t.(errors := t.errors + [e]))
  {
    CountSnoc(t.errors, e, IsLateShotError);
  }

  lemma AssetsDetailRecorded(t: Tally, d: Detail)
    requires Ledger(t) && d.kind == AssetsJob
    ensures var t1 := CountAssets(t, d.action);
            Ledger(t1.(details := t1.details + [d])) && AssetsExtends(t, t1.(details := t1.details + [d]))
  {
    CountSnoc(t.details, d, IsShotDetail);
    CountSnoc(t.details, d, IsHydratedShotDetail);
    CountSnoc(t.details, d, IsAssetsDetail);
    ShotArtistsSnoc(t.details, d);
  }

  lemma AssetsStepLedger(c: Config, o: Oracle, st: State, artist: string, agent: Agent, project: string)
    requires RegexSafe(artist) && RegexSafe(project) && Ledger(st.t)
    ensures Ledger(AssetsStep(c, o, st, artist, agent, project).t)
    ensures AssetsExtends(st.t, AssetsStep(c, o, st, artist, agent, project).t)
  {
    var path := BuildAssetsPath(c.paths, project);
    var name := AssetsJobName(artist, project);
    JobNameRegexSafe(artist, project, None);
    var (w1, up) := Upsert(st.w, o, name, path, agent.id, "Assets for " + project + " - " + artist);
    if up.Failure? {
      AssetsErrorRecorded(st.t, AssetsJobFailed(artist, project, up.error));
    } else {
      AssetsDetailRecorded(st.t, Detail(AssetsJob, artist, project, None, name, path, up.value.action, false));
    }
  }

  lemma {:induction false} AssetsProjectsLedger(c: Config, o: Oracle, st: State, artist: string, agent: Agent, projects: seq<string>)
    requires RegexSafe(artist) && Ledger(st.t)
    requires forall i :: 0 <= i < |projects| ==> RegexSafe(projects[i])
    ensures Ledger(AssetsProjects(c, o, st, artist, agent, projects).t)
    ensures AssetsExtends(st.t, AssetsProjects(c, o, st, artist, agent, projects).t)
    decreases |projects|
  {
    if |projects| > 0 {
      var st1 := AssetsStep(c, o, st, artist, agent, projects[0]);
      var r := AssetsProjects(c, o, st1, artist, agent, projects[1..]);
      assert AssetsProjects(c, o, st, artist, agent, projects) == r;
      AssetsStepLedger(c, o, st, artist, agent, projects[0]);
      AssetsProjectsLedger(c, o, st1, artist, agent, projects[1..]);
      AssetsExtendsTransitive(st.t, st1.t, r.t);
    }
  }

  lemma AssetsArtistLedger(c: Config, o: Oracle, st: State, ap: ArtistProjects)
    requires SafeEntry(ap) && Ledger(st.t)
    ensures Ledger(AssetsArtist(c, o, st, ap).t)
    ensures AssetsExtends(st.t, AssetsArtist(c, o, st, ap).t)
  {
    if ap.artist in c.artists {
      var (w1, agent) := FindAgentByName(st.w, o, c.artists[ap.artist]);
      if agent.Some? {
        AssetsProjectsLedger(c, o, State(w1, st.t), ap.artist, agent.value, ap.projects);
      }
    }
  }

  /** The assets phase keeps the ledger and adds only assets entries: no
      error about a missing agent, no change to the shot counters or to
      the processed artists. */
  lemma {:induction false} AssetsPhaseLedger(c: Config, o: Oracle, st: State, aps: seq<ArtistProjects>)
    requires forall i :: 0 <= i < |aps| ==> SafeEntry(aps[i])
    requires Ledger(st.t)
    ensures Ledger(AssetsPhase(c, o, st, aps).t)
    ensures AssetsExtends(st.t, AssetsPhase(c, o, st, aps).t)
    decreases |aps|
  {
    if |aps| > 0 {
      var st1 := AssetsArtist(c, o, st, aps[0]);
      AssetsArtistLedger(c, o, st, aps[0]);
      AssetsPhaseLedger(c, o, st1, aps[1..]);
      AssetsExtendsTransitive(st.t, st1.t, AssetsPhase(c, o, st1, aps[1..]).t);
    }
  }

  // ---------------------------------------------------------------------
  // The summary

  /** No shot entry comes after an assets entry. */
  predicate ShotEntriesFirst(ds: seq<Detail>, es: seq<SyncError>)
  {
    (forall i, j :: 0 <= i < j < |ds| && ds[i].kind == AssetsJob ==> ds[j].kind == AssetsJob) &&
    (forall i, j :: 0 <= i < j < |es| && es[i].AssetsJobFailed? ==> es[j].AssetsJobFailed?)
  }

  /** After the shot phase every entry is a shot entry; after the assets
      phase every later entry is an assets entry. */
  lemma PhaseCounts(t1: Tally, t2: Tally, n: nat)
    requires ShotExtends(EmptyTally, t1, n) && AssetsExtends(t1, t2)
    ensures Count(t2.details, IsShotDetail) + Count(t2.errors, IsShotError) == n
    ensures ShotEntriesFirst(t2.details, t2.errors)
  {
    var d := t2.details;
    var e := t2.errors;
    assert forall i :: 0 <= i < |t1.details| ==> d[i] == t1.details[i];
    assert forall i :: 0 <= i < |t1.errors| ==> e[i] == t1.errors[i];
    CountOfSplit(d, |t1.details|, IsShotDetail);
    CountOfSplit(e, |t1.errors|, IsShotError);
  }

  /** `sync_resilio_to_shotgrid_state(sg_state, url, token)` against a
      server and an oracle: the summary it returns, with the bookkeeping
      that holds whatever fails. */
  function SyncToShotGrid(c: Config, o: Oracle, snap: Snapshot, server: Server): (r: Results)
    requires SafeSnapshot(snap)
    ensures r.shotCreated + r.shotUpdated == Count(r.details, IsShotDetail) + Count(r.errors, IsLateShotError)
    ensures r.shotHydrated == Count(r.details, IsHydratedShotDetail)
    ensures r.assetsCreated + r.assetsUpdated == Count(r.details, IsAssetsDetail)
    ensures r.artistsProcessed == |ShotArtistsOf(r.details)|
    ensures Count(r.details, IsShotDetail) + Count(r.errors, IsShotError) == KnownPairs(c, snap.shots)
    ensures ShotEntriesFirst(r.details, r.errors)
  {
    var st0 := State(World(server, []), EmptyTally);
    var st1 := ShotPhase(c, o, st0, snap.shots);
    ShotPhaseLedger(c, o, st0, snap.shots);
    AssetsPhaseLedger(c, o, st1, snap.artistProjects);
    var t := RunSync(c, o, snap, server).t;
    PhaseCounts(st1.t, t, KnownPairs(c, snap.shots));
    Summary(t)
  }
}

=== FILE: seqs.dfy ===
/** Sequence idioms the sync code uses on lists: the first element that
    satisfies a test (`for x in xs: if p(x): return x`), the elements that
    do (a list comprehension), how many do (`sum(1 for x in xs if p(x))`),
    and a list without repeats (`list(set(xs))`, in first-seen order). */
module Seqs {

  /** The index of the first element satisfying `p`, or `|s|` when none
      does. */
  function FirstWhere<T>(s: seq<T>, p: T -> bool): (k: nat)
    ensures k <= |s|
    ensures k < |s| ==> p(s[k])
    ensures forall i :: 0 <= i < k ==> !p(s[i])
  {
    if |s| == 0 then 0
    else if p(s[0]) then 0
    else 1 + FirstWhere(s[1..], p)
  }

  /** The elements satisfying `p`, in their original order. */
  function Filter<T(!new)>(s: seq<T>, p: T -> bool): (r: seq<T>)
    ensures |r| <= |s|
    ensures forall x :: x in r <==> x in s && p(x)
    ensures forall i :: 0 <= i < |r| ==> p(r[i])
  {
    if |s| == 0 then []
    else (if p(s[0]) then [s[0]] else []) + Filter(s[1..], p)
  }

  /** The head of a filtered sequence is the first element that passes. */
  lemma {:induction false} FilterHead<T(!new)>(s: seq<T>, p: T -> bool)
    ensures |Filter(s, p)| > 0 <==> FirstWhere(s, p) < |s|
    ensures |Filter(s, p)| > 0 ==> Filter(s, p)[0] == s[FirstWhere(s, p)]
    decreases |s|
  {
    if |s| > 0 && !p(s[0]) {
      FilterHead(s[1..], p);
    }
  }

  lemma {:induction false} FilterSnoc<T(!new)>(s: seq<T>, x: T, p: T -> bool)
    ensures Filter(s + [x], p) == Filter(s, p) + (if p(x) then [x] else [])
    decreases |s|
  {
    if |s| == 0 {
      assert s + [x] == [x];
    } else {
      assert (s + [x])[0] == s[0];
      assert (s + [x])[1..] == s[1..] + [x];
      FilterSnoc(s[1..], x, p);
    }
  }

  /** Both tests at once. */
  function Both<T(!new)>(p: T -> bool, q: T -> bool): (r: T -> bool)
    ensures forall x :: r(x) == (p(x) && q(x))
  {
    x => p(x) && q(x)
  }

  /** Looking for `q` among the elements that pass `p` finds the first
      element of `s` that passes both. */
  lemma {:induction false} FirstWhereOfFilter<T(!new)>(s: seq<T>, p: T -> bool, q: T -> bool)
    ensures FirstWhere(Filter(s, p), q) < |Filter(s, p)| <==> FirstWhere(s, Both(p, q)) < |s|
    ensures FirstWhere(Filter(s, p), q) < |Filter(s, p)| ==>
              Filter(s, p)[FirstWhere(Filter(s, p), q)] == s[FirstWhere(s, Both(p, q))]
    decreases |s|
  {
    if |s| > 0 {
      var f := Filter(s, p);
      var f1 := Filter(s[1..], p);
      if p(s[0]) && q(s[0]) {
        assert f[0] == s[0];
      } else {
        if p(s[0]) {
          assert f == [s[0]] + f1;
          assert f[1..] == f1;
        } else {
          assert f == f1;
        }
        FirstWhereOfFilter(s[1..], p, q);
      }
    }
  }

  /** How many elements satisfy `p`. */
  function Count<T>(s: seq<T>, p: T -> bool): (n: nat)
    ensures n <= |s|
    ensures n == 0 <==> forall i :: 0 <= i < |s| ==> !p(s[i])
  {
    if |s| == 0 then 0
    else Count(s[..|s| - 1], p) + (if p(s[|s| - 1]) then 1 else 0)
  }

  lemma CountSnoc<T>(s: seq<T>, x: T, p: T -> bool)
    ensures Count(s + [x], p) == Count(s, p) + (if p(x) then 1 else 0)
  {
    assert (s + [x])[..|s|] == s;
  }

  lemma {:induction false} CountConcat<T>(a: seq<T>, b: seq<T>, p: T -> bool)
    ensures Count(a + b, p) == Count(a, p) + Count(b, p)
    decreases |b|
  {
    if |b| == 0 {
      assert a + b == a;
    } else {
      var init := b[..|b| - 1];
      var x := b[|b| - 1];
      assert b == init + [x];
      assert a + b == (a + init) + [x];
      CountConcat(a, init, p);
      CountSnoc(a + init, x, p);
      CountSnoc(init, x, p);
    }
  }

  lemma {:induction false} CountAll<T>(s: seq<T>, p: T -> bool)
    requires forall i :: 0 <= i < |s| ==> p(s[i])
    ensures Count(s, p) == |s|
    decreases |s|
  {
    if |s| > 0 {
      CountAll(s[..|s| - 1], p);
    }
  }

  /** When the first `k` elements pass and the rest fail, `k` pass. */
  lemma {:induction false} CountOfSplit<T>(s: seq<T>, k: nat, p: T -> bool)
    requires k <= |s|
    requires forall i :: 0 <= i < k ==> p(s[i])
    requires forall i :: k <= i < |s| ==> !p(s[i])
    ensures Count(s, p) == k
    decreases |s|
  {
    if |s| == k {
      CountAll(s, p);
    } else {
      CountOfSplit(s[..|s| - 1], k, p);
    }
  }

  /** Removing one element that passes lowers the count by one. */
  lemma {:induction false} CountRemove<T>(s: seq<T>, k: nat, p: T -> bool)
    requires k < |s| && p(s[k])
    ensures Count(s[..k] + s[k + 1..], p) == Count(s, p) - 1
    decreases |s|
  {
    var init := s[..|s| - 1];
    if k == |s| - 1 {
      assert s[..k] + s[k + 1..] == init;
    } else {
      CountRemove(init, k, p);
      assert s[..k] + s[k + 1..] == (init[..k] + init[k + 1..]) + [s[|s| - 1]];
      CountSnoc(init[..k] + init[k + 1..], s[|s| - 1], p);
    }
  }

  /** Counting and filtering agree. */
  lemma {:induction false} CountIsFilterLength<T(!new)>(s: seq<T>, p: T -> bool)
    ensures Count(s, p) == |Filter(s, p)|
    decreases |s|
  {
    if |s| > 0 {
      var init := s[..|s| - 1];
      assert s == init + [s[|s| - 1]];
      CountIsFilterLength(init, p);
      FilterSnoc(init, s[|s| - 1], p);
    }
  }

  predicate NoDup<T(==)>(s: seq<T>)
  {
    forall i, j :: 0 <= i < j < |s| ==> s[i] != s[j]
  }

  /** `s` without repeats, each element where it first occurs. */
  function Distinct<T(==,!new)>(s: seq<T>): (r: seq<T>)
    ensures NoDup(r)
    ensures forall x :: x in r <==> x in s
    ensures |r| <= |s|
  {
    if |s| == 0 then []
    else
      var d := Distinct(s[..|s| - 1]);
      var x := s[|s| - 1];
      assert forall y :: y in s <==> y in s[..|s| - 1] || y == x;
      if x in d then d else d + [x]
  }
}

=== FILE: shotgrid.dfy ===
/** The ShotGrid side of the sync: `ShotGridStateManager.
    get_active_shots_with_assignments` (functions/resilio_state_sync.py:
    157-244) turns the active shots and their tasks into the snapshot the
    sync consumes. The two ShotGrid queries are inputs: the list of active
    shots, and for each shot the tasks linked to it, either of which may
    have failed. */
module ShotGrid {
  import opened Outcomes
  import opened Strings
  import opened Seqs

  /** The `project` link of a shot: `None` in ShotGrid, or an entity
      whose `name` and `tank_name` default to `""` (a missing link reads as
      `{}`, so it has both empty). */
  datatype SgProject = NullProject | ProjectRef(name: string, tankName: string)

  /** A task, by the `name` of each of its assignees (`""` when an
      assignee has no name). */
  datatype SgTask = SgTask(assignees: seq<string>)

  /** An active shot and the answer to its tasks query (`None` when that
      query raised). */
  datatype SgShot = SgShot(id: int, code: string, project: SgProject, tasks: Option<seq<SgTask>>)

  /** One entry of `shots` in the snapshot. */
  datatype ShotInfo = ShotInfo(
    id: int,
    code: string,
    projectName: string,
    tank: string,
    sequence: string,
    artists: seq<string>)

  /** One entry of `artist_projects`. */
  datatype ArtistProjects = ArtistProjects(artist: string, projects: seq<string>)

  datatype Snapshot = Snapshot(shots: seq<ShotInfo>, artistProjects: seq<ArtistProjects>)

  const EmptySnapshot := Snapshot([], [])

  // ---------------------------------------------------------------------
  // Sequence of a shot

  /** `"_".join(code.split("_")[:2]) if "_" in code else code` */
  function SequenceOf(code: string): string
  {
    if '_' in code then
      SplitHasTwo(code, '_');
      Join(SplitOn(code, '_')[..2], "_")
    else
      code
  }

  lemma {:induction false} SplitHasTwo(s: string, c: char)
    requires c in s
    ensures |SplitOn(s, c)| >= 2
    decreases |s|
  {
    if s[0] != c {
      assert c in s[1..];
      SplitHasTwo(s[1..], c);
    }
  }

  /** A code without `_` is its own sequence. */
  lemma SequenceOfPlain(code: string)
    requires '_' !in code
    ensures SequenceOf(code) == code
  {
  }

  /** The sequence of a code is its first two `_`-separated fields: for
      `a_b` followed by nothing or by a further `_`-field, it is `a_b`. */
  lemma SequenceOfFields(a: string, b: string, rest: string)
    requires '_' !in a && '_' !in b
    requires rest == [] || rest[0] == '_'
    ensures SequenceOf(a + "_" + b + rest) == a + "_" + b
  {
    var code := a + "_" + b + rest;
    assert code == a + ['_'] + (b + rest);
    assert code[|a|] == '_';
    SplitAtFirst(a, b + rest, '_');
    if rest == [] {
      assert b + rest == b;
      SplitOfClean(b, '_');
    } else {
      assert b + rest == b + ['_'] + rest[1..];
      SplitAtFirst(b, rest[1..], '_');
    }
    var parts := SplitOn(code, '_');
    assert parts[..2] == [a, b];
    JoinCons(a, [b], "_");
  }

  /** The example of the docstring: shot `TST_010_0010` is in sequence
      `TST_010`. */
  lemma SequenceExample()
    ensures SequenceOf("TST_010_0010") == "TST_010"
  {
    calc {
      SequenceOf("TST_010_0010");
      { assert "TST_010_0010" == "TST" + "_" + "010" + "_0010"; }
      SequenceOf("TST" + "_" + "010" + "_0010");
      { SequenceOfFields("TST", "010", "_0010"); }
      "TST" + "_" + "010";
    }
  }

  // ---------------------------------------------------------------------
  // Assignees

  /** Every assignee name of the tasks, in task order, with duplicates. */
  function AllAssignees(tasks: seq<SgTask>): (r: seq<string>)
    ensures forall x :: x in r <==> exists i :: 0 <= i < |tasks| && x in tasks[i].assignees
  {
    if |tasks| == 0 then []
    else
      var rest := AllAssignees(tasks[1..]);
      assert forall i :: 1 <= i < |tasks| ==> tasks[i] == tasks[1..][i - 1];
      tasks[0].assignees + rest
  }

  predicate NonEmpty(s: string)
  {
    |s| > 0
  }

  /** The names that count: the non-empty ones. */
  function NamedAssignees(tasks: seq<SgTask>): (r: seq<string>)
    ensures forall x :: x in r <==> x != "" && exists i :: 0 <= i < |tasks| && x in tasks[i].assignees
  {
    Filter(AllAssignees(tasks), NonEmpty)
  }

  // ---------------------------------------------------------------------
  // artist -> projects

  /** The projects recorded for an artist (none when the artist has no
      entry). */
  function ProjectsOf(aps: seq<ArtistProjects>, artist: string): seq<string>
  {
    var k := FirstWhere(aps, (e: ArtistProjects) => e.artist == artist);
    if k < |aps| then aps[k].projects else []
  }

  /** `artist_projects[artist].add(tank)`, creating the entry at the end
      when the artist is new. */
  function AddProject(aps: seq<ArtistProjects>, artist: string, tank: string): (r: seq<ArtistProjects>)
  {
    var k := FirstWhere(aps, (e: ArtistProjects) => e.artist == artist);
    if k == |aps| then aps + [ArtistProjects(artist, [tank])]
    else if tank in aps[k].projects then aps
    else aps[k := ArtistProjects(artist, aps[k].projects + [tank])]
  }

  /** The artists recorded, in order. */
  function ArtistsOf(aps: seq<ArtistProjects>): (r: seq<string>)
    ensures |r| == |aps|
    ensures forall i :: 0 <= i < |aps| ==> r[i] == aps[i].artist
  {
    seq(|aps|, i requires 0 <= i < |aps| => aps[i].artist)
  }

  /** The shape of `artist_projects`: one entry per artist, each holding
      distinct projects, none empty. */
  predicate WellFormed(aps: seq<ArtistProjects>)
  {
    NoDup(ArtistsOf(aps)) &&
    forall i :: 0 <= i < |aps| ==> NoDup(aps[i].projects) && |aps[i].projects| > 0
  }

  lemma ProjectsOfEntry(aps: seq<ArtistProjects>, i: nat)
    requires WellFormed(aps) && i < |aps|
    ensures ProjectsOf(aps, aps[i].artist) == aps[i].projects
  {
    var k := FirstWhere(aps, (e: ArtistProjects) => e.artist == aps[i].artist);
    assert k <= i;
    assert ArtistsOf(aps)[k] == aps[k].artist;
  }

  lemma ProjectsOfMissing(aps: seq<ArtistProjects>, a: string)
    requires a !in ArtistsOf(aps)
    ensures ProjectsOf(aps, a) == []
  {
    var k := FirstWhere(aps, (e: ArtistProjects) => e.artist == a);
    if k < |aps| {
      assert ArtistsOf(aps)[k] == a;
    }
  }

  /** Both cases below state the projects after the addition: the added
      one joins the artist's list, every other artist keeps theirs. */
  lemma ProjectsAfterAdd(aps: seq<ArtistProjects>, r: seq<ArtistProjects>, artist: string, added: seq<string>, a: string)
    requires WellFormed(aps) && WellFormed(r)
    requires ArtistsOf(r) == ArtistsOf(aps) || ArtistsOf(r) == ArtistsOf(aps) + [artist]
    requires forall i :: 0 <= i < |aps| && aps[i].artist != artist ==> r[i] == aps[i]
    requires exists i :: 0 <= i < |r| && r[i].artist == artist && r[i].projects == added
    ensures ProjectsOf(r, a) == if a == artist then added else ProjectsOf(aps, a)
  {
    if a == artist {
      var i :| 0 <= i < |r| && r[i].artist == artist && r[i].projects == added;
      ProjectsOfEntry(r, i);
    } else if a in ArtistsOf(aps) {
      var i :| 0 <= i < |aps| && ArtistsOf(aps)[i] == a;
      ProjectsOfEntry(aps, i);
      assert r[i] == aps[i];
      ProjectsOfEntry(r, i);
    } else {
      ProjectsOfMissing(aps, a);
      assert a !in ArtistsOf(r);
      ProjectsOfMissing(r, a);
    }
  }

  lemma AddProjectNew(aps: seq<ArtistProjects>, artist: string, tank: string)
    requires WellFormed(aps) && artist !in ArtistsOf(aps)
    ensures WellFormed(AddProject(aps, artist, tank))
    ensures ArtistsOf(AddProject(aps, artist, tank)) == ArtistsOf(aps) + [artist]
    ensures forall a :: ProjectsOf(AddProject(aps, artist, tank), a) ==
                        if a == artist then [tank] else ProjectsOf(aps, a)
  {
    var r := AddProject(aps, artist, tank);
    assert r == aps + [ArtistProjects(artist, [tank])];
    assert ArtistsOf(r) == ArtistsOf(aps) + [artist];
    assert r[|aps|].artist == artist;
    forall a
      ensures ProjectsOf(r, a) == if a == artist then [tank] else ProjectsOf(aps, a)
    {
      ProjectsAfterAdd(aps, r, artist, [tank], a);
    }
  }

  lemma AddProjectExisting(aps: seq<ArtistProjects>, artist: string, tank: string, k: nat)
    requires WellFormed(aps) && k < |aps| && aps[k].artist == artist
    ensures WellFormed(AddProject(aps, artist, tank))
    ensures ArtistsOf(AddProject(aps, artist, tank)) == ArtistsOf(aps)
    ensures forall a :: ProjectsOf(AddProject(aps, artist, tank), a) ==
                        if a == artist then
                          (if tank in aps[k].projects then aps[k].projects else aps[k].projects + [tank])
                        else ProjectsOf(aps, a)
  {
    var r := AddProject(aps, artist, tank);
    ProjectsOfEntry(aps, k);
    var added := if tank in aps[k].projects then aps[k].projects else aps[k].projects + [tank];
    assert FirstWhere(aps, (e: ArtistProjects) => e.artist == artist) == k by {
      var j := FirstWhere(aps, (e: ArtistProjects) => e.artist == artist);
      assert j <= k;
      assert ArtistsOf(aps)[j] == aps[j].artist;
    }
    assert r == aps[k := ArtistProjects(artist, added)];
    assert ArtistsOf(r) == ArtistsOf(aps);
    assert r[k].projects == added;
    forall a
      ensures ProjectsOf(r, a) == if a == artist then added else ProjectsOf(aps, a)
    {
      ProjectsAfterAdd(aps, r, artist, added, a);
    }
  }

  /** Adding a project keeps the shape, and records exactly one new
      (artist, project) pair. */
  lemma AddProjectSpec(aps: seq<ArtistProjects>, artist: string, tank: string)
    requires WellFormed(aps)
    ensures WellFormed(AddProject(aps, artist, tank))
    ensures forall a, t :: t in ProjectsOf(AddProject(aps, artist, tank), a) <==>
                             t in ProjectsOf(aps, a) || (a == artist && t == tank)
    ensures forall a :: a in ArtistsOf(AddProject(aps, artist, tank)) <==> a in ArtistsOf(aps) || a == artist
  {
    if artist in ArtistsOf(aps) {
      var k :| 0 <= k < |aps| && ArtistsOf(aps)[k] == artist;
      AddProjectExisting(aps, artist, tank, k);
      ProjectsOfEntry(aps, k);
    } else {
      AddProjectNew(aps, artist, tank);
      ProjectsOfMissing(aps, artist);
    }
  }

  /** `for name in names: artist_projects[name].add(tank)` */
  function AddProjects(aps: seq<ArtistProjects>, names: seq<string>, tank: string): seq<ArtistProjects>
    decreases |names|
  {
    if |names| == 0 then aps
    else AddProjects(AddProject(aps, names[0], tank), names[1..], tank)
  }

  lemma {:induction false} AddProjectsSpec(aps: seq<ArtistProjects>, names: seq<string>, tank: string)
    requires WellFormed(aps)
    ensures WellFormed(AddProjects(aps, names, tank))
    ensures forall a, t :: t in ProjectsOf(AddProjects(aps, names, tank), a) <==>
                             t in ProjectsOf(aps, a) || (a in names && t == tank)
    ensures forall a :: a in ArtistsOf(AddProjects(aps, names, tank)) <==> a in ArtistsOf(aps) || a in names
    decreases |names|
  {
    if |names| > 0 {
      AddProjectSpec(aps, names[0], tank);
      AddProjectsSpec(AddProject(aps, names[0], tank), names[1..], tank);
      assert forall a :: a in names <==> a == names[0] || a in names[1..];
    }
  }

  // ---------------------------------------------------------------------
  // Building the snapshot

  /** The shots that make it into the snapshot: those whose project has a
      non-empty `tank_name`. */
  predicate HasTank(s: SgShot)
  {
    s.project.ProjectRef? && s.project.tankName != ""
  }

  /** Whether processing the shot raises: `None.get` on a null project,
      or the shot's tasks query failing (it is only made for shots with a
      tank name). */
  predicate Raises(s: SgShot)
  {
    s.project.NullProject? || (HasTank(s) && s.tasks.None?)
  }

  /** The snapshot entry of a shot that has a tank name and its tasks. */
  function Entry(s: SgShot): ShotInfo
    requires HasTank(s) && s.tasks.Some?
  {
    ShotInfo(s.id, s.code, s.project.name, s.project.tankName, SequenceOf(s.code),
             Distinct(NamedAssignees(s.tasks.value)))
  }

  /** One iteration of the loop over active shots. */
  function AddShot(acc: Snapshot, s: SgShot): Option<Snapshot>
  {
    if Raises(s) then None
    else if !HasTank(s) then Some(acc)
    else
      Some(Snapshot(acc.shots + [Entry(s)],
                    AddProjects(acc.artistProjects, NamedAssignees(s.tasks.value), s.project.tankName)))
  }

  /** The loop over active shots; `None` when an iteration raised. */
  function Build(shots: seq<SgShot>): Option<Snapshot>
    decreases |shots|
  {
    if |shots| == 0 then Some(EmptySnapshot)
    else
      match Build(shots[..|shots| - 1])
      case None => None
      case Some(acc) => AddShot(acc, shots[|shots| - 1])
  }

  /** `get_active_shots_with_assignments`: any exception, in the shots
      query or later, yields the empty snapshot. */
  function GetActiveShots(found: Option<seq<SgShot>>): (r: Snapshot)
    ensures found.None? ==> r == EmptySnapshot
  {
    if found.None? then EmptySnapshot
    else
      match Build(found.value)
      case None => EmptySnapshot
      case Some(snap) => snap
  }

  // ---------------------------------------------------------------------
  // What the snapshot holds

  /** The snapshot's facts about one shot entry: the shot had a tank name,
      its sequence is derived from its code, and its artists are the
      distinct non-empty assignee names. */
  ghost predicate EntryOf(e: ShotInfo, s: SgShot)
  {
    HasTank(s) && s.tasks.Some? &&
    e.id == s.id && e.code == s.code &&
    e.projectName == s.project.name && e.tank == s.project.tankName &&
    e.sequence == SequenceOf(s.code) &&
    NoDup(e.artists) &&
    (forall a :: a in e.artists <==> a != "" && exists i :: 0 <= i < |s.tasks.value| && a in s.tasks.value[i].assignees)
  }

  /** The invariant of the loop over shots, relating the snapshot built so
      far to the shots seen so far. */
  ghost predicate Summarises(snap: Snapshot, shots: seq<SgShot>)
  {
    var kept := Filter(shots, HasTank);
    |snap.shots| == |kept| &&
    (forall i :: 0 <= i < |kept| ==> EntryOf(snap.shots[i], kept[i])) &&
    WellFormed(snap.artistProjects) &&
    PairsMatch(snap.artistProjects, snap.shots)
  }

  /** The pairs relation of `Summarises`, over any list of entries. */
  ghost predicate PairsMatch(aps: seq<ArtistProjects>, shots: seq<ShotInfo>)
  {
    (forall a, t :: t in ProjectsOf(aps, a) <==>
                    exists i :: 0 <= i < |shots| && a in shots[i].artists && shots[i].tank == t) &&
    (forall a :: a in ArtistsOf(aps) <==> exists i :: 0 <= i < |shots| && a in shots[i].artists)
  }

  lemma PairsMatchSnoc(aps: seq<ArtistProjects>, shots: seq<ShotInfo>, aps2: seq<ArtistProjects>, e: ShotInfo, names: seq<string>)
    requires PairsMatch(aps, shots)
    requires forall a :: a in e.artists <==> a in names
    requires forall a, t :: t in ProjectsOf(aps2, a) <==> t in ProjectsOf(aps, a) || (a in names && t == e.tank)
    requires forall a :: a in ArtistsOf(aps2) <==> a in ArtistsOf(aps) || a in names
    ensures PairsMatch(aps2, shots + [e])
  {
    var shots2 := shots + [e];
    forall a, t
      ensures t in ProjectsOf(aps2, a) <==>
              exists i :: 0 <= i < |shots2| && a in shots2[i].artists && shots2[i].tank == t
    {
      if t in ProjectsOf(aps2, a) {
        if t in ProjectsOf(aps, a) {
          var i :| 0 <= i < |shots| && a in shots[i].artists && shots[i].tank == t;
          assert shots2[i] == shots[i];
        } else {
          assert shots2[|shots|] == e;
        }
      }
      if exists i :: 0 <= i < |shots2| && a in shots2[i].artists && shots2[i].tank == t {
        var i :| 0 <= i < |shots2| && a in shots2[i].artists && shots2[i].tank == t;
        if i < |shots| {
          assert shots2[i] == shots[i];
        }
      }
    }
    forall a
      ensures a in ArtistsOf(aps2) <==> exists i :: 0 <= i < |shots2| && a in shots2[i].artists
    {
      if a in ArtistsOf(aps2) {
        if a in ArtistsOf(aps) {
          var i :| 0 <= i < |shots| && a in shots[i].artists;
          assert shots2[i] == shots[i];
        } else {
          assert shots2[|shots|] == e;
        }
      }
      if exists i :: 0 <= i < |shots2| && a in shots2[i].artists {
        var i :| 0 <= i < |shots2| && a in shots2[i].artists;
        if i < |shots| {
          assert shots2[i] == shots[i];
        }
      }
    }
  }

  lemma EntriesSnoc(entries: seq<ShotInfo>, kept: seq<SgShot>, s: SgShot)
    requires |entries| == |kept|
    requires forall i :: 0 <= i < |kept| ==> EntryOf(entries[i], kept[i])
    requires HasTank(s) && s.tasks.Some?
    ensures forall i :: 0 <= i < |kept| + 1 ==> EntryOf((entries + [Entry(s)])[i], (kept + [s])[i])
  {
    var e := Entry(s);
    assert forall a :: a in e.artists <==> a in NamedAssignees(s.tasks.value);
    assert EntryOf(e, s);
  }

  lemma AddShotSummarises(acc: Snapshot, shots: seq<SgShot>, s: SgShot)
    requires Summarises(acc, shots) && !Raises(s)
    ensures AddShot(acc, s).Some? && Summarises(AddShot(acc, s).value, shots + [s])
  {
    FilterSnoc(shots, s, HasTank);
    if HasTank(s) {
      var names := NamedAssignees(s.tasks.value);
      var e := Entry(s);
      var snap := AddShot(acc, s).value;
      AddProjectsSpec(acc.artistProjects, names, s.project.tankName);
      EntriesSnoc(acc.shots, Filter(shots, HasTank), s);
      assert PairsMatch(acc.artistProjects, acc.shots);
      PairsMatchSnoc(acc.artistProjects, acc.shots, snap.artistProjects, e, names);
      assert snap.shots == acc.shots + [e];
    }
  }

  /** The loop either raises, exactly when some shot raises, or builds a
      snapshot summarising all the shots. */
  lemma {:induction false} BuildSpec(shots: seq<SgShot>)
    ensures Build(shots).None? <==> exists i :: 0 <= i < |shots| && Raises(shots[i])
    ensures Build(shots).Some? ==> Summarises(Build(shots).value, shots)
    decreases |shots|
  {
    if |shots| > 0 {
      var init := shots[..|shots| - 1];
      var s := shots[|shots| - 1];
      assert shots == init + [s];
      BuildSpec(init);
      assert forall i :: 0 <= i < |init| ==> init[i] == shots[i];
      if Build(init).Some? && !Raises(s) {
        AddShotSummarises(Build(init).value, init, s);
      }
    } else {
      assert Filter(shots, HasTank) == [];
    }
  }

  /** What `get_active_shots_with_assignments` returns when both queries
      succeed: one entry per active shot with a tank name, in order, each
      with its sequence and distinct named assignees; and an artist is
      mapped to a project exactly when the artist is assigned to a listed
      shot of that project. */
  lemma SnapshotContents(shots: seq<SgShot>)
    requires forall i :: 0 <= i < |shots| ==> !Raises(shots[i])
    ensures var snap := GetActiveShots(Some(shots));
            var kept := Filter(shots, HasTank);
            |snap.shots| == |kept| &&
            (forall i :: 0 <= i < |kept| ==> EntryOf(snap.shots[i], kept[i])) &&
            WellFormed(snap.artistProjects) &&
            (forall a, t :: t in ProjectsOf(snap.artistProjects, a) <==>
                            exists i :: 0 <= i < |snap.shots| && a in snap.shots[i].artists && snap.shots[i].tank == t)
  {
    BuildSpec(shots);
  }

  /** A failure anywhere, and only a failure, empties the snapshot (an
      empty result can also come from having nothing to report). */
  lemma SnapshotFailure(shots: seq<SgShot>)
    ensures (exists i :: 0 <= i < |shots| && Raises(shots[i])) ==> GetActiveShots(Some(shots)) == EmptySnapshot
    ensures GetActiveShots(Some(shots)) != EmptySnapshot ==> forall i :: 0 <= i < |shots| ==> !Raises(shots[i])
  {
    BuildSpec(shots);
  }

  /** A shot whose project has no tank name is skipped without its tasks
      being looked at. */
  lemma NoTankSkipped(acc: Snapshot, s: SgShot)
    requires s.project.ProjectRef? && s.project.tankName == ""
    ensures AddShot(acc, s) == Some(acc)
  {
  }
}

=== FILE: strings.dfy ===
/** The string operations the Python code relies on: ASCII `lower()`,
    `startswith`, `in`, `replace`, `split`/`join` on one character,
    `rstrip` of one character, and `str(int)` / `int(str)`. */
module Strings {
  import opened Outcomes

  // ---------------------------------------------------------------------
  // Case

  /** `lower()` restricted to ASCII: only 'A'..'Z' change. */
  function LowerChar(c: char): char
  {
    if 'A' <= c <= 'Z' then (c as int + 32) as char else c
  }

  function Lower(s: string): (r: string)
    ensures |r| == |s|
    ensures forall i :: 0 <= i < |s| ==> r[i] == LowerChar(s[i])
  {
    seq(|s|, i requires 0 <= i < |s| => LowerChar(s[i]))
  }

  /** `a.lower() == b.lower()` */
  predicate EqualsIgnoreCase(a: string, b: string)
  {
    Lower(a) == Lower(b)
  }

  // ---------------------------------------------------------------------
  // Substring search

  /** `s.startswith(p)` */
  predicate StartsWith(s: string, p: string)
  {
    |p| <= |s| && s[..|p|] == p
  }

  /** `pat` occurs in `s` starting at index `i`. */
  predicate OccursAt(s: string, pat: string, i: nat)
  {
    i + |pat| <= |s| && s[i..i + |pat|] == pat
  }

  /** `pat in s` */
  predicate Occurs(s: string, pat: string)
  {
    exists i: nat | i <= |s| :: OccursAt(s, pat, i)
  }

  /** An occurrence in `s[1..]` is an occurrence in `s` one place later. */
  lemma OccursAtShift(s: string, pat: string, j: nat)
    requires |s| > 0
    ensures OccursAt(s[1..], pat, j) <==> OccursAt(s, pat, j + 1)
  {
    if j + 1 + |pat| <= |s| {
      assert s[1..][j..j + |pat|] == s[j + 1..j + 1 + |pat|];
    }
  }

  /** A character of `target` that `s` lacks rules out every occurrence. */
  lemma MissingCharMeansAbsent(s: string, target: string, c: char)
    requires c in target && c !in s
    ensures !Occurs(s, target)
  {
    var k :| 0 <= k < |target| && target[k] == c;
    forall i: nat | i <= |s|
      ensures !OccursAt(s, target, i)
    {
      if i + |target| <= |s| {
        assert s[i..i + |target|][k] == s[i + k];
        assert s[i + k] in s;
      }
    }
  }

  // ---------------------------------------------------------------------
  // replace

  /** `s.replace(target, repl)` for a non-empty `target`: scanning left to
      right, every occurrence that starts where the scan stands is replaced
      and skipped; otherwise one character is kept. This is the leftmost,
      non-overlapping replacement Python performs. */
  function ReplaceAll(s: string, target: string, repl: string): string
    requires |target| > 0
    decreases |s|
  {
    if |s| == 0 then ""
    else if StartsWith(s, target) then repl + ReplaceAll(s[|target|..], target, repl)
    else [s[0]] + ReplaceAll(s[1..], target, repl)
  }

  /** A string without the placeholder is left untouched. */
  lemma {:induction false} ReplaceAbsent(s: string, target: string, repl: string)
    requires |target| > 0
    requires !Occurs(s, target)
    ensures ReplaceAll(s, target, repl) == s
    decreases |s|
  {
    if |s| > 0 {
      if |target| <= |s| {
        assert s[0..|target|] == s[..|target|];
      }
      assert !OccursAt(s, target, 0);
      forall j: nat | j <= |s[1..]|
        ensures !OccursAt(s[1..], target, j)
      {
        OccursAtShift(s, target, j);
      }
      ReplaceAbsent(s[1..], target, repl);
    }
  }

  /** A string that starts with the placeholder: the first replacement is
      at index 0. */
  lemma ReplaceLeading(target: string, b: string, repl: string)
    requires |target| > 0
    ensures ReplaceAll(target + b, target, repl) == repl + ReplaceAll(b, target, repl)
  {
    var s := target + b;
    assert s[..|target|] == target;
    assert s[|target|..] == b;
  }

  /** No occurrence of `target` can span the seam between `a` and `b`:
      one of the two characters at the seam is foreign to `target`. */
  predicate NoStraddle(a: string, b: string, target: string)
  {
    (|a| > 0 && a[|a| - 1] !in target) || (|b| > 0 && b[0] !in target)
  }

  /** Replacement distributes over a concatenation whose seam no
      occurrence can cross. */
  lemma {:induction false} ReplaceConcat(a: string, b: string, target: string, repl: string)
    requires |target| > 0
    requires NoStraddle(a, b, target)
    ensures ReplaceAll(a + b, target, repl) == ReplaceAll(a, target, repl) + ReplaceAll(b, target, repl)
    decreases |a|
  {
    var s := a + b;
    if |a| == 0 {
      assert s == b;
    } else if StartsWith(a, target) {
      var a' := a[|target|..];
      assert s[..|target|] == a[..|target|];
      assert s[|target|..] == a' + b;
      if |a'| > 0 {
        assert a'[|a'| - 1] == a[|a| - 1];
        ReplaceConcat(a', b, target, repl);
      } else {
        assert a' + b == b;
      }
    } else {
      var a' := a[1..];
      NoStartAtSeam(a, b, target);
      assert s[1..] == a' + b;
      if |a'| > 0 {
        assert a'[|a'| - 1] == a[|a| - 1];
        ReplaceConcat(a', b, target, repl);
      } else {
        assert a' + b == b;
      }
    }
  }

  /** When `a` does not start with `target` and the seam cannot be crossed,
      neither does `a + b`. */
  lemma NoStartAtSeam(a: string, b: string, target: string)
    requires |a| > 0 && !StartsWith(a, target)
    requires NoStraddle(a, b, target)
    ensures !StartsWith(a + b, target)
  {
    var s := a + b;
    if |target| <= |a| {
      assert s[..|target|] == a[..|target|];
    } else if |target| <= |s| {
      if a[|a| - 1] !in target {
        assert s[..|target|][|a| - 1] == a[|a| - 1];
        assert target[|a| - 1] in target;
      } else {
        assert s[..|target|][|a|] == b[0];
        assert target[|a|] in target;
      }
    }
  }

  /** Replacing one character by one character works position by
      position. */
  lemma {:induction false} ReplaceCharPointwise(s: string, c: char, d: char)
    ensures |ReplaceAll(s, [c], [d])| == |s|
    ensures forall i :: 0 <= i < |s| ==>
              ReplaceAll(s, [c], [d])[i] == (if s[i] == c then d else s[i])
    decreases |s|
  {
    if |s| > 0 {
      ReplaceCharPointwise(s[1..], c, d);
      var head := if s[0] == c then d else s[0];
      assert StartsWith(s, [c]) <==> s[0] == c by {
        assert s[..1] == [s[0]];
      }
      var r := ReplaceAll(s, [c], [d]);
      var r' := ReplaceAll(s[1..], [c], [d]);
      assert r == [head] + r';
      forall i | 0 <= i < |s|
        ensures r[i] == (if s[i] == c then d else s[i])
      {
        if i > 0 {
          assert r[i] == r'[i - 1];
          assert s[i] == s[1..][i - 1];
        }
      }
    }
  }

  /** Swapping `c` for `d` everywhere is undone by swapping back, provided
      `d` did not occur to begin with. */
  lemma ReplaceCharRoundTrip(s: string, c: char, d: char)
    requires d !in s
    ensures ReplaceAll(ReplaceAll(s, [c], [d]), [d], [c]) == s
  {
    var r := ReplaceAll(s, [c], [d]);
    ReplaceCharPointwise(s, c, d);
    ReplaceCharPointwise(r, d, c);
    var back := ReplaceAll(r, [d], [c]);
    forall i | 0 <= i < |s|
      ensures back[i] == s[i]
    {
      if s[i] != c {
        assert s[i] in s;
      }
    }
  }

  // ---------------------------------------------------------------------
  // split / join on one character

  /** `s.split(c)`: the pieces between the occurrences of `c`. */
  function SplitOn(s: string, c: char): (parts: seq<string>)
    ensures |parts| >= 1
    decreases |s|
  {
    if |s| == 0 then [""]
    else
      var rest := SplitOn(s[1..], c);
      if s[0] == c then [""] + rest
      else [[s[0]] + rest[0]] + rest[1..]
  }

  /** `sep.join(parts)` */
  function Join(parts: seq<string>, sep: string): string
  {
    if |parts| == 0 then ""
    else if |parts| == 1 then parts[0]
    else parts[0] + sep + Join(parts[1..], sep)
  }

  lemma JoinCons(x: string, parts: seq<string>, sep: string)
    requires |parts| >= 1
    ensures Join([x] + parts, sep) == x + sep + Join(parts, sep)
  {
    assert ([x] + parts)[1..] == parts;
  }

  /** Adding characters in front of the first part adds them in front of
      the joined string. */
  lemma JoinExtendHead(p: string, parts: seq<string>, sep: string)
    requires |parts| >= 1
    ensures Join([p + parts[0]] + parts[1..], sep) == p + Join(parts, sep)
  {
    var q := [p + parts[0]] + parts[1..];
    if |parts| > 1 {
      assert q[1..] == parts[1..];
    }
  }

  /** Joining a list with one more part at the end. */
  lemma {:induction false} JoinSnoc(init: seq<string>, x: string, sep: string)
    requires |init| >= 1
    ensures Join(init + [x], sep) == Join(init, sep) + sep + x
    decreases |init|
  {
    var q := init + [x];
    if |init| == 1 {
      assert q[1..] == [x];
    } else {
      assert q[1..] == init[1..] + [x];
      JoinSnoc(init[1..], x, sep);
    }
  }

  /** Splitting on `c` and joining with `c` gives back `s`. */
  lemma {:induction false} JoinSplit(s: string, c: char)
    ensures Join(SplitOn(s, c), [c]) == s
    decreases |s|
  {
    if |s| > 0 {
      var rest := SplitOn(s[1..], c);
      JoinSplit(s[1..], c);
      if s[0] == c {
        assert ([""] + rest)[1..] == rest;
        assert s == [c] + s[1..];
      } else {
        JoinExtendHead([s[0]], rest, [c]);
        assert s == [s[0]] + s[1..];
      }
    }
  }

  /** No piece of a split contains the separator. */
  lemma {:induction false} SplitPiecesClean(s: string, c: char)
    ensures forall k :: 0 <= k < |SplitOn(s, c)| ==> c !in SplitOn(s, c)[k]
    decreases |s|
  {
    if |s| > 0 {
      SplitPiecesClean(s[1..], c);
      var rest := SplitOn(s[1..], c);
      var parts := SplitOn(s, c);
      if s[0] != c {
        assert parts == [[s[0]] + rest[0]] + rest[1..];
        forall k | 0 <= k < |parts|
          ensures c !in parts[k]
        {
          if k == 0 {
            assert c !in rest[0];
          } else {
            assert parts[k] == rest[k];
          }
        }
      } else {
        assert parts == [""] + rest;
        forall k | 0 <= k < |parts|
          ensures c !in parts[k]
        {
          if k > 0 {
            assert parts[k] == rest[k - 1];
          }
        }
      }
    }
  }

  /** A string without the separator splits into itself alone. */
  lemma {:induction false} SplitOfClean(a: string, c: char)
    requires c !in a
    ensures SplitOn(a, c) == [a]
    decreases |a|
  {
    if |a| > 0 {
      assert a[0] in a;
      assert forall x :: x in a[1..] ==> x in a;
      SplitOfClean(a[1..], c);
      assert [a[0]] + a[1..] == a;
    }
  }

  /** The first separator ends the first piece. */
  lemma {:induction false} SplitAtFirst(a: string, b: string, c: char)
    requires c !in a
    ensures SplitOn(a + [c] + b, c) == [a] + SplitOn(b, c)
    decreases |a|
  {
    var s := a + [c] + b;
    if |a| == 0 {
      assert s[1..] == b;
    } else {
      assert a[0] in a;
      assert forall x :: x in a[1..] ==> x in a;
      assert s[1..] == a[1..] + [c] + b;
      SplitAtFirst(a[1..], b, c);
      var rest := SplitOn(s[1..], c);
      assert rest[1..] == SplitOn(b, c);
      assert [a[0]] + a[1..] == a;
    }
  }

  /** Joining separator-free pieces with `c` and splitting on `c` gives the
      pieces back. */
  lemma {:induction false} SplitJoin(parts: seq<string>, c: char)
    requires |parts| >= 1
    requires forall k :: 0 <= k < |parts| ==> c !in parts[k]
    ensures SplitOn(Join(parts, [c]), c) == parts
    decreases |parts|
  {
    if |parts| == 1 {
      SplitOfClean(parts[0], c);
    } else {
      var tail := parts[1..];
      SplitJoin(tail, c);
      SplitAtFirst(parts[0], Join(tail, [c]), c);
      assert parts == [parts[0]] + tail;
    }
  }

  function Last(parts: seq<string>): string
    requires |parts| >= 1
  {
    parts[|parts| - 1]
  }

  /** `s.split(c)[-1]` is the longest suffix of `s` without `c`: it is a
      suffix, it holds no `c`, and it is all of `s` or preceded by `c`. */
  lemma LastPieceIsSuffix(s: string, c: char)
    ensures |Last(SplitOn(s, c))| <= |s|
    ensures s[|s| - |Last(SplitOn(s, c))|..] == Last(SplitOn(s, c))
    ensures c !in Last(SplitOn(s, c))
    ensures |Last(SplitOn(s, c))| == |s| || s[|s| - |Last(SplitOn(s, c))| - 1] == c
  {
    var parts := SplitOn(s, c);
    var n := |parts|;
    JoinSplit(s, c);
    SplitPiecesClean(s, c);
    if n > 1 {
      var init := parts[..n - 1];
      assert parts == init + [parts[n - 1]];
      JoinSnoc(init, parts[n - 1], [c]);
      var j := Join(init, [c]);
      assert s == j + [c] + Last(parts);
      assert s[|s| - |Last(parts)|..] == Last(parts);
      assert s[|s| - |Last(parts)| - 1] == c;
    } else {
      assert Join(parts, [c]) == parts[0];
    }
  }

  /** `s.rstrip(c)` */
  function RStrip(s: string, c: char): (r: string)
    decreases |s|
  {
    if |s| > 0 && s[|s| - 1] == c then RStrip(s[..|s| - 1], c) else s
  }

  /** `rstrip` removes exactly the trailing run of `c`: what remains is a
      prefix that does not end in `c`, and everything removed was `c`. */
  lemma {:induction false} RStripSpec(s: string, c: char)
    ensures |RStrip(s, c)| <= |s|
    ensures s[..|RStrip(s, c)|] == RStrip(s, c)
    ensures |RStrip(s, c)| == 0 || RStrip(s, c)[|RStrip(s, c)| - 1] != c
    ensures forall i :: |RStrip(s, c)| <= i < |s| ==> s[i] == c
    decreases |s|
  {
    if |s| > 0 && s[|s| - 1] == c {
      var t := s[..|s| - 1];
      RStripSpec(t, c);
      var r := RStrip(t, c);
      assert s[..|r|] == t[..|r|];
      forall i | |r| <= i < |s|
        ensures s[i] == c
      {
        if i < |s| - 1 {
          assert s[i] == t[i];
        }
      }
    }
  }

  // ---------------------------------------------------------------------
  // str(int) and int(str)

  predicate IsDigit(ch: char)
  {
    '0' <= ch <= '9'
  }

  predicate AllDigits(s: string)
  {
    forall i :: 0 <= i < |s| ==> IsDigit(s[i])
  }

  function DigitChar(d: nat): char
    requires d < 10
  {
    ('0' as int + d) as char
  }

  /** Decimal digits of `n`, most significant first, no leading zero. */
  function NatToString(n: nat): (r: string)
    ensures |r| >= 1 && AllDigits(r)
    ensures |r| > 1 ==> r[0] != '0'
    decreases n
  {
    if n < 10 then [DigitChar(n)] else NatToString(n / 10) + [DigitChar(n % 10)]
  }

  /** `str(n)` for an integer: a minus sign, then the digits. */
  function IntToString(n: int): (r: string)
    ensures |r| >= 1
    ensures n >= 0 ==> AllDigits(r)
    ensures n < 0 ==> r[0] == '-' && AllDigits(r[1..])
  {
    if n < 0 then "-" + NatToString(-n) else NatToString(n)
  }

  /** The value of a run of decimal digits. */
  function DigitsValue(s: string): nat
    requires AllDigits(s)
    decreases |s|
  {
    if |s| == 0 then 0
    else DigitsValue(s[..|s| - 1]) * 10 + (s[|s| - 1] as int - '0' as int)
  }

  /** `int(s)` for a string of digits with an optional sign. Python also
      allows surrounding whitespace and `_` between digits. */
  function ParseInt(s: string): (r: Option<int>)
  {
    if |s| > 1 && (s[0] == '-' || s[0] == '+') && AllDigits(s[1..]) then
      var magnitude: int := DigitsValue(s[1..]);
      Some(if s[0] == '-' then -magnitude else magnitude)
    else if |s| > 0 && AllDigits(s) then Some(DigitsValue(s))
    else None
  }

  lemma {:induction false} DigitsOfNat(n: nat)
    ensures DigitsValue(NatToString(n)) == n
    decreases n
  {
    var r := NatToString(n);
    if n >= 10 {
      DigitsOfNat(n / 10);
      assert r[..|r| - 1] == NatToString(n / 10);
    }
  }

  /** `int(str(n)) == n` */
  lemma ParseIntToString(n: int)
    ensures ParseInt(IntToString(n)).Some?
    ensures ParseInt(IntToString(n)).value == n
  {
    var r := IntToString(n);
    if n < 0 {
      DigitsOfNat(-n);
      assert r[1..] == NatToString(-n);
    } else {
      DigitsOfNat(n);
      if |r| > 1 {
        assert IsDigit(r[0]);
      }
    }
  }
}

=== FILE: sync.dfy ===
/** `ResilioStateSyncManager.sync_resilio_to_shotgrid_state`
    (functions/resilio_state_sync.py:292-457): for every shot of the
    snapshot and every assigned artist the configuration knows, the shot
    job is created or updated, started and hydrated; then for every
    artist and project, the assets job is created or updated. Nothing is
    deleted. The Management Console is threaded through as a `World`. */
module Sync {
  import opened Outcomes
  import opened Strings
  import opened Seqs
  import Api
  import opened Paths
  import opened Names
  import opened Resilio
  import opened ShotGrid

  datatype Kind = ShotJob | AssetsJob

  datatype Action = Created | Updated

  /** One entry of `details`; `shot` is absent for assets jobs. */
  datatype Detail = Detail(
    kind: Kind,
    artist: string,
    project: string,
    shot: Option<string>,
    jobName: string,
    path: string,
    action: Action,
    hydrated: bool)

  /** Which step of a job's processing raised. */
  datatype Cause =
    | CreateFailed(error: Api.ApiError)
    | UpdateFailed(error: Api.ApiError)
    | StartFailed(error: Api.ApiError)
    | HydrateFailed(error: Api.ApiError)

  /** One entry of `errors`. */
  datatype SyncError =
    | AgentNotFound(artist: string, agentName: string)
    | ShotJobFailed(artist: string, shot: string, cause: Cause)
    | AssetsJobFailed(artist: string, project: string, cause: Cause)

  /** The `results` dictionary while the sync runs. */
  datatype Tally = Tally(
    shotCreated: nat,
    shotUpdated: nat,
    shotHydrated: nat,
    assetsCreated: nat,
    assetsUpdated: nat,
    processed: set<string>,
    errors: seq<SyncError>,
    details: seq<Detail>)

  const EmptyTally := Tally(0, 0, 0, 0, 0, {}, [], [])

  /** The returned summary: `artists_processed` is a count. */
  datatype Results = Results(
    shotCreated: nat,
    shotUpdated: nat,
    shotHydrated: nat,
    assetsCreated: nat,
    assetsUpdated: nat,
    artistsProcessed: nat,
    errors: seq<SyncError>,
    details: seq<Detail>)

  /** The configuration file: artist name to agent name, and the path
      templates. */
  datatype Config = Config(artists: map<string, string>, paths: PathsConfig)

  datatype State = State(w: World, t: Tally)

  // ---------------------------------------------------------------------
  // Preconditions of the model

  /** Every name the sync turns into a lookup pattern is free of regex
      metacharacters. */
  predicate SafeShot(shot: ShotInfo)
  {
    RegexSafe(shot.tank) && RegexSafe(shot.code) &&
    forall i :: 0 <= i < |shot.artists| ==> RegexSafe(shot.artists[i])
  }

  predicate SafeEntry(ap: ArtistProjects)
  {
    RegexSafe(ap.artist) && forall i :: 0 <= i < |ap.projects| ==> RegexSafe(ap.projects[i])
  }

  predicate SafeSnapshot(snap: Snapshot)
  {
    (forall i :: 0 <= i < |snap.shots| ==> SafeShot(snap.shots[i])) &&
    (forall i :: 0 <= i < |snap.artistProjects| ==> SafeEntry(snap.artistProjects[i]))
  }

  function ShotJobName(artist: string, shot: ShotInfo): string
  {
    JobName(artist, shot.tank, Some(shot.code))
  }

  function AssetsJobName(artist: string, project: string): string
  {
    JobName(artist, project)
  }

  /** `results["shot_jobs_created"] += 1` or `results["shot_jobs_updated"] += 1`. */
  function CountShot(t: Tally, action: Action): (r: Tally)
    ensures r.shotCreated + r.shotUpdated == t.shotCreated + t.shotUpdated + 1
    ensures r == t.(shotCreated := r.shotCreated, shotUpdated := r.shotUpdated)
  {
    match action
    case Created => t.(shotCreated := t.shotCreated + 1)
    case Updated => t.(shotUpdated := t.shotUpdated + 1)
  }

  /** `results["assets_jobs_created"] += 1` or `results["assets_jobs_updated"] += 1`. */
  function CountAssets(t: Tally, action: Action): (r: Tally)
    ensures r.assetsCreated + r.assetsUpdated == t.assetsCreated + t.assetsUpdated + 1
    ensures r == t.(assetsCreated := r.assetsCreated, assetsUpdated := r.assetsUpdated)
  {
    match action
    case Created => t.(assetsCreated := t.assetsCreated + 1)
    case Updated => t.(assetsUpdated := t.assetsUpdated + 1)
  }

  // ---------------------------------------------------------------------
  // One job

  datatype Upserted = Upserted(jobId: int, action: Action)

  /** Some job on the server has a name the pattern matches. */
  predicate Matched(s: Server, name: string)
    requires RegexSafe(name)
  {
    exists i :: 0 <= i < |s.jobs| && MatchesPattern(name, s.jobs[i].name)
  }

  /** Job names survive every change the sync makes, and with them the
      matches. */
  lemma MatchedPersists(s: Server, s2: Server, name: string)
    requires RegexSafe(name) && Grows(s, s2) && Matched(s, name)
    ensures Matched(s2, name)
  {
    var i :| 0 <= i < |s.jobs| && MatchesPattern(name, s.jobs[i].name);
    assert JobNames(s2.jobs)[i] == JobNames(s.jobs)[i];
  }

  /** The create-or-update step shared by both phases: look the name up;
      update the first match's path, or create the job when nothing
      matches. */
  function Upsert(w: World, o: Oracle, name: string, path: string, agentId: int, description: string)
    : (r: (World, Result<Upserted, Cause>))
    requires RegexSafe(name)
    ensures Grows(w.server, r.0.server)
    ensures r.1.Failure? ==> r.1.error.CreateFailed? || r.1.error.UpdateFailed?
    ensures r.1.Success? ==> Matched(r.0.server, name)
    ensures |w.log| !in o.failing && Matched(w.server, name) ==>
              (r.1.Success? ==> r.1.value.action == Updated) && (r.1.Failure? ==> r.1.error.UpdateFailed?)
    ensures (r.1.Success? && r.1.value.action == Created) || (r.1.Failure? && r.1.error.CreateFailed?) ==>
              |w.log| in o.failing || !Matched(w.server, name)
    ensures Reliable(o) ==> r.1.Success?
    // a created job is appended with the name, the description and one
    // group for the agent at `path`
    ensures r.1.Success? && r.1.value.action == Created ==>
              |r.0.server.jobs| == |w.server.jobs| + 1 &&
              r.0.server.jobs[|w.server.jobs|] == Job(r.1.value.jobId, name, HybridWorkKind, description, [NewGroup(agentId, path)])
    // an updated job keeps its place, and only its groups are repathed to `path`
    ensures r.1.Success? && r.1.value.action == Updated ==>
              var k := JobIndex(w.server.jobs, r.1.value.jobId);
              k < |w.server.jobs| &&
              r.0.server.jobs == w.server.jobs[k := w.server.jobs[k].(groups := Repath(w.server.jobs[k].groups, path))]
  {
    var (w1, existing) := FindJobsByPattern(w, o, name);
    if |existing| > 0 then
      var job := existing[0];
      assert !Reliable(o) || job in w.server.jobs;
      var (w2, e) := UpdateJobPath(w1, o, job.id, path);
      if e.Some? then (w2, Failure(UpdateFailed(e.value)))
      else
        MatchedPersists(w.server, w2.server, name);
        (w2, Success(Upserted(job.id, Updated)))
    else
      var (w2, id) := CreateHybridWorkJob(w1, o, name, agentId, path, description);
      if id.Failure? then (w2, Failure(CreateFailed(id.error)))
      else
        MatchesItself(name, name);
        assert w2.server.jobs[|w.server.jobs|].name == name;
        (w2, Success(Upserted(id.value, Created)))
  }

  /** An update goes to the first job, in server order, that the name
      matches (`existing_jobs[0]`). */
  lemma UpsertUpdatesFirstMatch(w: World, o: Oracle, name: string, path: string, agentId: int, description: string)
    requires RegexSafe(name)
    ensures var r := Upsert(w, o, name, path, agentId, description);
            r.1.Success? && r.1.value.action == Updated ==>
              exists k ::
                0 <= k < |w.server.jobs| && w.server.jobs[k].id == r.1.value.jobId &&
                MatchesPattern(name, w.server.jobs[k].name) &&
                forall i :: 0 <= i < k ==> !MatchesPattern(name, w.server.jobs[i].name)
  {
    var (w1, existing) := FindJobsByPattern(w, o, name);
    if |existing| > 0 && |w.log| !in o.failing {
      var first := FirstWhere(w.server.jobs, (j: Job) => MatchesPattern(name, j.name));
      assert existing[0] == w.server.jobs[first];
    }
  }

  /** `find_jobs_by_pattern` swallows a failed GET of `/jobs` and answers
      `[]`, so a job that exists is created a second time: the old match
      stays and a job of the same name is appended. */
  lemma FailedLookupDuplicates(w: World, o: Oracle, name: string, path: string, agentId: int, description: string)
    requires RegexSafe(name) && Matched(w.server, name)
    requires |w.log| in o.failing && |w.log| + 1 !in o.failing
    ensures Upsert(w, o, name, path, agentId, description).1 == Success(Upserted(w.server.nextId, Created))
    ensures var s2 := Upsert(w, o, name, path, agentId, description).0.server;
            |s2.jobs| == |w.server.jobs| + 1 && s2.jobs[|w.server.jobs|].name == name &&
            exists i :: 0 <= i < |w.server.jobs| && MatchesPattern(name, s2.jobs[i].name)
  {
    var (w1, existing) := FindJobsByPattern(w, o, name);
    var (w2, id) := CreateHybridWorkJob(w1, o, name, agentId, path, description);
    var i :| 0 <= i < |w.server.jobs| && MatchesPattern(name, w.server.jobs[i].name);
    assert w2.server.jobs[i] == w.server.jobs[i];
  }

  // ---------------------------------------------------------------------
  // Shot phase

  /** After the shot job is created or updated (and counted): find or
      start its run, hydrate the shot folder on the artist's agent, and
      record the detail. */
  function StartAndHydrate(o: Oracle, st: State, shot: ShotInfo, artist: string, agent: Agent,
                           name: string, path: string, up: Upserted): (r: State)
    ensures Grows(st.w.server, r.w.server)
  {
    var (w1, active) := GetActiveRunForJob(st.w, o, up.jobId);
    var (w2, runId) := if active.Some? then (w1, Success(active.value.id)) else StartJob(w1, o, up.jobId);
    if runId.Failure? then
      State(w2, st.t.(errors := st.t.errors + [ShotJobFailed(artist, shot.code, StartFailed(runId.error))]))
    else
      var (w3, statuses) := HydrateFiles(w2, o, runId.value, [path], Some([agent.id]));
      if statuses.Failure? then
        State(w3, st.t.(errors := st.t.errors + [ShotJobFailed(artist, shot.code, HydrateFailed(statuses.error))]))
      else
        var hydrated := SentCount(statuses.value) > 0;
        State(w3, st.t.(shotHydrated := st.t.shotHydrated + (if hydrated then 1 else 0),
                        processed := st.t.processed + {artist},
                        details := st.t.details + [Detail(ShotJob, artist, shot.tank, Some(shot.code), name, path, up.action, hydrated)]))
  }

  /** The `try` block of the shot loop. */
  function ShotJobStep(c: Config, o: Oracle, st: State, shot: ShotInfo, artist: string, agent: Agent): (r: State)
    requires SafeShot(shot) && RegexSafe(artist)
    ensures Grows(st.w.server, r.w.server)
  {
    var path := BuildShotPath(c.paths, shot.tank, shot.sequence, shot.code);
    var name := ShotJobName(artist, shot);
    JobNameRegexSafe(artist, shot.tank, Some(shot.code));
    var (w1, up) := Upsert(st.w, o, name, path, agent.id, "Shot " + shot.code + " for " + artist);
    var r := AfterShotUpsert(o, State(w1, st.t), shot, artist, agent, name, path, up);
    GrowsTransitive(st.w.server, w1.server, r.w.server);
    r
  }

  /** The rest of the `try` block: a failed create or update is recorded;
      otherwise the job is counted as created or updated before it is
      started and hydrated. */
  function AfterShotUpsert(o: Oracle, st: State, shot: ShotInfo, artist: string, agent: Agent,
                           name: string, path: string, up: Result<Upserted, Cause>): (r: State)
    ensures Grows(st.w.server, r.w.server)
  {
    if up.Failure? then
      State(st.w, st.t.(errors := st.t.errors + [ShotJobFailed(artist, shot.code, up.error)]))
    else
      StartAndHydrate(o, State(st.w, CountShot(st.t, up.value.action)), shot, artist, agent, name, path, up.value)
  }

  /** One (shot, artist) iteration. */
  function ShotPair(c: Config, o: Oracle, st: State, shot: ShotInfo, artist: string): (r: State)
    requires SafeShot(shot) && RegexSafe(artist)
    ensures Grows(st.w.server, r.w.server)
    ensures artist !in c.artists ==> r == st
    // an agent the console does not list, or a failed agent lookup, adds one
    // error and changes nothing else
    ensures artist in c.artists &&
            (|st.w.log| in o.failing ||
             forall i :: 0 <= i < |st.w.server.agents| ==> !EqualsIgnoreCase(st.w.server.agents[i].name, c.artists[artist])) ==>
              r.t == st.t.(errors := st.t.errors + [AgentNotFound(artist, c.artists[artist])]) &&
              r.w == World(st.w.server, st.w.log + [Api.GetAgents])
  {
    if artist !in c.artists then st
    else
      var (w1, agent) := FindAgentByName(st.w, o, c.artists[artist]);
      if agent.None? then State(w1, st.t.(errors := st.t.errors + [AgentNotFound(artist, c.artists[artist])]))
      else ShotJobStep(c, o, State(w1, st.t), shot, artist, agent.value)
  }

  /** The loop over a shot's assigned artists. */
  function ShotArtists(c: Config, o: Oracle, st: State, shot: ShotInfo, artists: seq<string>): (r: State)
    requires SafeShot(shot)
    requires forall i :: 0 <= i < |artists| ==> RegexSafe(artists[i])
    ensures Grows(st.w.server, r.w.server)
    decreases |artists|
  {
    if |artists| == 0 then st
    else
      var st1 := ShotPair(c, o, st, shot, artists[0]);
      var r := ShotArtists(c, o, st1, shot, artists[1..]);
      GrowsTransitive(st.w.server, st1.w.server, r.w.server);
      r
  }

  /** The loop over the snapshot's shots. */
  function ShotPhase(c: Config, o: Oracle, st: State, shots: seq<ShotInfo>): (r: State)
    requires forall i :: 0 <= i < |shots| ==> SafeShot(shots[i])
    ensures Grows(st.w.server, r.w.server)
    decreases |shots|
  {
    if |shots| == 0 then st
    else
      var st1 := ShotArtists(c, o, st, shots[0], shots[0].artists);
      var r := ShotPhase(c, o, st1, shots[1..]);
      GrowsTransitive(st.w.server, st1.w.server, r.w.server);
      r
  }

  // ---------------------------------------------------------------------
  // Assets phase

  /** The `try` block of the assets loop: no run is started and nothing is
      hydrated. */
  function AssetsStep(c: Config, o: Oracle, st: State, artist: string, agent: Agent, project: string): (r: State)
    requires RegexSafe(artist) && RegexSafe(project)
    ensures Grows(st.w.server, r.w.server)
  {
    var path := BuildAssetsPath(c.paths, project);
    var name := AssetsJobName(artist, project);
    JobNameRegexSafe(artist, project, None);
    var (w1, up) := Upsert(st.w, o, name, path, agent.id, "Assets for " + project + " - " + artist);
    if up.Failure? then
      State(w1, st.t.(errors := st.t.errors + [AssetsJobFailed(artist, project, up.error)]))
    else
      var t1 := CountAssets(st.t, up.value.action);
      State(w1, t1.(details := t1.details + [Detail(AssetsJob, artist, project, None, name, path, up.value.action, false)]))
  }

  /** The loop over one artist's projects. */
  function AssetsProjects(c: Config, o: Oracle, st: State, artist: string, agent: Agent, projects: seq<string>): (r: State)
    requires RegexSafe(artist)
    requires forall i :: 0 <= i < |projects| ==> RegexSafe(projects[i])
    ensures Grows(st.w.server, r.w.server)
    decreases |projects|
  {
    if |projects| == 0 then st
    else
      var st1 := AssetsStep(c, o, st, artist, agent, projects[0]);
      var r := AssetsProjects(c, o, st1, artist, agent, projects[1..]);
      GrowsTransitive(st.w.server, st1.w.server, r.w.server);
      r
  }

  /** One artist of `artist_projects`: skipped silently when unknown to
      the configuration or without an agent. */
  function AssetsArtist(c: Config, o: Oracle, st: State, ap: ArtistProjects): (r: State)
    requires SafeEntry(ap)
    ensures Grows(st.w.server, r.w.server)
    ensures ap.artist !in c.artists ==> r == st
    // an artist without an agent is skipped without an error
    ensures ap.artist in c.artists &&
            (|st.w.log| in o.failing ||
             forall i :: 0 <= i < |st.w.server.agents| ==> !EqualsIgnoreCase(st.w.server.agents[i].name, c.artists[ap.artist])) ==>
              r == State(World(st.w.server, st.w.log + [Api.GetAgents]), st.t)
  {
    if ap.artist !in c.artists then st
    else
      var (w1, agent) := FindAgentByName(st.w, o, c.artists[ap.artist]);
      if agent.None? then State(w1, st.t)
      else AssetsProjects(c, o, State(w1, st.t), ap.artist, agent.value, ap.projects)
  }

  function AssetsPhase(c: Config, o: Oracle, st: State, aps: seq<ArtistProjects>): (r: State)
    requires forall i :: 0 <= i < |aps| ==> SafeEntry(aps[i])
    ensures Grows(st.w.server, r.w.server)
    decreases |aps|
  {
    if |aps| == 0 then st
    else
      var st1 := AssetsArtist(c, o, st, aps[0]);
      var r := AssetsPhase(c, o, st1, aps[1..]);
      GrowsTransitive(st.w.server, st1.w.server, r.w.server);
      r
  }

  // ---------------------------------------------------------------------
  // The whole sync

  /** Both phases from a fresh tally and an empty call log. */
  function RunSync(c: Config, o: Oracle, snap: Snapshot, server: Server): (r: State)
    requires SafeSnapshot(snap)
    ensures Grows(server, r.w.server)
  {
    var st0 := State(World(server, []), EmptyTally);
    var st1 := ShotPhase(c, o, st0, snap.shots);
    var r := AssetsPhase(c, o, st1, snap.artistProjects);
    GrowsTransitive(server, st1.w.server, r.w.server);
    r
  }

  function Summary(t: Tally): Results
  {
    Results(t.shotCreated, t.shotUpdated, t.shotHydrated, t.assetsCreated, t.assetsUpdated,
            |t.processed|, t.errors, t.details)
  }
}

=== FILE: webhook.dfy ===
/** The webhook front end (functions/main.py): the signature check, the
    entity id read from a payload, the route key, the order in which a
    request is refused (401, then 400, then 404), and the gates of the two
    handlers that decide whether the sync runs. The HMAC itself is
    abstract: the hex digest the server expects for the body is an input. */
module Webhook {
  import opened Outcomes
  import opened Strings
  import opened Api

  // ---------------------------------------------------------------------
  // Signature

  const SigPrefix := "sha1="

  const HexDigits := "0123456789abcdef"

  /** What `hmac.new(..., hashlib.sha1).hexdigest()` returns: 40
      lower-case hex digits. */
  predicate IsHexDigest(d: string)
  {
    |d| == 40 && forall i :: 0 <= i < |d| ==> d[i] in HexDigits
  }

  /** `_verify_sig(body, sig)` given the expected digest of `body`: an
      absent or empty header fails; one leading `sha1=` is dropped; the
      rest must equal the digest. */
  function VerifySig(sig: Option<string>, expected: string): (ok: bool)
    requires IsHexDigest(expected)
    ensures ok <==> sig == Some(expected) || sig == Some(SigPrefix + expected)
  {
    if sig.None? || |sig.value| == 0 then false
    else
      var s := sig.value;
      assert expected[0] != SigPrefix[0];
      if StartsWith(s, SigPrefix) then
        assert s == SigPrefix + s[|SigPrefix|..];
        s[|SigPrefix|..] == expected
      else
        s == expected
  }

  /** Only one prefix is dropped: a doubled prefix fails. */
  lemma DoublePrefixRejected(expected: string)
    requires IsHexDigest(expected)
    ensures !VerifySig(Some(SigPrefix + SigPrefix + expected), expected)
    ensures !VerifySig(Some(""), expected) && !VerifySig(None, expected)
  {
    assert |SigPrefix + SigPrefix + expected| != |SigPrefix + expected|;
  }

  // ---------------------------------------------------------------------
  // Entity id

  /** `_entity_id(data)`: a top-level `entity_id` key wins, whatever its
      value, even `null`; otherwise `entity.id` when `entity` is an object;
      otherwise `null`. */
  function EntityId(data: map<string, Json>): (r: Json)
    ensures "entity_id" in data ==> r == data["entity_id"]
    ensures r != JNull && "entity_id" !in data ==>
              "entity" in data && data["entity"].JObj? && "id" in data["entity"].fields &&
              r == data["entity"].fields["id"]
    ensures "entity_id" !in data && "entity" in data && data["entity"].JObj? ==>
              r == GetOr(data["entity"].fields, "id", JNull)
  {
    if "entity_id" in data then data["entity_id"]
    else
      var ent := GetOr(data, "entity", JNull);
      if ent.JObj? then GetOr(ent.fields, "id", JNull) else JNull
  }

  /** A `null` top-level id hides the nested one. */
  lemma NullEntityIdHidesNested(n: int)
    ensures EntityId(map["entity_id" := JNull, "entity" := JObj(map["id" := JNum(n)])]) == JNull
  {
  }

  // ---------------------------------------------------------------------
  // Route key

  /** The key `_dispatch` routes on: the explicit route when it is
      non-empty, otherwise the last segment of the path without trailing
      slashes; lower-cased either way. */
  function RouteKey(route: Option<string>, path: string): (key: string)
    ensures route.Some? && |route.value| > 0 ==> key == Lower(route.value)
    ensures !(route.Some? && |route.value| > 0) ==> '/' !in key && |key| <= |path|
    // without a route: the lower-cased last segment path[i..j], which holds
    // no '/', starts the path or follows a '/', and is followed only by the
    // trailing slashes (of which there are none when it is empty)
    ensures !(route.Some? && |route.value| > 0) ==>
              exists i, j :: LastSegmentAt(path, i, j) && key == Lower(path[i..j])
  {
    if route.Some? && |route.value| > 0 then Lower(route.value)
    else
      var seg := Last(SplitOn(RStrip(path, '/'), '/'));
      LastSegment(path);
      LowerKeepsNoSlash(seg);
      Lower(seg)
  }

  /** Lower-casing never introduces a '/'. */
  lemma LowerKeepsNoSlash(s: string)
    requires '/' !in s
    ensures '/' !in Lower(s)
  {
    forall k | 0 <= k < |s|
      ensures Lower(s)[k] != '/'
    {
      assert s[k] != '/';
    }
  }

  /** `path[i..j]` is the last non-empty segment of `path`: it holds no
      '/', starts the path or follows a '/', and only slashes follow it. */
  predicate LastSegmentAt(path: string, i: int, j: int)
  {
    0 <= i <= j <= |path| && '/' !in path[i..j] &&
    (i == 0 || path[i - 1] == '/') &&
    (j == 0 || path[j - 1] != '/') &&
    forall k :: j <= k < |path| ==> path[k] == '/'
  }

  /** `path.rstrip("/").split("/")[-1]` is that segment. */
  lemma LastSegment(path: string)
    ensures var stripped := RStrip(path, '/');
            var seg := Last(SplitOn(stripped, '/'));
            |seg| <= |stripped| &&
            LastSegmentAt(path, |stripped| - |seg|, |stripped|) &&
            seg == path[|stripped| - |seg|..|stripped|]
  {
    var stripped := RStrip(path, '/');
    RStripSpec(path, '/');
    LastPieceIsSuffix(stripped, '/');
    var seg := Last(SplitOn(stripped, '/'));
    var j := |stripped|;
    var i := j - |seg|;
    assert path[i..j] == stripped[i..];
  }

  lemma {:induction false} RStripTrailing(a: string, t: string, c: char)
    requires |a| > 0 && a[|a| - 1] != c
    requires forall i :: 0 <= i < |t| ==> t[i] == c
    ensures RStrip(a + t, c) == a
    decreases |t|
  {
    if |t| == 0 {
      assert a + t == a;
    } else {
      assert (a + t)[..|a + t| - 1] == a + t[..|t| - 1];
      RStripTrailing(a, t[..|t| - 1], c);
    }
  }

  /** Without a route, `.../<segment>` and `.../<segment>///` both route on
      the lower-cased segment. */
  lemma RouteKeyOfPath(prefix: string, segment: string, trailing: string)
    requires |segment| > 0 && '/' !in segment
    requires forall i :: 0 <= i < |trailing| ==> trailing[i] == '/'
    ensures RouteKey(None, prefix + "/" + segment + trailing) == Lower(segment)
  {
    var s := prefix + "/" + segment;
    assert segment[|segment| - 1] in segment;
    RStripTrailing(s, trailing, '/');
    LastPieceIsSuffix(s, '/');
    var l := Last(SplitOn(s, '/'));
    assert s[|prefix|] == '/';
    assert forall i :: |prefix| < i < |s| ==> s[i] == segment[i - |prefix| - 1];
  }

  // ---------------------------------------------------------------------
  // Shot-status handler

  const StatusAttribute := "sg_status_list"

  datatype ShotStatusOutcome =
    | Crashed                        // KeyError or AttributeError, not caught: HTTP 500
    | Ignored(attribute: Json)       // {"ignored": true, ...}
    | NoShotId                       // {"error": "No shot ID"}
    | ShotNotConfigured              // {"error": "Resilio Connect not configured"}
    | ShotSync(shotId: Json)         // the sync runs

  /** The payload's `data` object, and its `meta` object (`{}` when
      absent), when both are objects. */
  predicate ShotPayloadReadable(payload: map<string, Json>)
  {
    "data" in payload && payload["data"].JObj? &&
    ("meta" in payload["data"].fields ==> payload["data"].fields["meta"].JObj?)
  }

  function Meta(payload: map<string, Json>): map<string, Json>
    requires ShotPayloadReadable(payload)
  {
    var data := payload["data"].fields;
    if "meta" in data then data["meta"].fields else map[]
  }

  /** `_handle_shot_status(payload)` up to the point where the sync
      starts. */
  function ShotStatusGate(payload: map<string, Json>, configured: bool): (r: ShotStatusOutcome)
    ensures r.Crashed? <==> !ShotPayloadReadable(payload)
    ensures r.Ignored? <==> ShotPayloadReadable(payload) &&
                            GetOr(Meta(payload), "attribute_name", JNull) != JStr(StatusAttribute)
    ensures r.ShotSync? <==> ShotPayloadReadable(payload) &&
                             GetOr(Meta(payload), "attribute_name", JNull) == JStr(StatusAttribute) &&
                             EntityId(payload["data"].fields) != JNull && configured
    ensures r.ShotSync? ==> r.shotId == EntityId(payload["data"].fields)
  {
    if "data" !in payload || !payload["data"].JObj? then Crashed
    else
      var data := payload["data"].fields;
      if "meta" in data && !data["meta"].JObj? then Crashed
      else
        var attribute := GetOr(Meta(payload), "attribute_name", JNull);
        if attribute != JStr(StatusAttribute) then Ignored(attribute)
        else
          var id := EntityId(data);
          if id == JNull then NoShotId
          else if !configured then ShotNotConfigured
          else ShotSync(id)
  }

  // ---------------------------------------------------------------------
  // Assignment handler

  /** ShotGrid records by id, as `find_task` and `find_shot` return them;
      an id they do not hold, or any lookup error, reads as `None`. */
  datatype ShotGridRecords = ShotGridRecords(tasks: map<Json, map<string, Json>>, shots: map<Json, map<string, Json>>)

  datatype AssignmentOutcome =
    | Failed                                          // an exception, caught: {"error": "Webhook processing failed: ..."}
    | NoTaskId                                        // {"error": "No task ID found"}
    | TaskNotFound(taskId: Json)
    | NotLinked(taskId: Json)                         // {"message": "Task not linked to Shot", ...}
    | ShotNotFound(shotId: Json)
    | AssignmentNotConfigured
    | AssignmentSync(taskId: Json, shotName: Json, status: Json)
    | NotActive(taskId: Json, shotName: Json, status: Json)

  const ActiveStatus := JStr("active")

  /** A record is found when the lookup returns a non-empty dict. */
  function Lookup(records: map<Json, map<string, Json>>, id: Json): Option<map<string, Json>>
  {
    if id in records && |records[id]| > 0 then Some(records[id]) else None
  }

  /** The task the payload names, when it exists. */
  function TaskOf(payload: map<string, Json>, sg: ShotGridRecords): Option<map<string, Json>>
  {
    if "data" in payload && payload["data"].JObj? then Lookup(sg.tasks, EntityId(payload["data"].fields))
    else None
  }

  /** The task's linked entity is a Shot, and that shot exists and is
      active. */
  predicate LinkedToActiveShot(task: map<string, Json>, sg: ShotGridRecords)
  {
    var entity := GetOr(task, "entity", JNull);
    entity.JObj? && GetOr(entity.fields, "type", JNull) == JStr("Shot") &&
    var shotId := GetOr(entity.fields, "id", JNull);
    Truthy(shotId) && Lookup(sg.shots, shotId).Some? &&
    GetOr(Lookup(sg.shots, shotId).value, "sg_status_list", JStr("")) == ActiveStatus
  }

  /** `_handle_task_assignment(payload)` up to the point where the sync
      starts. */
  function AssignmentGate(payload: map<string, Json>, sg: ShotGridRecords, configured: bool): (r: AssignmentOutcome)
    ensures r.AssignmentSync? <==>
              configured && TaskOf(payload, sg).Some? && Truthy(EntityId(payload["data"].fields)) &&
              LinkedToActiveShot(TaskOf(payload, sg).value, sg)
    ensures r.AssignmentSync? ==> r.taskId == EntityId(payload["data"].fields) && r.status == ActiveStatus
    ensures r.NotActive? ==> r.status != ActiveStatus
    ensures r.Failed? ==> !("data" in payload && payload["data"].JObj?) ||
                          (TaskOf(payload, sg).Some? && !GetOr(TaskOf(payload, sg).value, "entity", JNull).JObj?)
  {
    if "data" !in payload || !payload["data"].JObj? then Failed
    else
      var taskId := EntityId(payload["data"].fields);
      if !Truthy(taskId) then NoTaskId
      else
        var task := Lookup(sg.tasks, taskId);
        if task.None? then TaskNotFound(taskId)
        else
          var entity := GetOr(task.value, "entity", JNull);
          if !Truthy(entity) then NotLinked(taskId)
          else if !entity.JObj? then Failed
          else if GetOr(entity.fields, "type", JNull) != JStr("Shot") then NotLinked(taskId)
          else
            var shotId := GetOr(entity.fields, "id", JNull);
            var shot := if Truthy(shotId) then Lookup(sg.shots, shotId) else None;
            if shot.None? then ShotNotFound(shotId)
            else
              var name := GetOr(shot.value, "code", JStr(""));
              var status := GetOr(shot.value, "sg_status_list", JStr(""));
              if status == ActiveStatus then
                if configured then AssignmentSync(taskId, name, status) else AssignmentNotConfigured
              else NotActive(taskId, name, status)
  }

  /** An id of 0 is refused as a task id (`if not task_id`) but accepted as
      a shot id (`if shot_id is None`). */
  lemma ZeroIdAsymmetry(sg: ShotGridRecords)
    ensures AssignmentGate(map["data" := JObj(map["entity_id" := JNum(0)])], sg, true) == NoTaskId
    ensures ShotStatusGate(map["data" := JObj(map["entity_id" := JNum(0),
                                                  "meta" := JObj(map["attribute_name" := JStr(StatusAttribute)])])],
                           true) == ShotSync(JNum(0))
  {
  }

  // ---------------------------------------------------------------------
  // Dispatch

  /** What `_dispatch` needs of a request: the route the entry point
      passes, the path, the `X-SG-Signature` header, the body parsed as JSON
      (`None` when it does not parse) and the digest the secret gives for
      the body. */
  datatype Delivery = Delivery(route: Option<string>, path: string, signature: Option<string>,
                             body: Option<Json>, digest: string)

  datatype Response =
    | BadSignature
    | BadJson
    | UnknownRoute
    | ServerError
    | AssignmentHandled(assignment: AssignmentOutcome)
    | ShotStatusHandled(shotStatus: ShotStatusOutcome)

  function StatusCode(r: Response): int
  {
    match r
    case BadSignature => 401
    case BadJson => 400
    case UnknownRoute => 404
    case ServerError => 500
    case _ => 200
  }

  const ShotStatusKeys: set<string> := {"shot", "shot_status", "shot-status"}

  /** Signed, with a JSON object for a body. */
  predicate Accepted(req: Delivery)
    requires IsHexDigest(req.digest)
  {
    VerifySig(req.signature, req.digest) && req.body.Some? && req.body.value.JObj?
  }

  /** `_dispatch(request, route)`: the signature is checked first, then the
      body must be a JSON object (`payload.get` fails on anything else),
      then the key must name a handler. */
  function Dispatch(req: Delivery, sg: ShotGridRecords, configured: bool): (r: Response)
    requires IsHexDigest(req.digest)
    ensures r.BadSignature? <==> !VerifySig(req.signature, req.digest)
    ensures r.BadJson? <==> VerifySig(req.signature, req.digest) && !(req.body.Some? && req.body.value.JObj?)
    ensures r.UnknownRoute? <==> Accepted(req) &&
                                 RouteKey(req.route, req.path) != "assignment" &&
                                 RouteKey(req.route, req.path) !in ShotStatusKeys
    ensures r.AssignmentHandled? <==> Accepted(req) && RouteKey(req.route, req.path) == "assignment"
    ensures r.AssignmentHandled? ==> r.assignment == AssignmentGate(req.body.value.fields, sg, configured)
    ensures r.ServerError? <==> Accepted(req) && RouteKey(req.route, req.path) in ShotStatusKeys &&
                                !ShotPayloadReadable(req.body.value.fields)
    ensures r.ShotStatusHandled? ==> RouteKey(req.route, req.path) in ShotStatusKeys &&
                                     r.shotStatus == ShotStatusGate(req.body.value.fields, configured)
  {
    var key := RouteKey(req.route, req.path);
    if !VerifySig(req.signature, req.digest) then BadSignature
    else if req.body.None? || !req.body.value.JObj? then BadJson
    else
      var payload := req.body.value.fields;
      if key == "assignment" then AssignmentHandled(AssignmentGate(payload, sg, configured))
      else if key in ShotStatusKeys then
        var outcome := ShotStatusGate(payload, configured);
        if outcome.Crashed? then ServerError else ShotStatusHandled(outcome)
      else UnknownRoute
  }

  /** A request with a bad signature is refused whatever it carries; an
      unknown route is reported only for a signed, well-formed request. */
  lemma RefusalOrder(req: Delivery, sg: ShotGridRecords, configured: bool)
    requires IsHexDigest(req.digest)
    ensures !VerifySig(req.signature, req.digest) ==> StatusCode(Dispatch(req, sg, configured)) == 401
    ensures StatusCode(Dispatch(req, sg, configured)) == 404 ==>
              VerifySig(req.signature, req.digest) && req.body.Some? && req.body.value.JObj?
  {
  }

  /** The two deployed entry points pass their route, so the path never
      decides the handler and neither ever answers 404. */
  lemma EntryPointsNeverNotFound(path: string, sig: Option<string>, body: Option<Json>, digest: string,
                                 sg: ShotGridRecords, configured: bool)
    requires IsHexDigest(digest)
    ensures StatusCode(Dispatch(Delivery(Some("assignment"), path, sig, body, digest), sg, configured)) != 404
    ensures StatusCode(Dispatch(Delivery(Some("shot_status"), path, sig, body, digest), sg, configured)) != 404
  {
    assert Lower("assignment") == "assignment";
    assert Lower("shot_status") == "shot_status";
  }
}
